=== FILE: README.md ===
# Workflow job reconciliation (cphaco-backend-api), modelled in Dafny

The service copies jobs of two Base workflows into Postgres:

- **Workflow 11055 ("huyệt mộ", grave plots).** A job's title, such as
  `F6.3-09-16;17-TỐNG QUỐC TRỌNG-0979944914`, names plot clusters, a
  customer and a phone. Each job becomes a row of `workflow_jobs_huyetmo`,
  links in `workflow_job_plots`, and owner columns in `ocm_plots`.
- **Workflow 11053 ("an táng / cải táng", burials).** A job's title is a
  `·`/`|`-separated list of `label: value` segments. Each open job becomes
  one row of `workflow_job_atct_min`.

Jobs arrive from a full sweep and from webhooks. This project models the
per-job decision logic as pure functions over an immutable JavaScript value
datatype (`JsValue.JVal`). Each database table is modelled as an abstract
map or set, and each processing step as a transformer of that state.

Modules, one concept each:

- `Wrappers`: `Option` and `Result`.
- `Seqs`: `NoDup`, `Dedup` (the `[...new Set(xs)]` idiom) and `SameExcept`
  on maps.
- `Strings`: JavaScript `trim`, `\s`, `split`, `join`, `includes`,
  `indexOf`, `lastIndexOf`, `padStart` and `replace(/\D+/g, "")` over
  `seq<char>`.
- `Unicode`: `toLowerCase`, and NFD decomposition followed by the removal
  of combining marks, both for the Latin and Vietnamese letters.
- `JsValue`: truthiness, `??`, `||`, `String(x)` and `Number(x)`. Integers
  are written out as decimal text.
- `PlotGrammar`: the cluster grammar `<block>-<row>-<idx;idx;…>` shared by
  both composite-field parsers.
- `FullSync11055`: status helpers, `parsePlotCodes`, the sweep's
  `parseCompositeField` and `extractJobFromPayload`.
- `CompositeField`: the utility `parseCompositeField`.
- `VnDate`: `parseVnDateTime`, which turns the text into an instant in
  whole minutes since 1970-01-01T00:00Z. It uses a days-from-civil
  function and `Date.UTC`'s month roll-over.
- `FullSync11053`: status helpers, `parseTitleToMap`,
  `normalizeCeremonyType`, `parseBaseLastUpdate` and `mapJobToAtctRow`.
- `AtctStore`: `upsertAtctRow`, `deleteAtctRow` and `processJob11053Atct`.
- `HuyetMoStore`: `upsertJobToDb` and `processJob11055` on three tables.
- `WebhookPayload`: the probing helpers common to both webhooks.
- `Webhook11055`: the `webhook11055` handler.
- `Webhook11053`: the `webhook11053Atct` handler.

Modelling conventions:

- A thrown error is an `Err` result, or an `error` field. In 11055, the
  statements run before a throw keep their effect.
- The clock (`NOW()`, `new Date()`) is the parameter `now`.
- The Base detail fetch is the parameter `fetch`, from a job id to a job or
  an error.
- 11055's `WORKFLOW_ID` comes from the environment, so it is the parameter
  `defaultId`. 11053's is the constant `11053`.

## Model

| member | source | states |
|---|---|---|
| FullSync11055.CompletedMeans | src/modules/workflow/fullSync11055.ts:19-28 | the sweep's completed test holds exactly when the status reads as the number 10 or lower-cases to "completed"; the literal `10`/`"10"` checks add nothing |
| FullSync11055.FailedMeans | src/modules/workflow/fullSync11055.ts:30-34 | the failed test holds exactly when the status reads as −10 or its lower-cased text contains "fail" |
| FullSync11055.StatusesExclusive | src/modules/workflow/fullSync11055.ts:24-34 | no status is both completed and failed, so testing failed first never hides a completed job |
| FullSync11055.OtherNumbersAreActive | src/modules/workflow/fullSync11055.ts:24-34 | every status that reads as a number other than 10 and −10 (−1, 0 and 1 included, and so `true`, `false` and `null`) is neither completed nor failed, so the job counts as active |
| FullSync11055.BlankStatusIsActive | src/modules/workflow/fullSync11055.ts:24-34 | a status of empty or white-space-only text reads as 0 and is neither completed nor failed |
| FullSync11055.ParsePlotCodes | src/modules/workflow/fullSync11055.ts:45-82 | a missing or empty field gives no codes; the result has no duplicates and every entry is a well-formed plot code |
| FullSync11055.JoinedCodesReparse | src/modules/workflow/fullSync11055.ts:45-82 | any duplicate-free list of plot codes, joined with '+', is read back as exactly that list |
| FullSync11055.ParsePlotCodesIdempotent | src/modules/workflow/fullSync11055.ts:45-82 | parsing the '+'-joined output again returns the same codes in the same order |
| FullSync11055.PhoneAtUnique | src/modules/workflow/fullSync11055.ts:111 | the trailing-phone pattern can match at one position at most |
| FullSync11055.FindPhone | src/modules/workflow/fullSync11055.ts:111-112 | the search returns the leftmost position where the phone pattern matches, or none when it matches nowhere |
| FullSync11055.SplitPhone | src/modules/workflow/fullSync11055.ts:110-116 | a phone is cut only where the pattern matches; the kept phone is non-empty and digits only; the rest is the trimmed text before the hyphen |
| FullSync11055.SplitName | src/modules/workflow/fullSync11055.ts:118-126 | a name is taken only after the last hyphen, contains a letter and no hyphen, and the rest is the trimmed text before that hyphen |
| FullSync11055.CompositeRestIsPrefix | src/modules/workflow/fullSync11055.ts:104-129 | the text left for the plot parser is a prefix of the trimmed title |
| FullSync11055.ParseComposite | src/modules/workflow/fullSync11055.ts:96-136 | blank input gives the empty result; a phone is digits only and comes from the one phone match; a name has a letter and no hyphen. For non-blank input the phone is the one `SplitPhone` cuts from the trimmed text, the name is the one `SplitName` cuts from what is left, and the codes are the plot parse of what remains after both cuts |
| FullSync11055.CompositeOfClusterNamePhone | src/modules/workflow/fullSync11055.ts:96-136 | for every `<cluster>-<name>-<phone>` title (name holding a letter and no hyphen, phone of at least seven digits), all three parts are recovered and the codes are the cluster's own |
| FullSync11055.DocumentedExample | src/modules/workflow/fullSync11055.ts:86-94 | the documented title yields codes F6.3-09-16 and F6.3-09-17, name "TỐNG QUỐC TRỌNG" and phone 0979944914 |
| FullSync11055.ExtractJobFromPayload | src/modules/workflow/fullSync11055.ts:194-214 | a non-object gives null; any other result is the value of one of the seven envelope probes that matched |
| FullSync11055.PayloadProbeOrder | src/modules/workflow/fullSync11055.ts:194-214 | the probes (job, data.job, data.item, data.jobs[0], data with an id, jobs[0], item) are tried strictly in that order and the first hit wins |
| PlotGrammar.MatchExtended | src/modules/workflow/fullSync11055.ts:58 | a recognised cluster is well-formed (one-letter-one-digit block with at most one dotted group, two-digit row, digits-and-';' indexes) and is exactly the text matched |
| PlotGrammar.MatchExtendedComplete | src/modules/workflow/fullSync11055.ts:58 | every well-formed cluster text is recognised, with its own block, row and indexes |
| PlotGrammar.ExtendedClusterExpansion | src/modules/workflow/fullSync11055.ts:64-68 | the codes of an extended cluster are exactly `<block>-<row>-<piece>` for its non-empty ';'-pieces, each piece left-padded with '0' to two characters: every code comes from a piece and every piece gives a code |
| PlotGrammar.SingleBranchSubsumed | src/modules/workflow/fullSync11055.ts:73-77 | anything the single-code pattern accepts the extended pattern accepts too, with the same one code, so the second branch never decides anything |
| PlotGrammar.PadIndexIsIndex | src/modules/workflow/fullSync11055.ts:66 | padding a digit piece keeps it digits only and makes it at least two characters long |
| PlotGrammar.PlotCodeReparses | src/modules/workflow/fullSync11055.ts:58-77 | a plot code, read as a cluster, yields just itself |
| PlotGrammar.PlotCodesOf | src/utils/parseCompositeField.ts:29-62 | the codes of a clean field have no duplicates and are all well-formed plot codes |
| Seqs.DedupKeepsFirstOccurrenceOrder | src/utils/parseCompositeField.ts:61-62 | de-duplication keeps entries in the order of their first occurrences |
| CompositeField.ParseCompositeField | src/utils/parseCompositeField.ts:15-63 | a missing or empty field gives no codes; the result is duplicate-free and all plot codes |
| CompositeField.CutNameSuffix | src/utils/parseCompositeField.ts:27 | what is cut starts at the leftmost `-<letter>` with no '+' after it; nothing before that point matches; without a match nothing is cut |
| CompositeField.WhitespaceInsensitive | src/utils/parseCompositeField.ts:16-19 | two fields that differ only in white space give the same codes |
| CompositeField.BlankFieldHasNoCodes | src/utils/parseCompositeField.ts:16-19 | a field of white space only gives no codes |
| CompositeField.NameAndPhoneCut | src/utils/parseCompositeField.ts:21-27 | "F6.3-09-16;17-TỐNGQUỐCTRỌNG-0979944914" is cut back to "F6.3-09-16;17" |
| CompositeField.FieldOfClusters | src/utils/parseCompositeField.ts:15-62 | any non-empty list of well-formed clusters joined by '+' gives, de-duplicated, `<block>-<row>-<piece>` for every non-empty ';'-piece of each cluster, cluster by cluster and piece by piece |
| CompositeField.TwoClustersExample | src/utils/parseCompositeField.ts:12 | "H1.9-07-16;17;18+H1.9-08-15" gives four codes across rows 07 and 08, in order |
| FullSync11053.JobStatusRaw | src/modules/workflow/fullSync11053Atct.ts:24-30 | the result is the first of status, status_id, job_status that is neither null nor undefined, and null when there is none or the job is falsy |
| FullSync11053.StatusesExclusive | src/modules/workflow/fullSync11053Atct.ts:32-51 | no status is both completed and failed under the burial policy |
| FullSync11053.NegativeIsFailed | src/modules/workflow/fullSync11053Atct.ts:43-49 | any status reading as a negative number is failed and not completed |
| FullSync11053.CompletedWords | src/modules/workflow/fullSync11053Atct.ts:32-40 | a status whose trimmed lower-cased text is "done" or "completed" is completed and not failed |
| FullSync11053.TitlePartsSplit | src/modules/workflow/fullSync11053Atct.ts:59 | a separator-free first part followed by `·`, `\|` or `&middot;` splits off ahead of the parts of the rest |
| FullSync11053.TitlePartsOfJoin | src/modules/workflow/fullSync11053Atct.ts:59 | separator-free parts joined by any one of the three separators split back into exactly those parts |
| FullSync11053.SegmentByFirstColon | src/modules/workflow/fullSync11053Atct.ts:61-68 | a segment without a colon or with an empty key gives nothing; the key is the trimmed text before the first colon and the value is the trimmed rest with leading colons stripped |
| FullSync11053.EntriesKeys | src/modules/workflow/fullSync11053Atct.ts:60-70 | a key is in the map exactly when some segment produced it |
| FullSync11053.EntriesLastWins | src/modules/workflow/fullSync11053Atct.ts:60-70 | a key's value is the one from the last segment that produced it |
| FullSync11053.ParseTitleToMap | src/modules/workflow/fullSync11053Atct.ts:55-71 | an empty title gives the empty map; every entry has a non-empty trimmed colon-free key and a trimmed value not starting with ':' |
| FullSync11053.OneSegmentTitle | src/modules/workflow/fullSync11053Atct.ts:55-71 | `key: value` maps key to value, later colons in the value kept |
| FullSync11053.RepeatedKeyLastWins | src/modules/workflow/fullSync11053Atct.ts:55-71 | for `key: a \| key: b` the map holds key ↦ b |
| FullSync11053.NormalizeCeremonyType | src/modules/workflow/fullSync11053Atct.ts:73-79 | the result is null exactly when the input is blank; text whose lower-cased, accent-stripped, trimmed form contains "cai tang" gives "CẢI TÁNG"; otherwise text containing "an tang" gives "AN TÁNG"; any other text gives its trimmed self |
| FullSync11053.LabelsAreNormal | src/modules/workflow/fullSync11053Atct.ts:76-77 | the two labels "CẢI TÁNG" and "AN TÁNG" normalise to themselves |
| FullSync11053.KeptTextIsNormal | src/modules/workflow/fullSync11053Atct.ts:78 | a non-blank text whose folded form mentions neither label is kept as its trimmed self, and that trimmed text normalises to itself |
| FullSync11053.NormalizeCeremonyTypeIdempotent | src/modules/workflow/fullSync11053Atct.ts:73-79 | normalising a normalised value changes nothing |
| FullSync11053.BaseUpdatedAt | src/modules/workflow/fullSync11053Atct.ts:110-115 | a truthy value that reads as a non-zero number n of seconds gives n × 1000 milliseconds; a falsy, unreadable or zero value gives the clock reading |
| FullSync11053.BaseUpdatedAtOfText | src/modules/workflow/fullSync11053Atct.ts:110-115 | a timestamp sent as decimal text gives the same instant as the number |
| FullSync11053.BaseUpdatedAtOfZero | src/modules/workflow/fullSync11053Atct.ts:113 | a zero timestamp, as a number or as text, falls back to the clock |
| FullSync11053.FirstNonEmpty | src/modules/workflow/fullSync11053Atct.ts:120 | the result is empty exactly when every label is missing or empty, and otherwise is the value of the first label that has one |
| FullSync11053.Column | src/modules/workflow/fullSync11053Atct.ts:131-141 | a column is null exactly when its label is missing or empty, and otherwise holds the label's value |
| FullSync11053.BirthYear | src/modules/workflow/fullSync11053Atct.ts:137 | the birth year is present exactly when its label reads as a non-zero number, and is then that number |
| FullSync11053.TitleMapOf | src/modules/workflow/fullSync11053Atct.ts:55-59 | a truthy title that is not a string throws; a string title gives its parsed map; a falsy title gives the empty map |
| FullSync11053.MapJobToAtctRow | src/modules/workflow/fullSync11053Atct.ts:117-145 | a null job and a non-string title throw; a mapped row is keyed (11053, String(id)), has no empty-string columns and carries the parsed last update |
| FullSync11053.MapJobColumns | src/modules/workflow/fullSync11053Atct.ts:117-145 | for a readable title map, the mapping fails exactly when the death or funeral time fails to parse; each text column is null when its label is missing or empty and holds the label's value otherwise; the ceremony is the normalised first non-empty request label; the age phrase is the first non-empty age label or null; the birth year is the non-zero number under its label; the instants are the parsed times |
| FullSync11053.AgePhraseIsTitleValue | src/modules/workflow/fullSync11053Atct.ts:123-124 | the trim applied to the age phrase never changes a value read from the title |
| FullSync11053.DeceasedNameFromTitle | src/modules/workflow/fullSync11053Atct.ts:117-145 | a title of one deceased-name segment maps to a row with that name, no time of death and job id String(id) |
| VnDate.NextMonth | src/modules/workflow/fullSync11053Atct.ts:105 | the day count behind every instant advances by the month's length from the first of each month from January to November to the first of the next, February having 29 days in leap years |
| VnDate.TwoDigitYearInstant | src/modules/workflow/fullSync11053Atct.ts:105 | a year from 0 to 99 gives the instant of the same day and time in year 1900 + y, as `Date.UTC` does |
| VnDate.MonthThirteenRollsOver | src/modules/workflow/fullSync11053Atct.ts:105 | month index 12 rolls over to January of the next year |
| VnDate.InstantOfOrdinaryDateOk | src/modules/workflow/fullSync11053Atct.ts:98-106 | for a month in 1..12 and a year past 99, the instant is the calendar day at hh:mm taken in UTC+7, and it is an error exactly when that lies outside the `Date` range |
| VnDate.ParseText | src/modules/workflow/fullSync11053Atct.ts:83-106 | unreadable text gives null, and only readable text can raise the range error |
| VnDate.ParseTextIsInstant | src/modules/workflow/fullSync11053Atct.ts:83-106 | readable text gives the `Date.UTC` instant of its fields read in UTC+7, and fails exactly when that instant is out of the `Date` range |
| VnDate.ParseVnDateTime | src/modules/workflow/fullSync11053Atct.ts:81-107 | falsy input gives null; only a truthy input whose text reads as a date can fail; every instant returned lies inside the `Date` range |
| VnDate.VnDateTimeOfDmy | src/modules/workflow/fullSync11053Atct.ts:81-107 | a `D/M/Y HH:MM` text with month 1..12 and a year past 99 gives null when the day is 0, the calendar day at hh:mm in UTC+7 when that is in range, and a RangeError otherwise |
| VnDate.VnDateTimeOfYmd | src/modules/workflow/fullSync11053Atct.ts:81-107 | a `Y-M-D HH:MM` text reads the same way as its `D/M/Y` twin |
| VnDate.LayoutsAgree | src/modules/workflow/fullSync11053Atct.ts:89-93 | D/M/Y and Y-M-D of the same numerals read the same date |
| VnDate.DateOnlyIsSeventeenUtc | src/modules/workflow/fullSync11053Atct.ts:98-105 | a date without a time is 17:00 UTC of the previous day |
| VnDate.ExampleDeathTime | src/modules/workflow/fullSync11053Atct.ts:81-107 | "27/11/2025 09:39" is 02:39 UTC on 2025-11-27 |
| AtctStore.Upsert | src/modules/workflow/fullSync11053Atct.ts:168-202 | the row is stored under its (workflow_id, job_id) key and no other row changes |
| AtctStore.DeleteRow | src/modules/workflow/fullSync11053Atct.ts:204-206 | the (11053, jobId) row is gone and no other row changes |
| AtctStore.OpOf | src/modules/workflow/fullSync11053Atct.ts:246-267 | completed is tested before failed and both delete with their reason; an open job is upserted with its mapped row; the statement touches the job's own key |
| AtctStore.ProcessJob | src/modules/workflow/fullSync11053Atct.ts:246-267 | only the job's key changes; completed and failed jobs are deleted with that reason; an open job's mapped row is stored; a thrown error leaves the table as it was |
| AtctStore.ProcessJobIdempotent | src/modules/workflow/fullSync11053Atct.ts:246-267 | processing the same job twice gives the table and answer of processing it once |
| AtctStore.ProcessJobsCommute | src/modules/workflow/fullSync11053Atct.ts:246-267 | two jobs with different ids give the same table in either order |
| AtctStore.RowAfterProcessing | src/modules/workflow/fullSync11053Atct.ts:246-267 | a job keeps a row exactly when it is open, and that row is its mapping |
| HuyetMoStore.SystemError | src/modules/workflow/fullSync11055.ts:303-312 | reading the system fields throws exactly when the followers array (or, without one, the watchers array) holds null or undefined |
| HuyetMoStore.PlanOf | src/modules/workflow/fullSync11055.ts:416-445 | failed is tested before completed; an open job halts on the system-field error before it is written, and otherwise is synced with its parsed composite |
| HuyetMoStore.CompositeOf | src/modules/workflow/fullSync11055.ts:453-456 | the composite is read from `name` when it is truthy, else from `title` when that is truthy, else from the empty text. A truthy source that is not text throws at `raw.trim()` |
| HuyetMoStore.ProcessJob | src/modules/workflow/fullSync11055.ts:415-496 | a null or undefined job throws reading its id and changes nothing. Otherwise only the job's own row changes, and other jobs' links never do. A failed job (tested first) is soft-deleted if present, never inserted, and loses its links. A completed job loses its row and links. An open job with a null or undefined follower throws before anything is written. Any other open job ends live, with the payload as its raw value; it throws exactly when its composite source is not text, and otherwise its links are the parsed codes and the owners are updated from the parsed customer. A synced row keeps its is_frozen flag, takes workflow_id `job.workflow_id ?? WORKFLOW_ID`, and its customer columns become `COALESCE(parsed, stored)` (lines 459-467); when the composite throws they keep their stored values. Closed jobs leave the owners as they were |
| HuyetMoStore.SoftDelete | src/modules/workflow/fullSync11055.ts:423-428 | an existing row gets deleted_at = now and is unfrozen, a missing row is not created, and other rows are unchanged |
| HuyetMoStore.UpsertJob | src/modules/workflow/fullSync11055.ts:355-413 | the row exists afterwards, live, synced now, with the job as its raw value and workflow_id `job.workflow_id ?? WORKFLOW_ID`; an existing row keeps is_frozen and the customer fields; a new row is unfrozen without a customer; other rows are unchanged |
| HuyetMoStore.UpdateCustomer | src/modules/workflow/fullSync11055.ts:459-467 | the customer fields are overwritten only by parsed values that are present; other rows are unchanged |
| HuyetMoStore.ReplacePlots | src/modules/workflow/fullSync11055.ts:470-481 | afterwards the job's links are exactly the given codes and every other job's links are unchanged |
| HuyetMoStore.UpdateOwners | src/modules/workflow/fullSync11055.ts:484-495 | no plot row is created; only the parsed codes' owners change, and only when a customer was parsed |
| HuyetMoStore.Refresh | src/modules/workflow/fullSync11055.ts:458-495 | after the upsert, the job's customer columns become `COALESCE(parsed, stored)` and nothing else in its row changes; its links are exactly the parsed codes, other jobs' links and rows are untouched, and the owners are updated as `UpdateOwners` says |
| HuyetMoStore.Apply | src/modules/workflow/fullSync11055.ts:416-496 | only the plan's job row and links change, plus, for a synced job whose composite parses, the owners exactly as `UpdateOwners` sets them. An error is thrown exactly for a halt (nothing written) or a composite source that is not a string (row already upserted, links and owners untouched). Failed soft-deletes, completed removes, and an open job ends live with links equal to its parsed codes. A synced row has the job as raw value, is synced now, keeps is_frozen, takes workflow_id `job.workflow_id ?? WORKFLOW_ID`, and its customer columns are `COALESCE(parsed, stored)` when the composite parses and the stored ones otherwise |
| HuyetMoStore.ProcessJobIdempotent | src/modules/workflow/fullSync11055.ts:416-496 | with the same clock reading, processing a job twice gives the state and error of processing it once |
| WebhookPayload.BodyOf | src/modules/workflow/webhook11055.ts:34 | a truthy request body is used as it stands and a falsy one becomes `{}`, so the payload is always truthy |
| WebhookPayload.ExtractJobFromWebhook | src/modules/workflow/webhook11055.ts:6-17 | a non-object gives null; any other result is an object found at job, data.job, data.item or item |
| WebhookPayload.WebhookProbeOrder | src/modules/workflow/webhook11053Atct.ts:12-23 | those four places are tried strictly in order and the first object found wins |
| WebhookPayload.ExtractJobIdFromWebhook | src/modules/workflow/webhook11055.ts:19-30 | the id is null exactly when the first non-nullish candidate of job_id, id, data.job_id, data.id is falsy or blank; otherwise it is that candidate's text, trimmed and non-empty |
| WebhookPayload.JobIdOfText | src/modules/workflow/webhook11053Atct.ts:25-36 | a trimmed non-empty job_id string comes back unchanged |
| WebhookPayload.JobIdOfNumber | src/modules/workflow/webhook11053Atct.ts:25-36 | a non-zero numeric candidate comes back as its decimal text |
| WebhookPayload.EmptyJobIdShadowsId | src/modules/workflow/webhook11055.ts:19-30 | a `job_id` that is present but falsy (empty text, 0, false) gives no id, even when `id` is usable |
| Webhook11055.Webhook | src/modules/workflow/webhook11055.ts:32-62 | the status is 200, 400 or 500. It is 400 exactly when there is neither a job nor an id, with nothing changed. A job in the payload is processed as it stands: the answer is 200 in job-in-payload mode exactly when processing throws nothing, and 500 otherwise |
| Webhook11055.ProcessAndReply | src/modules/workflow/webhook11055.ts:38-61 | the database is what processing leaves, including a partial write before a throw; the answer is 200 with the given body exactly when processing throws nothing, and otherwise 500 with the error's message |
| Webhook11055.FetchesExtractedId | src/modules/workflow/webhook11055.ts:44-61 | with only an id, that id is fetched. A failed fetch answers 500 and changes nothing. A fetched job is processed, and the answer is 200 echoing the id in fetch-job mode exactly when processing throws nothing |
| Webhook11055.FullJobNeedsNoFetch | src/modules/workflow/webhook11055.ts:37-42 | when the payload holds a job, the answer and the state do not depend on the fetcher |
| Webhook11055.SystemErrorWritesNothing | src/modules/workflow/webhook11055.ts:37-61 | an open job with a null or undefined follower answers 500 with that TypeError and leaves the database as it was |
| Webhook11055.PartialEffectOnError | src/modules/workflow/webhook11055.ts:37-61 | an open job whose followers read cleanly but whose composite source is not text answers 500, yet its row has already been upserted |
| Webhook11053.EchoedId | src/modules/workflow/webhook11053Atct.ts:54 | the echoed id is job.id when truthy, else job.job_id when truthy, else null |
| Webhook11053.ProcessAndReply | src/modules/workflow/webhook11053Atct.ts:48-80 | the answer is 200 exactly when the job is present and is completed, failed or maps to a row; then only the job's row changes, gone when the job is closed and holding its mapping when open; otherwise 500 with the error message and the table as it was |
| Webhook11053.Webhook | src/modules/workflow/webhook11053Atct.ts:41-82 | the status is 200, 400 or 500. It is 400 exactly when there is neither a job nor an id, and a non-200 answer leaves the table as it was. A job in the payload answers 200, echoing its id with the processed table, exactly when processing succeeds; otherwise it answers 500 with the error's message |
| Webhook11053.FetchesExtractedId | src/modules/workflow/webhook11053Atct.ts:58-80 | with only an id, that id is fetched. A failed fetch answers 500. A fetched job that processes answers 200 in fetch-job mode with that id. A fetched job whose processing throws answers 500 with its message, and the table is unchanged |
| Webhook11053.JobInPayloadReply | src/modules/workflow/webhook11053Atct.ts:47-56 | a job in the payload that processes answers 200 in job-in-payload mode, echoing `job.id \|\| job.job_id \|\| null` |
| Webhook11053.CompletedJobInPayload | src/modules/workflow/webhook11053Atct.ts:47-56 | a completed job in the payload answers 200 and its row is gone |

## Left out

- HTTP calls to Base (`fetchJobsPage`, `fetchJobDetail` and its endpoint fallback loop, `fetchJobDetailAtct`) and `JSON.parse` of their bodies are not modelled. The fetched job is an input (`fetch`).
- The SQL text, the `pg` pool and connection handling are not modelled. Only each statement's effect on the abstract tables is.
- The sweep loops `fullSync11055` and `fullSync11053Atct` are not modelled. They are pagination driven by remote responses, around the per-job decision modelled here.
- The columns `extractSystem` derives are not modelled one by one: they are functions of the payload, so a job row stores the payload (`raw`) instead. Only the TypeError it throws on a null or undefined follower is modelled (`SystemError`).
- HuyetMoStore.Apply: a row Postgres refuses (an Invalid Date built from `since`, `created_at`, `updated_at` or `done_at`, or a `workflow_id` of the wrong type) makes the real upsert throw with nothing written; the model always writes the row, because the column types live in the database schema, which is not part of this model.
- `console.log` and `console.error` calls are not modelled.
- `src/index.ts`, `dist/index.js`, `dist/config/db.js` and `dist/modules/workflow/fullSync11055.js` (stale compiled output) are not part of this model.
- JavaScript numbers are modelled as integers only. `Number(x)` of text is modelled for decimal integers with an optional sign and surrounding white space; `""` reads as 0. Fractions, exponents, hexadecimal and `Infinity` read as NaN.
- `toLowerCase` is modelled for ASCII, Latin-1 and the Vietnamese letters. NFD diacritic stripping is a table for those letters, followed by removal of U+0300–U+036F. Other scripts pass through unchanged.
- `parseVnDateTime` returns an instant in whole minutes rather than an ISO string. `Number(...)` is applied to the date and time fields with the integer approximation above, so fractional fields are not modelled.
- `BaseUpdatedAt`: the wall-clock fallback of `parseBaseLastUpdate` is the parameter `now`; an out-of-range `new Date(ts * 1000)` (an Invalid Date) is not modelled.
- JsValue.ToStr, JsValue.ToNumber: every object converts to "[object Object]" and to NaN. An object with its own `toString` or `valueOf` key is not modelled. JavaScript calls such a key during `String(o)` or `Number(o)`, and throws a TypeError when it is not a function. For a status such as `{"toString": 1}`, the source's `isFailedStatus` throws before anything is written; the model treats the job as open and writes it. The same gap applies to `String(job.id)`.
- JsValue.IntToStr: `String(n)` is written as plain decimal for every integer. JavaScript prints magnitudes of 10^21 and more in exponent form and rounds integers beyond 2^53, so for such ids `String(job.id)` (AtctStore.JobKey, HuyetMoStore row keys) and ExtractJobIdFromWebhook's text differ from the source; the model treats every id as an exact integer.
- Error messages are fixed texts standing for the TypeError or RangeError a JavaScript engine would throw; their exact wording is engine-dependent.
- HuyetMoStore.ProcessJobIdempotent: stated for the same clock reading only. With a later clock a second delivery moves every `NOW()` it writes to the later reading, which is not stated: a failed job's `deleted_at`, a live job's `synced_at`, and the `updated_at` of the owners it touches.
- Concurrency between the background sweep and webhooks is not modelled; ProcessJobsCommute and the idempotence lemmas state what a sequential interleaving gives.

=== FILE: atct_store.dfy ===
/** The `workflow_job_atct_min` table and what `processJob11053Atct`
    (src/modules/workflow/fullSync11053Atct.ts) does to it: a finished job's
    row is deleted, any other job's row is replaced by a fresh mapping. */
module AtctStore {
  import opened Wrappers
  import opened Seqs
  import opened JsValue
  import opened FullSync11053

  /** The table's primary key `(workflow_id, job_id)`. */
  type Key = (int, string)

  type Table = map<Key, AtctRow>

  function KeyOf(row: AtctRow): Key {
    (row.workflowId, row.jobId)
  }

  /** Every row is stored under its own key. */
  predicate Keyed(t: Table) {
    forall k :: k in t ==> KeyOf(t[k]) == k
  }

  /** `upsertAtctRow`: insert, or on a key conflict overwrite every other column. */
  function Upsert(t: Table, row: AtctRow): (r: Table)
    ensures KeyOf(row) in r && r[KeyOf(row)] == row
    ensures SameExcept(t, r, KeyOf(row))
    ensures Keyed(t) ==> Keyed(r)
  {
    t[KeyOf(row) := row]
  }

  /** `deleteAtctRow(jobId)`: removes the row of this workflow with that job id. */
  function DeleteRow(t: Table, jobId: string): (r: Table)
    ensures (WorkflowId, jobId) !in r
    ensures SameExcept(t, r, (WorkflowId, jobId))
    ensures Keyed(t) ==> Keyed(r)
  {
    map k | k in t && k != (WorkflowId, jobId) :: t[k]
  }

  /** The value `processJob11053Atct` resolves to. */
  datatype Action = Deleted(reason: string) | Upserted(row: AtctRow)

  datatype Outcome = Outcome(table: Table, action: Action)

  /** The key a job's row lives under. */
  function JobKey(job: JVal): Key {
    (WorkflowId, ToStr(Get(job, "id")))
  }

  /** How `processJob11053Atct` classifies a job's raw status; completion is tested first. */
  datatype Verdict = Completed | Failed | Open

  function VerdictOf(job: JVal): (v: Verdict)
    ensures v == Completed <==> IsCompletedStatus(JobStatusRaw(job))
    ensures v == Failed <==> IsFailedStatus(JobStatusRaw(job))
    ensures v == Open <==> !IsCompletedStatus(JobStatusRaw(job)) && !IsFailedStatus(JobStatusRaw(job))
  {
    var status := JobStatusRaw(job);
    StatusesExclusive(status);
    if IsCompletedStatus(status) then Completed
    else if IsFailedStatus(status) then Failed
    else Open
  }

  /** The one statement a job leads to, as a value: it depends on the job
      and the clock, never on the table. */
  datatype Op = Put(row: AtctRow) | Drop(jobId: string, reason: string)

  function Apply(t: Table, op: Op): Table {
    match op
    case Put(row) => Upsert(t, row)
    case Drop(jobId, _) => DeleteRow(t, jobId)
  }

  function OpKey(op: Op): Key {
    match op
    case Put(row) => KeyOf(row)
    case Drop(jobId, _) => (WorkflowId, jobId)
  }

  /** What the processor decides for `job`, or the error it throws first. */
  function OpOf(job: JVal, now: int): (r: Result<Op>)
    ensures IsNullish(job) ==> r.Err?
    ensures r.Ok? ==> OpKey(r.value) == JobKey(job)
    ensures !IsNullish(job) && VerdictOf(job) == Completed ==> r == Ok(Drop(ToStr(Get(job, "id")), "completed"))
    ensures !IsNullish(job) && VerdictOf(job) == Failed ==> r == Ok(Drop(ToStr(Get(job, "id")), "failed"))
    ensures r.Ok? && r.value.Put? ==> VerdictOf(job) == Open && MapJobToAtctRow(job, now) == Ok(r.value.row)
    ensures r.Ok? && r.value.Drop? ==> VerdictOf(job) != Open
    ensures !IsNullish(job) && VerdictOf(job) == Open ==> (r.Ok? <==> MapJobToAtctRow(job, now).Ok?)
  {
    if IsNullish(job) then Err(NullJobError)
    else
      var jobId := ToStr(Get(job, "id"));
      match VerdictOf(job)
      case Completed => Ok(Drop(jobId, "completed"))
      case Failed => Ok(Drop(jobId, "failed"))
      case Open =>
        match MapJobToAtctRow(job, now)
        case Err(e) => Err(e)
        case Ok(row) => Ok(Put(row))
  }

  function ActionOf(op: Op): Action {
    match op
    case Put(row) => Upserted(row)
    case Drop(_, reason) => Deleted(reason)
  }

  /** `processJob11053Atct(job)` against table `t`, with `now` the clock
      reading used for a missing `last_update`. An `Err` is a thrown error;
      no statement has run by then, so the table is as it was. */
  function ProcessJob(t: Table, job: JVal, now: int): (r: Result<Outcome>)
    ensures r.Ok? <==> OpOf(job, now).Ok?
    ensures IsNullish(job) ==> r.Err?
    ensures r.Ok? ==> SameExcept(t, r.value.table, JobKey(job))
    ensures r.Ok? && Keyed(t) ==> Keyed(r.value.table)
    ensures !IsNullish(job) && VerdictOf(job) == Completed ==>
      r == Ok(Outcome(DeleteRow(t, ToStr(Get(job, "id"))), Deleted("completed")))
    ensures !IsNullish(job) && VerdictOf(job) == Failed ==>
      r == Ok(Outcome(DeleteRow(t, ToStr(Get(job, "id"))), Deleted("failed")))
    ensures r.Ok? && r.value.action.Deleted? ==> JobKey(job) !in r.value.table && VerdictOf(job) != Open
    ensures r.Ok? && r.value.action.Upserted? ==>
      && VerdictOf(job) == Open
      && MapJobToAtctRow(job, now) == Ok(r.value.action.row)
      && JobKey(job) in r.value.table && r.value.table[JobKey(job)] == r.value.action.row
  {
    match OpOf(job, now)
    case Err(e) => Err(e)
    case Ok(op) => Ok(Outcome(Apply(t, op), ActionOf(op)))
  }

  /** Replaying a statement on its own result changes nothing. */
  lemma ApplyTwice(t: Table, op: Op)
    ensures Apply(Apply(t, op), op) == Apply(t, op)
  {
  }

  /** Statements on different keys commute. */
  lemma ApplyCommutes(t: Table, x: Op, y: Op)
    requires OpKey(x) != OpKey(y)
    ensures Apply(Apply(t, x), y) == Apply(Apply(t, y), x)
  {
    var l := Apply(Apply(t, x), y);
    var r := Apply(Apply(t, y), x);
    assert forall k :: k in l <==> k in r;
    assert forall k :: k in l ==> l[k] == r[k];
  }

  /** Delivering the same job twice (the sweep and a webhook, say) leaves
      the table as one delivery did. */
  lemma ProcessJobIdempotent(t: Table, job: JVal, now: int)
    requires ProcessJob(t, job, now).Ok?
    ensures ProcessJob(ProcessJob(t, job, now).value.table, job, now) ==
      Ok(Outcome(ProcessJob(t, job, now).value.table, ProcessJob(t, job, now).value.action))
  {
    ApplyTwice(t, OpOf(job, now).value);
  }

  /** Jobs with different ids touch different rows, so their order does not matter. */
  lemma ProcessJobsCommute(t: Table, a: JVal, b: JVal, now: int)
    requires JobKey(a) != JobKey(b)
    requires ProcessJob(t, a, now).Ok? && ProcessJob(t, b, now).Ok?
    ensures ProcessJob(ProcessJob(t, a, now).value.table, b, now).Ok?
    ensures ProcessJob(ProcessJob(t, b, now).value.table, a, now).Ok?
    ensures ProcessJob(ProcessJob(t, a, now).value.table, b, now).value.table ==
      ProcessJob(ProcessJob(t, b, now).value.table, a, now).value.table
  {
    ApplyCommutes(t, OpOf(a, now).value, OpOf(b, now).value);
  }

  /** Whether a job's row survives depends on its status alone: a finished
      job leaves no row, an open one leaves exactly its mapped row. */
  lemma RowAfterProcessing(t: Table, job: JVal, now: int)
    requires ProcessJob(t, job, now).Ok?
    ensures JobKey(job) in ProcessJob(t, job, now).value.table <==> VerdictOf(job) == Open
    ensures JobKey(job) in ProcessJob(t, job, now).value.table ==>
      ProcessJob(t, job, now).value.table[JobKey(job)] == MapJobToAtctRow(job, now).value
  {
  }
}

=== FILE: composite_field.dfy ===
/** `parseCompositeField` of the shared utilities (src/utils/parseCompositeField.ts):
    the plot codes of a field, after deleting all white space and cutting a
    trailing `-<name>…` suffix. */
module CompositeField {
  import opened Wrappers
  import opened Strings
  import opened Seqs
  import opened PlotGrammar

  /** The pattern `-[A-Za-zÀ-ỹ][^+]*$` matches starting at `i`: a hyphen, a
      letter, and no '+' up to the end of the text. */
  predicate NameSuffixAt(s: string, i: int) {
    0 <= i && i + 1 < |s| && s[i] == '-' && IsNameLetter(s[i + 1]) && '+' !in s[i + 1..]
  }

  /** The leftmost position at or after `from` where the suffix pattern matches. */
  function FindNameSuffix(s: string, from: nat): (r: Option<nat>)
    requires from <= |s|
    ensures r.Some? ==> from <= r.value < |s| && NameSuffixAt(s, r.value)
    ensures forall j :: from <= j < (if r.Some? then r.value else |s|) ==> !NameSuffixAt(s, j)
    decreases |s| - from
  {
    if from == |s| then None
    else if NameSuffixAt(s, from) then Some(from)
    else FindNameSuffix(s, from + 1)
  }

  /** `s.replace(/-[A-Za-zÀ-ỹ][^+]*$/u, "")`: the leftmost match, which runs
      to the end of the text, is removed. */
  function CutNameSuffix(s: string): (r: string)
    ensures IsPrefix(r, s)
    ensures |r| < |s| ==> NameSuffixAt(s, |r|)
    ensures forall j :: 0 <= j < |r| ==> !NameSuffixAt(s, j)
    ensures |r| == |s| ==> forall j :: !NameSuffixAt(s, j)
  {
    match FindNameSuffix(s, 0)
    case None => s
    case Some(i) => s[..i]
  }

  /** `parseCompositeField(raw)`. */
  function ParseCompositeField(raw: Option<string>): (r: seq<string>)
    ensures raw.None? || raw == Some("") ==> r == []
    ensures NoDup(r)
    ensures forall k :: 0 <= k < |r| ==> IsPlotCode(r[k])
  {
    if raw.None? || raw.value == "" then []
    else PlotCodesOf(CutNameSuffix(RemoveWhitespace(Trim(raw.value))))
  }

  lemma PlotCodesOfEmpty()
    ensures PlotCodesOf("") == []
  {
    assert Split("", '+') == [""];
    assert CodesOfParts([""]) == [];
  }

  /** A field made only of white space yields no plot codes. */
  lemma BlankFieldHasNoCodes(b: string)
    requires RemoveWhitespace(b) == ""
    ensures ParseCompositeField(Some(b)) == []
  {
    RemoveWhitespaceIgnoresTrim(b);
    assert CutNameSuffix("") == "";
    PlotCodesOfEmpty();
  }

  lemma SameCleanTextSameCodes(a: string, b: string)
    requires RemoveWhitespace(a) == RemoveWhitespace(b)
    requires a != "" && b != ""
    ensures ParseCompositeField(Some(a)) == ParseCompositeField(Some(b))
  {
    RemoveWhitespaceIgnoresTrim(a);
    RemoveWhitespaceIgnoresTrim(b);
  }

  /** Inputs that differ only in white space give the same plot codes. */
  lemma WhitespaceInsensitive(a: string, b: string)
    requires RemoveWhitespace(a) == RemoveWhitespace(b)
    ensures ParseCompositeField(Some(a)) == ParseCompositeField(Some(b))
  {
    if a == "" {
      BlankFieldHasNoCodes(b);
    } else if b == "" {
      BlankFieldHasNoCodes(a);
    } else {
      SameCleanTextSameCodes(a, b);
    }
  }

  // ---------------------------------------------------------------------
  // Well-formed clusters joined by '+'

  /** A text whose hyphens are each followed by a digit has no name suffix. */
  lemma HyphensBeforeDigits(s: string, n: nat)
    requires n < |s|
    requires forall j :: 0 <= j < n && s[j] == '-' ==> IsDigit(s[j + 1])
    ensures forall j :: 0 <= j < n ==> !NameSuffixAt(s, j)
  {
  }

  /** Only the first character of a well-formed cluster is a letter. */
  lemma ClusterTailHasNoLetters(c: Cluster)
    requires WellFormed(c)
    ensures forall i :: 1 <= i < |Hyphenate(c)| ==> !IsNameLetter(Hyphenate(c)[i])
  {
    var s := Hyphenate(c);
    forall i | 1 <= i < |s|
      ensures !IsNameLetter(s[i])
    {
      var b := |c.block|;
      if i < b {
        assert s[i] == c.block[i];
        if i > 2 {
          assert c.block[i] == c.block[3..][i - 3];
        }
      } else if b + 1 <= i < b + 3 {
        assert s[i] == c.row[i - b - 1];
      } else if b + 4 <= i {
        assert s[i] == c.indexes[i - b - 4];
      }
    }
  }

  /** A well-formed cluster has no name suffix anywhere. */
  lemma ClusterHasNoNameSuffix(c: Cluster)
    requires WellFormed(c)
    ensures forall j :: !NameSuffixAt(Hyphenate(c), j)
  {
    ClusterTailHasNoLetters(c);
  }

  /** A name suffix cannot reach back across a '+'. */
  lemma NoNameSuffixAcrossPlus(a: string, b: string)
    requires forall j :: !NameSuffixAt(b, j)
    ensures forall j :: !NameSuffixAt(a + "+" + b, j)
  {
    var s := a + "+" + b;
    forall j | 0 <= j < |s|
      ensures !NameSuffixAt(s, j)
    {
      if j < |a| {
        assert s[j + 1..][|a| - j - 1] == s[|a|] == '+';
      } else if j == |a| {
        assert s[j] == '+';
      } else {
        var k := j - |a| - 1;
        assert s[j] == b[k];
        if j + 1 < |s| {
          assert s[j + 1] == b[k + 1];
          assert s[j + 1..] == b[k + 1..];
        }
        assert NameSuffixAt(s, j) == NameSuffixAt(b, k);
      }
    }
  }

  /** Text without a name suffix is left whole. */
  lemma NoNameSuffixNoCut(s: string)
    requires forall j :: !NameSuffixAt(s, j)
    ensures CutNameSuffix(s) == s
  {
    assert s[..|s|] == s;
  }

  /** The texts of a list of clusters, in order. */
  function ClusterTexts(cs: seq<Cluster>): (r: seq<string>)
    ensures |r| == |cs|
    ensures forall k :: 0 <= k < |cs| ==> r[k] == Hyphenate(cs[k])
  {
    if |cs| == 0 then [] else [Hyphenate(cs[0])] + ClusterTexts(cs[1..])
  }

  /** The codes a list of clusters stands for, before de-duplication: each
      cluster's block and row with each non-empty piece of its index list. */
  function ListedCodes(cs: seq<Cluster>): seq<string> {
    if |cs| == 0 then []
    else IndexCodes(cs[0].block, cs[0].row, Split(cs[0].indexes, ';')) + ListedCodes(cs[1..])
  }

  predicate AllWellFormed(cs: seq<Cluster>) {
    forall k :: 0 <= k < |cs| ==> WellFormed(cs[k])
  }

  /** Well-formed cluster texts are non-empty and hold neither white space nor '+'. */
  lemma ClusterTextsClean(cs: seq<Cluster>)
    requires AllWellFormed(cs)
    ensures forall k :: 0 <= k < |cs| ==>
      NoWhitespace(ClusterTexts(cs)[k]) && '+' !in ClusterTexts(cs)[k] && ClusterTexts(cs)[k] != ""
  {
    forall k | 0 <= k < |cs|
      ensures NoWhitespace(ClusterTexts(cs)[k]) && '+' !in ClusterTexts(cs)[k] && ClusterTexts(cs)[k] != ""
    {
      ClusterCharacters(cs[k]);
      assert |Hyphenate(cs[k])| > 0 by {
        assert Hyphenate(cs[k])[0] == cs[k].block[0];
      }
    }
  }

  /** No name suffix starts anywhere in well-formed clusters joined by '+'. */
  lemma {:induction false} JoinedClustersHaveNoSuffix(cs: seq<Cluster>)
    requires |cs| >= 1 && AllWellFormed(cs)
    ensures forall j :: !NameSuffixAt(Join(ClusterTexts(cs), '+'), j)
  {
    var texts := ClusterTexts(cs);
    if |cs| == 1 {
      ClusterHasNoNameSuffix(cs[0]);
    } else {
      assert texts[1..] == ClusterTexts(cs[1..]);
      JoinedClustersHaveNoSuffix(cs[1..]);
      NoNameSuffixAcrossPlus(texts[0], Join(texts[1..], '+'));
      assert Join(texts, '+') == texts[0] + "+" + Join(texts[1..], '+');
    }
  }

  /** Each well-formed cluster text contributes the codes of its index pieces. */
  lemma {:induction false} CodesOfClusterTexts(cs: seq<Cluster>)
    requires AllWellFormed(cs)
    ensures CodesOfParts(ClusterTexts(cs)) == ListedCodes(cs)
  {
    if |cs| > 0 {
      var texts := ClusterTexts(cs);
      ClusterTextsClean(cs);
      assert texts == [texts[0]] + ClusterTexts(cs[1..]);
      CodesOfPartsCons(texts[0], ClusterTexts(cs[1..]));
      ClusterCodesOfWellFormed(cs[0]);
      CodesOfClusterTexts(cs[1..]);
    }
  }

  /** Well-formed clusters joined by '+' are already clean: nothing is
      trimmed, removed or cut. */
  lemma JoinedClustersAreClean(cs: seq<Cluster>)
    requires |cs| >= 1 && AllWellFormed(cs)
    ensures var s := Join(ClusterTexts(cs), '+');
      s != "" && CutNameSuffix(RemoveWhitespace(Trim(s))) == s
  {
    var texts := ClusterTexts(cs);
    var s := Join(texts, '+');
    ClusterTextsClean(cs);
    JoinNoWhitespace(texts, '+');
    assert s != "" by {
      if |texts| > 1 {
        assert s == texts[0] + ['+'] + Join(texts[1..], '+');
      }
    }
    TrimNoWhitespace(s);
    RemoveWhitespaceOfClean(s);
    JoinedClustersHaveNoSuffix(cs);
    NoNameSuffixNoCut(s);
  }

  /** Any number of well-formed clusters joined by '+' yield, de-duplicated,
      the block-row-index code of every non-empty index piece, cluster by
      cluster and piece by piece. */
  lemma FieldOfClusters(cs: seq<Cluster>)
    requires |cs| >= 1 && AllWellFormed(cs)
    ensures ParseCompositeField(Some(Join(ClusterTexts(cs), '+'))) == Dedup(ListedCodes(cs))
  {
    var texts := ClusterTexts(cs);
    JoinedClustersAreClean(cs);
    ParseOfCleanField(Join(texts, '+'));
    ClusterTextsClean(cs);
    SplitJoin(texts, '+');
    CodesOfClusterTexts(cs);
  }

  /** A field that trimming, white-space removal and the name cut leave
      alone is parsed as it stands. */
  lemma ParseOfCleanField(s: string)
    requires s != "" && CutNameSuffix(RemoveWhitespace(Trim(s))) == s
    ensures ParseCompositeField(Some(s)) == PlotCodesOf(s)
  {
  }

  // ---------------------------------------------------------------------
  // Worked example: a field with a name and a phone

  const NamedField := "F6.3-09-16;17-T\U{1ED0}NGQU\U{1ED0}CTR\U{1ECC}NG-0979944914"

  lemma NamedFieldSuffixAt()
    ensures NameSuffixAt(NamedField, 13)
  {
    assert NamedField[14..] == "T\U{1ED0}NGQU\U{1ED0}CTR\U{1ECC}NG-0979944914";
  }

  lemma NamedFieldNoEarlierSuffix()
    ensures forall j :: 0 <= j < 13 ==> !NameSuffixAt(NamedField, j)
  {
    var head := "F6.3-09-16;17-";
    assert NamedField[..14] == head;
    forall j | 0 <= j < 13 && NamedField[j] == '-'
      ensures IsDigit(NamedField[j + 1])
    {
      assert NamedField[j] == head[j] && NamedField[j + 1] == head[j + 1];
    }
    HyphensBeforeDigits(NamedField, 13);
  }

  /** The trailing name (a hyphen and a letter) and everything after it is
      cut before the clusters are read; the phone goes with it. */
  lemma NameAndPhoneCut()
    ensures CutNameSuffix(NamedField) == "F6.3-09-16;17"
  {
    var r := CutNameSuffix(NamedField);
    assert |r| == 13 by {
      NamedFieldSuffixAt();
      NamedFieldNoEarlierSuffix();
    }
    assert r == NamedField[..13];
    NamedFieldHead();
  }

  lemma NamedFieldHead()
    ensures NamedField[..13] == "F6.3-09-16;17"
  {
  }

  // ---------------------------------------------------------------------
  // Worked example: two clusters of one block

  const FirstCluster := Cluster("H1.9", "07", "16;17;18")
  const SecondCluster := Cluster("H1.9", "08", "15")

  const TwoClusters := "H1.9-07-16;17;18+H1.9-08-15"

  lemma ExampleClustersWellFormed()
    ensures WellFormed(FirstCluster) && WellFormed(SecondCluster)
  {
    assert "H1.9"[3..] == "9";
  }

  lemma ExampleClusterTexts()
    ensures Hyphenate(FirstCluster) == "H1.9-07-16;17;18"
    ensures Hyphenate(SecondCluster) == "H1.9-08-15"
  {
  }

  lemma FirstIndexPieces()
    ensures Split("16;17;18", ';') == ["16", "17", "18"]
  {
    assert "16;17;18" == "16" + [';'] + ("17" + [';'] + "18");
    assert "17;18" == "17" + [';'] + "18";
    SplitNoSeparator("18", ';');
    SplitAppend("17", "18", ';');
    SplitAppend("16", "17;18", ';');
  }

  lemma ExampleIndexCodes()
    ensures PlotCode("H1.9", "07", PadIndex("16")) == "H1.9-07-16"
    ensures PlotCode("H1.9", "07", PadIndex("17")) == "H1.9-07-17"
    ensures PlotCode("H1.9", "07", PadIndex("18")) == "H1.9-07-18"
  {
    assert PadIndex("16") == "16" && PadIndex("17") == "17" && PadIndex("18") == "18";
  }

  lemma FirstIndexCodes()
    ensures IndexCodes("H1.9", "07", ["16", "17", "18"]) == ["H1.9-07-16", "H1.9-07-17", "H1.9-07-18"]
  {
    ExampleIndexCodes();
    IndexCodesOfThree("H1.9", "07", "16", "17", "18");
  }

  lemma SecondIndexCodes()
    ensures IndexCodes("H1.9", "08", Split("15", ';')) == ["H1.9-08-15"]
  {
    SplitNoSeparator("15", ';');
    assert PadIndex("15") == "15";
    IndexCodesCons("H1.9", "08", "15", []);
    ExampleClusterTexts();
  }

  /** Two clusters list the codes of the first, then those of the second. */
  lemma ListedCodesOfTwo(c1: Cluster, c2: Cluster)
    ensures ListedCodes([c1, c2])
         == IndexCodes(c1.block, c1.row, Split(c1.indexes, ';')) + IndexCodes(c2.block, c2.row, Split(c2.indexes, ';'))
  {
    var cs := [c1, c2];
    assert cs[1..] == [c2] && cs[1..][1..] == [];
    assert ListedCodes([c2]) == IndexCodes(c2.block, c2.row, Split(c2.indexes, ';')) + ListedCodes([]);
    assert ListedCodes(cs) == IndexCodes(c1.block, c1.row, Split(c1.indexes, ';')) + ListedCodes([c2]);
  }

  lemma ExampleListedCodes()
    ensures ListedCodes([FirstCluster, SecondCluster])
         == ["H1.9-07-16", "H1.9-07-17", "H1.9-07-18", "H1.9-08-15"]
  {
    ListedCodesOfTwo(FirstCluster, SecondCluster);
    FirstIndexPieces();
    FirstIndexCodes();
    SecondIndexCodes();
  }

  lemma ExampleCodesDistinct(all: seq<string>)
    requires all == ["H1.9-07-16", "H1.9-07-17", "H1.9-07-18", "H1.9-08-15"]
    ensures Dedup(all) == all
  {
    assert all[0][9] == '6' && all[1][9] == '7' && all[2][9] == '8' && all[3][9] == '5';
    DedupOfNoDup(all);
  }

  lemma ExampleJoin()
    ensures Join(ClusterTexts([FirstCluster, SecondCluster]), '+') == TwoClusters
  {
    ExampleClusterTexts();
    assert ClusterTexts([FirstCluster, SecondCluster]) == ["H1.9-07-16;17;18", "H1.9-08-15"];
  }

  /** Two `+`-clusters of the same block yield four codes across two rows,
      in order. */
  lemma TwoClustersExample(field: string)
    requires field == TwoClusters
    ensures ParseCompositeField(Some(field))
         == ["H1.9-07-16", "H1.9-07-17", "H1.9-07-18", "H1.9-08-15"]
  {
    var cs := [FirstCluster, SecondCluster];
    ExampleClustersWellFormed();
    ExampleJoin();
    FieldOfClusters(cs);
    ExampleListedCodes();
    ExampleCodesDistinct(ListedCodes(cs));
  }
}

=== FILE: fullsync11053.dfy ===
/** The pure helpers of the "an táng / cải táng" sweep
    (src/modules/workflow/fullSync11053Atct.ts): status classification, the
    `Key: value · Key: value` job title, the ceremony type, Base's
    `last_update` seconds, and the mapping of a job onto one row of
    `workflow_job_atct_min`. */
module FullSync11053 {
  import opened Wrappers
  import opened Strings
  import opened JsValue
  import opened Unicode
  import opened VnDate
  import opened Seqs

  const WorkflowId: int := 11053

  // ---------------------------------------------------------------------
  // Status

  /** `getJobStatusRaw`: the first of `status`, `status_id`, `job_status`
      that is neither null nor undefined, else null. */
  function JobStatusRaw(job: JVal): (r: JVal)
    ensures r != JUndef
    ensures r == JNull <==>
      (!Truthy(job) ||
        (IsNullish(Get(job, "status")) && IsNullish(Get(job, "status_id")) && IsNullish(Get(job, "job_status"))))
    ensures r != JNull ==>
      (|| r == Get(job, "status")
       || (IsNullish(Get(job, "status")) && r == Get(job, "status_id"))
       || (IsNullish(Get(job, "status")) && IsNullish(Get(job, "status_id")) && r == Get(job, "job_status")))
  {
    if !Truthy(job) then JNull
    else if !IsNullish(Get(job, "status")) then Get(job, "status")
    else if !IsNullish(Get(job, "status_id")) then Get(job, "status_id")
    else if !IsNullish(Get(job, "job_status")) then Get(job, "job_status")
    else JNull
  }

  /** `String(st).toLowerCase().trim()`. */
  function StatusText(st: JVal): string {
    Trim(Lower(ToStr(st)))
  }

  const FailedWord := "th\U{1EA5}t b\U{1EA1}i"
  const CancelledWord := "h\U{1EE7}y"

  /** `isCompletedStatus`: numerically 10, or "done" / "completed". */
  predicate IsCompletedStatus(st: JVal) {
    && !IsNullish(st)
    && (ToNumber(st) == Some(10) || StatusText(st) == "done" || StatusText(st) == "completed")
  }

  /** `isFailedStatus`: a negative number, or a text mentioning failure or cancellation. */
  predicate IsFailedStatus(st: JVal) {
    && !IsNullish(st)
    && (|| (ToNumber(st).Some? && ToNumber(st).value < 0)
        || Contains(StatusText(st), FailedWord) || Contains(StatusText(st), CancelledWord)
        || Contains(StatusText(st), "cancel") || Contains(StatusText(st), "failed"))
  }

  /** Trimming numeric text leaves numeric text. */
  lemma TrimNumericText(s: string)
    requires NumericText(s)
    ensures NumericText(Trim(s))
  {
    var a := TrimIsSlice(s);
    var t := Trim(s);
    forall i | 0 <= i < |t|
      ensures IsWhitespace(t[i]) || IsDigit(t[i]) || t[i] == '-' || t[i] == '+'
    {
      assert t[i] == s[a + i];
    }
  }

  /** A status that is numerically 10 or negative has numeric status text. */
  lemma NumericStatusText(st: JVal)
    ensures ToNumber(st).Some? && (ToNumber(st).value == 10 || ToNumber(st).value < 0) ==>
      NumericText(StatusText(st))
  {
    if ToNumber(st).Some? && (ToNumber(st).value == 10 || ToNumber(st).value < 0) {
      NumberedValueIsNumericText(st, ToNumber(st).value);
      LowerKeepsNonLetters(ToStr(st));
      TrimNumericText(ToStr(st));
    }
  }

  /** Numeric text is none of the status words and mentions none of them. */
  lemma NumericTextIsNoWord(t: string)
    ensures NumericText(t) ==>
      && t != "done" && t != "completed"
      && !Contains(t, FailedWord) && !Contains(t, CancelledWord)
      && !Contains(t, "cancel") && !Contains(t, "failed")
  {
    if NumericText(t) {
      assert 't' !in t && 'h' !in t && 'c' !in t && 'f' !in t;
      AbsentCharNotContained(t, FailedWord, 0);
      AbsentCharNotContained(t, CancelledWord, 0);
      AbsentCharNotContained(t, "cancel", 0);
      AbsentCharNotContained(t, "failed", 0);
      assert |t| == 0 || (t[0] != 'd' && t[0] != 'c');
    }
  }

  /** "done" and "completed" mention no failure word. */
  lemma CompletedWordsAreNotFailures(t: string)
    ensures t == "done" || t == "completed" ==>
      && !Contains(t, FailedWord) && !Contains(t, CancelledWord)
      && !Contains(t, "cancel") && !Contains(t, "failed")
  {
    if t == "done" {
      assert 't' !in t && 'h' !in t && 'c' !in t && 'f' !in t;
    } else if t == "completed" {
      assert 'h' !in t && 'a' !in t && 'f' !in t;
    }
    if t == "done" || t == "completed" {
      AbsentCharNotContained(t, FailedWord, 1);
      AbsentCharNotContained(t, CancelledWord, 0);
      AbsentCharNotContained(t, "cancel", 1);
      AbsentCharNotContained(t, "failed", 0);
    }
  }

  /** No status is both completed and failed, so the order in which
      `processJob11053Atct` tests them only decides the reported reason. */
  lemma StatusesExclusive(st: JVal)
    ensures !(IsCompletedStatus(st) && IsFailedStatus(st))
  {
    NumericStatusText(st);
    NumericTextIsNoWord(StatusText(st));
    CompletedWordsAreNotFailures(StatusText(st));
  }

  /** Unlike the huyệt mộ sweep, any negative status counts as failed here
      and never as completed. */
  lemma NegativeIsFailed(st: JVal)
    requires ToNumber(st).Some? && ToNumber(st).value < 0
    ensures IsFailedStatus(st) && !IsCompletedStatus(st)
  {
    assert !IsNullish(st);
    StatusesExclusive(st);
  }

  /** A status worded "done" or "completed" (in any case, with surrounding
      space) is completed and not failed. */
  lemma CompletedWords(st: JVal)
    requires !IsNullish(st) && (StatusText(st) == "done" || StatusText(st) == "completed")
    ensures IsCompletedStatus(st) && !IsFailedStatus(st)
  {
    StatusesExclusive(st);
  }

  // ---------------------------------------------------------------------
  // Title

  /** The length of the separator of `title.split(/(?:·|&middot;|\|)/)`
      that starts `s`, or 0 when none does. */
  function SeparatorLength(s: string): (n: nat)
    ensures n <= |s|
    ensures n == 0 ==> |s| == 0 || (s[0] != '\U{00B7}' && s[0] != '|')
  {
    if |s| > 0 && (s[0] == '\U{00B7}' || s[0] == '|') then 1
    else if |s| >= 8 && s[..8] == "&middot;" then 8
    else 0
  }

  /** `title.split(/(?:·|&middot;|\|)/)`: the pieces between separators,
      matched left to right. */
  function TitleParts(s: string): (r: seq<string>)
    ensures |r| >= 1
    ensures forall k :: 0 <= k < |r| ==> '\U{00B7}' !in r[k] && '|' !in r[k]
    decreases |s|
  {
    if |s| == 0 then [""]
    else if SeparatorLength(s) > 0 then [""] + TitleParts(s[SeparatorLength(s)..])
    else
      var rest := TitleParts(s[1..]);
      [[s[0]] + rest[0]] + rest[1..]
  }

  /** Text without separator characters (nor the '&' that starts "&middot;"). */
  predicate PlainText(s: string) {
    '\U{00B7}' !in s && '|' !in s && '&' !in s
  }

  /** Dropping the first character keeps text plain. */
  lemma PlainTail(s: string)
    requires PlainText(s) && |s| > 0
    ensures PlainText(s[1..])
  {
    forall c | c in s[1..] ensures c in s {
      var i :| 0 <= i < |s[1..]| && s[1..][i] == c;
      assert s[i + 1] == c;
    }
  }

  /** A character that starts no separator joins the first part of what
      follows it. */
  lemma PartsAfterPlainChar(c: char, t: string)
    requires c != '\U{00B7}' && c != '|' && c != '&'
    ensures TitleParts([c] + t) == [[c] + TitleParts(t)[0]] + TitleParts(t)[1..]
  {
    var s := [c] + t;
    if |s| >= 8 {
      assert s[..8][0] == c;
    }
    assert s[1..] == t;
  }

  /** Plain text is a single part. */
  lemma {:induction false} PlainTitleParts(s: string)
    requires PlainText(s)
    ensures TitleParts(s) == [s]
  {
    if |s| > 0 {
      assert s[0] in s;
      assert s == [s[0]] + s[1..];
      PartsAfterPlainChar(s[0], s[1..]);
      PlainTail(s);
      PlainTitleParts(s[1..]);
    }
  }

  /** The three separators of the title pattern. */
  predicate IsSeparator(sep: string) {
    sep == "\U{00B7}" || sep == "|" || sep == "&middot;"
  }

  /** A separator at the head of the text is recognised whole. */
  lemma SeparatorAtHead(sep: string, b: string)
    requires IsSeparator(sep)
    ensures SeparatorLength(sep + b) == |sep|
    ensures (sep + b)[|sep|..] == b
  {
    var s := sep + b;
    if sep == "&middot;" {
      assert s[..8] == sep;
    }
  }

  /** A plain first part followed by any of the three separators splits
      off ahead of the rest. */
  lemma {:induction false} TitlePartsSplit(a: string, sep: string, b: string)
    requires PlainText(a) && IsSeparator(sep)
    ensures TitleParts(a + sep + b) == [a] + TitleParts(b)
  {
    var s := a + sep + b;
    if |a| == 0 {
      assert s == sep + b;
      SeparatorAtHead(sep, b);
    } else {
      var t := a[1..] + sep + b;
      assert a[0] in a;
      assert a + sep + b == [a[0]] + t;
      PartsAfterPlainChar(a[0], t);
      PlainTail(a);
      TitlePartsSplit(a[1..], sep, b);
      assert [a[0]] + a[1..] == a;
    }
  }

  /** Parts written out with one separator between neighbours. */
  function JoinTitle(parts: seq<string>, sep: string): string
    requires |parts| >= 1
  {
    if |parts| == 1 then parts[0] else parts[0] + sep + JoinTitle(parts[1..], sep)
  }

  /** Splitting undoes joining: plain parts joined by any of the separators
      come back as they were. */
  lemma {:induction false} TitlePartsOfJoin(parts: seq<string>, sep: string)
    requires |parts| >= 1 && IsSeparator(sep)
    requires forall k :: 0 <= k < |parts| ==> PlainText(parts[k])
    ensures TitleParts(JoinTitle(parts, sep)) == parts
  {
    if |parts| == 1 {
      PlainTitleParts(parts[0]);
    } else {
      assert PlainText(parts[0]);
      TitlePartsSplit(parts[0], sep, JoinTitle(parts[1..], sep));
      TitlePartsOfJoin(parts[1..], sep);
      HeadTail(parts);
    }
  }

  /** Where the run of colons starting at `k` ends. */
  function ColonRunEnd(v: string, k: nat): (n: nat)
    requires k <= |v|
    ensures k <= n <= |v|
    ensures forall i :: k <= i < n ==> v[i] == ':'
    ensures n < |v| ==> v[n] != ':'
    decreases |v| - k
  {
    if k < |v| && v[k] == ':' then ColonRunEnd(v, k + 1) else k
  }

  /** Where the run of white space starting at `k` ends. */
  function SpaceRunEnd(v: string, k: nat): (n: nat)
    requires k <= |v|
    ensures k <= n <= |v|
    ensures forall i :: k <= i < n ==> IsWhitespace(v[i])
    ensures n < |v| ==> !IsWhitespace(v[n])
    decreases |v| - k
  {
    if k < |v| && IsWhitespace(v[k]) then SpaceRunEnd(v, k + 1) else k
  }

  /** The value's `replace` of a leading `:+\s*`: a leading run of colons
      and the white space after it. */
  function StripLeadingColons(v: string): (r: string)
    ensures |v| == 0 || v[0] != ':' ==> r == v
    ensures |r| <= |v| && r == v[|v| - |r|..]
    ensures IsTrimmed(v) ==> IsTrimmed(r)
  {
    if |v| > 0 && v[0] == ':' then v[SpaceRunEnd(v, ColonRunEnd(v, 1))..]
    else v
  }

  /** One part of the title read as `key: value`, or None when
      `parseTitleToMap` skips it (blank, no colon, or an empty key). */
  function SegmentEntry(part: string): (r: Option<(string, string)>)
    ensures ValidSegment(r)
  {
    EntryOfText(Trim(part))
  }

  /** The entry of an already trimmed part. */
  function EntryOfText(p: string): (r: Option<(string, string)>)
    ensures ValidSegment(r)
  {
    if p == "" then None
    else
      var segments := Split(p, ':');
      if |segments| < 2 then None
      else
        var key := Trim(segments[0]);
        if key == "" then None
        else
          TrimKeepsAbsentChar(segments[0], ':');
          Some((key, StripLeadingColons(Trim(Join(segments[1..], ':')))))
  }

  /** A part without a colon is skipped. */
  lemma SegmentWithoutColon(p: string)
    requires ':' !in p
    ensures EntryOfText(p).None?
  {
    if p != "" {
      SplitNoSeparator(p, ':');
    }
  }

  /** A part is cut at its first colon. */
  lemma SegmentAtFirstColon(p: string, i: nat)
    requires IndexOf(p, ':') == Some(i)
    ensures EntryOfText(p) ==
      if Trim(p[..i]) == "" then None
      else Some((Trim(p[..i]), StripLeadingColons(Trim(p[i + 1..]))))
  {
    CutAt(p, i);
    SplitAppend(p[..i], p[i + 1..], ':');
    var segments := Split(p, ':');
    assert segments[0] == p[..i];
    assert segments[1..] == Split(p[i + 1..], ':');
    JoinSplit(p[i + 1..], ':');
  }

  /** A text is the part before position `i`, the character at `i`, and the rest. */
  lemma CutAt(s: string, i: nat)
    requires i < |s|
    ensures s == s[..i] + [s[i]] + s[i + 1..]
  {
  }

  /** The same entry described by the first colon of the trimmed part:
      the key is what precedes it and the value is everything after it,
      later colons included. */
  lemma SegmentByFirstColon(part: string)
    ensures var p := Trim(part);
      SegmentEntry(part) ==
        (match IndexOf(p, ':')
         case None => None
         case Some(i) =>
           if Trim(p[..i]) == "" then None
           else Some((Trim(p[..i]), StripLeadingColons(Trim(p[i + 1..])))))
  {
    match IndexOf(Trim(part), ':')
    case None => SegmentWithoutColon(Trim(part));
    case Some(i) => SegmentAtFirstColon(Trim(part), i);
  }

  /** The key that sets an object's prototype rather than a property: a
      string assigned to it is ignored. */
  const ProtoKey := "__proto__"

  /** What an entry of the title map looks like: a trimmed, colon-free,
      non-empty key other than `__proto__`, and a trimmed value. */
  predicate ValidEntry(k: string, v: string) {
    k != "" && k != ProtoKey && IsTrimmed(k) && ':' !in k && IsTrimmed(v)
  }

  /** A segment's entry, when present, has the shape of a map entry. */
  predicate ValidSegment(e: Option<(string, string)>) {
    e.Some? ==> e.value.0 != "" && IsTrimmed(e.value.0) && ':' !in e.value.0 && IsTrimmed(e.value.1)
  }

  /** The entries of the parts, in order. */
  function SegmentsOf(parts: seq<string>): (es: seq<Option<(string, string)>>)
    ensures |es| == |parts|
    ensures forall j :: 0 <= j < |es| ==> es[j] == SegmentEntry(parts[j]) && ValidSegment(es[j])
  {
    seq(|parts|, j requires 0 <= j < |parts| => SegmentEntry(parts[j]))
  }

  /** The map `parseTitleToMap` builds from the entries, in order: a later
      entry overwrites an earlier one with the same key. */
  function MapOfEntries(es: seq<Option<(string, string)>>): (m: map<string, string>)
    requires forall j :: 0 <= j < |es| ==> ValidSegment(es[j])
    ensures forall k :: k in m ==> ValidEntry(k, m[k])
  {
    if |es| == 0 then map[]
    else
      var m := MapOfEntries(es[..|es| - 1]);
      var e := es[|es| - 1];
      assert ValidSegment(e);
      if e.None? || e.value.0 == ProtoKey then m else m[e.value.0 := e.value.1]
  }

  /** `k` is a key of the map exactly when some entry carries it. */
  lemma {:induction false} EntriesKeys(es: seq<Option<(string, string)>>, k: string)
    requires forall j :: 0 <= j < |es| ==> ValidSegment(es[j])
    ensures k in MapOfEntries(es) <==>
      (k != ProtoKey && exists j :: 0 <= j < |es| && es[j].Some? && es[j].value.0 == k)
  {
    if |es| > 0 {
      var init := es[..|es| - 1];
      EntriesKeys(init, k);
      if exists j :: 0 <= j < |init| && init[j].Some? && init[j].value.0 == k {
        var j :| 0 <= j < |init| && init[j].Some? && init[j].value.0 == k;
        assert es[j] == init[j];
      }
      if exists j :: 0 <= j < |es| && es[j].Some? && es[j].value.0 == k {
        var j :| 0 <= j < |es| && es[j].Some? && es[j].value.0 == k;
        if j < |init| {
          assert init[j] == es[j];
        }
      }
    }
  }

  /** A key takes the value of the last entry that carries it. */
  lemma {:induction false} EntriesLastWins(es: seq<Option<(string, string)>>, j: nat, k: string, v: string)
    requires forall i :: 0 <= i < |es| ==> ValidSegment(es[i])
    requires j < |es| && es[j] == Some((k, v)) && k != ProtoKey
    requires forall i :: j < i < |es| ==> es[i].None? || es[i].value.0 != k
    ensures k in MapOfEntries(es) && MapOfEntries(es)[k] == v
  {
    var init := es[..|es| - 1];
    if j < |es| - 1 {
      assert init[j] == es[j];
      EntriesLastWins(init, j, k, v);
    }
  }

  /** `parseTitleToMap(title)` for a string title. */
  function ParseTitleToMap(title: string): (m: map<string, string>)
    ensures title == "" ==> m == map[]
    ensures forall k :: k in m ==> ValidEntry(k, m[k])
  {
    if title == "" then map[] else MapOfEntries(SegmentsOf(TitleParts(title)))
  }

  /** A well-formed `key: value` text is read as that entry, whatever
      colons the value holds. */
  lemma SegmentOfKeyValue(key: string, value: string)
    requires key != "" && IsTrimmed(key) && ':' !in key
    requires value != "" && IsTrimmed(value) && value[0] != ':'
    ensures SegmentEntry(key + ": " + value) == Some((key, value))
  {
    var s := key + ": " + value;
    KeyValueText(key, " " + value);
    ColonShapes(key, value);
    TrimLeadingSpace(value);
  }

  /** `Key:: value`: the value's leading colon and the space after it are dropped. */
  lemma SegmentStripsColons(key: string, value: string)
    requires key != "" && IsTrimmed(key) && ':' !in key
    requires value != "" && IsTrimmed(value) && value[0] != ':'
    ensures SegmentEntry(key + ":: " + value) == Some((key, value))
  {
    KeyValueText(key, ": " + value);
    ColonShapes(key, value);
    StripColonAndSpace(value);
  }

  /** `": " + value` is trimmed, and stripping its leading colon leaves `value`. */
  lemma StripColonAndSpace(value: string)
    requires value != "" && IsTrimmed(value) && value[0] != ':'
    ensures Trim(": " + value) == ": " + value
    ensures StripLeadingColons(": " + value) == value
  {
    var rest := ": " + value;
    assert rest[0] == ':' && rest[|rest| - 1] == value[|value| - 1];
    TrimOfTrimmed(rest);
    assert ColonRunEnd(rest, 1) == 1;
    assert SpaceRunEnd(rest, 1) == 2;
    assert rest[2..] == value;
  }

  /** `key + ":" + rest`, trimmed at both ends, is cut after the key. */
  lemma KeyValueText(key: string, rest: string)
    requires key != "" && IsTrimmed(key) && ':' !in key
    requires rest != "" && !IsWhitespace(rest[|rest| - 1])
    ensures SegmentEntry(key + [':'] + rest) == Some((key, StripLeadingColons(Trim(rest))))
  {
    var s := key + [':'] + rest;
    assert s[0] == key[0] && s[|s| - 1] == rest[|rest| - 1];
    TrimOfTrimmed(s);
    IndexOfAfterAbsent(key, ':', rest);
    SegmentAtFirstColon(s, |key|);
    assert s[..|key|] == key && s[|key| + 1..] == rest;
    TrimOfTrimmed(key);
  }

  /** Joining plain texts around ": " gives plain text. */
  lemma PlainKeyValue(key: string, value: string)
    requires PlainText(key) && PlainText(value)
    ensures PlainText(key + ": " + value)
  {
    var s := key + ": " + value;
    forall c | c in s
      ensures c != '\U{00B7}' && c != '|' && c != '&'
    {
      assert c in key || c in ": " || c in value;
    }
  }

  /** One entry makes a one-key map. */
  lemma MapOfOne(e: (string, string))
    requires ValidSegment(Some(e)) && e.0 != ProtoKey
    ensures MapOfEntries([Some(e)]) == map[e.0 := e.1]
  {
    assert [Some(e)][..0] == [];
  }

  /** Two entries with the same key keep the second value. */
  lemma MapOfTwo(e1: (string, string), e2: (string, string))
    requires ValidSegment(Some(e1)) && ValidSegment(Some(e2))
    requires e1.0 == e2.0 && e1.0 != ProtoKey
    ensures MapOfEntries([Some(e1), Some(e2)]) == map[e2.0 := e2.1]
  {
    assert [Some(e1), Some(e2)][..1] == [Some(e1)];
    MapOfOne(e1);
  }

  /** A title holding one `key: value` segment maps exactly that key. */
  lemma OneSegmentTitle(key: string, value: string)
    requires key != "" && IsTrimmed(key) && ':' !in key && key != ProtoKey
    requires value != "" && IsTrimmed(value) && value[0] != ':'
    requires PlainText(key) && PlainText(value)
    ensures ParseTitleToMap(key + ": " + value) == map[key := value]
  {
    var s := key + ": " + value;
    PlainKeyValue(key, value);
    PlainTitleParts(s);
    SegmentOfKeyValue(key, value);
    assert SegmentsOf([s]) == [Some((key, value))];
    MapOfOne((key, value));
  }

  lemma TwoSegmentsText(key: string, first: string, second: string)
    ensures key + ": " + first + "|" + key + ": " + second == (key + ": " + first) + "|" + (key + ": " + second)
  {
  }

  /** When a key appears twice, the later segment wins. */
  lemma RepeatedKeyLastWins(key: string, first: string, second: string)
    requires key != "" && IsTrimmed(key) && ':' !in key && key != ProtoKey
    requires first != "" && IsTrimmed(first) && first[0] != ':'
    requires second != "" && IsTrimmed(second) && second[0] != ':'
    requires PlainText(key) && PlainText(first) && PlainText(second)
    ensures ParseTitleToMap(key + ": " + first + "|" + key + ": " + second) == map[key := second]
  {
    var a := key + ": " + first;
    var b := key + ": " + second;
    PlainKeyValue(key, first);
    PlainKeyValue(key, second);
    TwoSegmentsText(key, first, second);
    TwoPartsTitle(a, b);
    SegmentsOfTwo(a, b);
    SegmentOfKeyValue(key, first);
    SegmentOfKeyValue(key, second);
    MapOfTwo((key, first), (key, second));
  }

  lemma SegmentsOfTwo(a: string, b: string)
    ensures SegmentsOf([a, b]) == [SegmentEntry(a), SegmentEntry(b)]
  {
  }

  /** Two plain parts joined by '|' give the map of their two entries. */
  lemma {:induction false} TwoPartsTitle(a: string, b: string)
    requires PlainText(a) && PlainText(b)
    ensures ParseTitleToMap(a + "|" + b) == MapOfEntries(SegmentsOf([a, b]))
  {
    var title := a + "|" + b;
    assert title[|a|] == '|';
    TitlePartsSplit(a, "|", b);
    PlainTitleParts(b);
    assert TitleParts(title) == [a, b];
  }

  // ---------------------------------------------------------------------
  // Ceremony type

  const CaiTang := "C\U{1EA2}I T\U{00C1}NG"
  const AnTang := "AN T\U{00C1}NG"

  /** `raw.toLowerCase().normalize("NFD")` with the combining marks
      U+0300..U+036F removed, then trimmed. */
  function FoldedText(raw: string): string {
    Trim(StripDiacritics(Lower(raw)))
  }

  /** `normalizeCeremonyType`: "cải táng" and "an táng" in any case or
      accenting become the canonical upper-case labels (cải táng first);
      anything else is kept trimmed; blank gives null. */
  function NormalizeCeremonyType(raw: string): (r: Option<string>)
    ensures r.None? <==> Trim(raw) == ""
    ensures raw != "" && Contains(FoldedText(raw), "cai tang") ==> r == Some(CaiTang)
    ensures raw != "" && !Contains(FoldedText(raw), "cai tang") && Contains(FoldedText(raw), "an tang")
            ==> r == Some(AnTang)
    ensures !Contains(FoldedText(raw), "cai tang") && !Contains(FoldedText(raw), "an tang") && Trim(raw) != ""
            ==> r == Some(Trim(raw))
    ensures r.Some? ==> r.value != "" && IsTrimmed(r.value)
  {
    BlankFoldsToBlank(raw);
    LabelsAreTrimmed();
    if raw == "" then None
    else
      var s := FoldedText(raw);
      if Contains(s, "cai tang") then Some(CaiTang)
      else if Contains(s, "an tang") then Some(AnTang)
      else if Trim(raw) == "" then None
      else Some(Trim(raw))
  }

  /** The canonical labels are non-empty trimmed text. */
  lemma LabelsAreTrimmed()
    ensures CaiTang != "" && IsTrimmed(CaiTang)
    ensures AnTang != "" && IsTrimmed(AnTang)
  {
    assert CaiTang[0] == 'C' && CaiTang[7] == 'G';
    assert AnTang[0] == 'A' && AnTang[6] == 'G';
  }

  /** Text that trims to nothing folds to nothing, so it mentions neither ceremony. */
  lemma BlankFoldsToBlank(raw: string)
    ensures Trim(raw) == "" ==> FoldedText(raw) == ""
  {
    if Trim(raw) == "" {
      var a := TrimIsSlice(raw);
      assert forall i :: 0 <= i < |raw| ==> IsWhitespace(raw[i]);
      LowerKeepsNonLetters(raw);
      StripKeepsWhitespace(raw);
    }
  }

  /** The folded text of the trimmed input lies inside the folded text of the input. */
  lemma FoldedOfTrimmed(raw: string, w: string)
    requires |w| > 0 && !IsWhitespace(w[0]) && !IsWhitespace(w[|w| - 1])
    ensures Contains(FoldedText(Trim(raw)), w) ==> Contains(FoldedText(raw), w)
  {
    if Contains(FoldedText(Trim(raw)), w) {
      var t := Trim(raw);
      var x := StripDiacritics(Lower(t));
      ContainsBeforeTrim(x, w);
      var pre, post := TrimParts(raw);
      FoldAppend3(pre, t, post);
      ContainsInfix(StripDiacritics(Lower(pre)), x, StripDiacritics(Lower(post)), w);
      ContainsAfterTrim(StripDiacritics(Lower(raw)), w);
    }
  }

  /** The canonical labels lower-cased. */
  lemma LowerLabels()
    ensures Lower(CaiTang) == "c\U{1EA3}i t\U{00E1}ng"
    ensures Lower(AnTang) == "an t\U{00E1}ng"
  {
  }

  /** The lower-cased labels without their marks. */
  lemma StripLabels()
    ensures StripDiacritics("c\U{1EA3}i t\U{00E1}ng") == "cai tang"
    ensures StripDiacritics("an t\U{00E1}ng") == "an tang"
  {
    StripCaiTang();
    StripAnTang();
  }

  lemma StripCaiTang()
    ensures StripDiacritics("c\U{1EA3}i t\U{00E1}ng") == "cai tang"
  {
    var s := "c\U{1EA3}i t\U{00E1}ng";
    assert StripMarksChar(s[1]) == "a" && StripMarksChar(s[5]) == "a";
    StripCharwise(s, "cai tang");
  }

  lemma StripAnTang()
    ensures StripDiacritics("an t\U{00E1}ng") == "an tang"
  {
    var s := "an t\U{00E1}ng";
    assert StripMarksChar(s[4]) == "a";
    StripCharwise(s, "an tang");
  }

  /** The folded words are already trimmed. */
  lemma TrimFoldedLabels()
    ensures Trim("cai tang") == "cai tang" && Trim("an tang") == "an tang"
  {
    assert IsTrimmed("cai tang") && IsTrimmed("an tang");
    TrimOfTrimmed("cai tang");
    TrimOfTrimmed("an tang");
  }

  /** The folded canonical labels. */
  lemma FoldedLabels()
    ensures FoldedText(CaiTang) == "cai tang"
    ensures FoldedText(AnTang) == "an tang"
  {
    LowerLabels();
    StripLabels();
    TrimFoldedLabels();
  }

  /** The canonical labels normalise to themselves. */
  lemma LabelsAreNormal()
    ensures NormalizeCeremonyType(CaiTang) == Some(CaiTang)
    ensures NormalizeCeremonyType(AnTang) == Some(AnTang)
  {
    FoldedLabels();
    assert |CaiTang| == 8 && |AnTang| == 7;
    FoldsToCaiTang(CaiTang);
    FoldsToAnTang(AnTang);
  }

  /** Any text that folds to "cai tang" is a cải táng. */
  lemma FoldsToCaiTang(x: string)
    requires x != "" && FoldedText(x) == "cai tang"
    ensures NormalizeCeremonyType(x) == Some(CaiTang)
  {
    ContainsSelf("cai tang");
  }

  /** Any text that folds to "an tang" is an an táng. */
  lemma FoldsToAnTang(x: string)
    requires x != "" && FoldedText(x) == "an tang"
    ensures NormalizeCeremonyType(x) == Some(AnTang)
  {
    ContainsSelf("an tang");
    assert !Contains("an tang", "cai tang");
  }

  /** Text is kept only when its folded form mentions neither ceremony. */
  lemma KeptMentionsNoLabel(raw: string)
    requires NormalizeCeremonyType(raw).Some?
    requires NormalizeCeremonyType(raw).value != CaiTang && NormalizeCeremonyType(raw).value != AnTang
    ensures !Contains(FoldedText(raw), "cai tang") && !Contains(FoldedText(raw), "an tang")
    ensures Trim(raw) != ""
  {
  }

  /** Non-blank text mentioning neither ceremony is kept, trimmed. */
  lemma PlainCeremonyIsKept(x: string)
    requires Trim(x) != ""
    requires !Contains(FoldedText(x), "cai tang") && !Contains(FoldedText(x), "an tang")
    ensures NormalizeCeremonyType(x) == Some(Trim(x))
  {
  }

  /** Trimmed text that mentions neither ceremony is kept as it is. */
  lemma TrimmedPlainIsKept(raw: string)
    requires Trim(raw) != ""
    requires !Contains(FoldedText(Trim(raw)), "cai tang") && !Contains(FoldedText(Trim(raw)), "an tang")
    ensures NormalizeCeremonyType(Trim(raw)) == Some(Trim(raw))
  {
    TrimOfTrimmed(Trim(raw));
    PlainCeremonyIsKept(Trim(raw));
  }

  /** Trimming cannot make either ceremony word appear. */
  lemma TrimmedMentionsNoLabel(raw: string)
    requires !Contains(FoldedText(raw), "cai tang") && !Contains(FoldedText(raw), "an tang")
    ensures !Contains(FoldedText(Trim(raw)), "cai tang") && !Contains(FoldedText(Trim(raw)), "an tang")
  {
    LabelWordEnds("cai tang");
    LabelWordEnds("an tang");
    FoldedOfTrimmed(raw, "cai tang");
    FoldedOfTrimmed(raw, "an tang");
  }

  /** Neither folded ceremony word starts or ends with white space. */
  lemma LabelWordEnds(w: string)
    requires w == "cai tang" || w == "an tang"
    ensures |w| > 0 && !IsWhitespace(w[0]) && !IsWhitespace(w[|w| - 1])
  {
  }

  /** Text that mentions neither ceremony is still kept once trimmed, and
      unchanged by that second pass. */
  lemma KeptTextIsNormal(raw: string)
    requires Trim(raw) != ""
    requires !Contains(FoldedText(raw), "cai tang") && !Contains(FoldedText(raw), "an tang")
    ensures NormalizeCeremonyType(Trim(raw)) == Some(Trim(raw))
  {
    TrimmedMentionsNoLabel(raw);
    TrimmedPlainIsKept(raw);
  }

  /** Normalising twice changes nothing: the labels map to themselves and
      kept text no longer mentions either ceremony. */
  lemma NormalizeCeremonyTypeIdempotent(raw: string)
    ensures NormalizeCeremonyType(NormalizeCeremonyType(raw).GetOr("")) == NormalizeCeremonyType(raw)
  {
    var r := NormalizeCeremonyType(raw);
    LabelsAreNormal();
    if r.Some? && r.value != CaiTang && r.value != AnTang {
      KeptMentionsNoLabel(raw);
      KeptTextIsNormal(raw);
    }
  }

  // ---------------------------------------------------------------------
  // Base timestamps

  /** `parseBaseLastUpdate(lastUpdate).getTime()`, given the clock reading
      `now` in milliseconds: Base reports seconds; a missing, unreadable or
      zero value falls back to the clock. */
  function BaseUpdatedAt(lastUpdate: JVal, now: int): (r: int)
    ensures Truthy(lastUpdate) && ToNumber(lastUpdate).Some? && ToNumber(lastUpdate).value != 0
            ==> r == ToNumber(lastUpdate).value * 1000
    ensures !Truthy(lastUpdate) || ToNumber(lastUpdate).None? || ToNumber(lastUpdate) == Some(0)
            ==> r == now
  {
    if !Truthy(lastUpdate) then now
    else match ToNumber(lastUpdate)
      case None => now
      case Some(ts) => if ts == 0 then now else ts * 1000
  }

  /** Seconds sent as decimal text are read like the number itself. */
  lemma BaseUpdatedAtOfText(ts: int, now: int)
    ensures BaseUpdatedAt(JStr(IntToStr(ts)), now) == BaseUpdatedAt(JNum(ts), now)
  {
    IntToStrRoundTrip(ts);
  }

  /** Zero seconds, as a number or as text, falls back to the clock. */
  lemma BaseUpdatedAtOfZero(now: int)
    ensures BaseUpdatedAt(JNum(0), now) == now
    ensures BaseUpdatedAt(JStr(IntToStr(0)), now) == now
  {
    IntToStrRoundTrip(0);
  }

  // ---------------------------------------------------------------------
  // Row mapping

  /** The title keys the mapping reads. */
  const RequestKeys: seq<string> :=
    ["\U{0110}\U{1EC0} NGH\U{1ECA}", "\U{0110}\U{1EC1} ngh\U{1ECB}", "\U{0110}\U{1EC1} Ngh\U{1ECB}"]
  const AgeKeys: seq<string> :=
    ["H\U{01B0}\U{1EDF}ng d\U{01B0}\U{01A1}ng", "H\U{01B0}\U{1EDF}ng th\U{1ECD}", "H\U{01AF}\U{1EDE}NG TH\U{1ECC}"]
  const KhuKey := "V\U{1ECB} tr\U{00ED} (Khu)"
  const TieuKhuKey := "Ti\U{1EC3}u khu"
  const TieuKhuNoKey := "V\U{1ECB} tr\U{00ED}(Ti\U{1EC3}u khu)"
  const RowKey := "V\U{1ECB} tr\U{00ED} (H\U{00E0}ng)"
  const IndexKey := "V\U{1ECB} tr\U{00ED}(Stt)"
  const DeceasedKey := "H\U{1ECD} t\U{00EA}n ng\U{01B0}\U{1EDD}i m\U{1EA5}t"
  const BirthYearKey := "N\U{0103}m sinh"
  const DeathKey := "M\U{1EA5}t l\U{00FA}c"
  const LunarKey := "Nh\U{1EB1}m ng\U{00E0}y"
  const FuneralKey := "\U{0110}\U{1ED9}ng quan l\U{00FA}c"
  const DepartureKey := "Xu\U{1EA5}t ph\U{00E1}t t\U{1EEB}"

  /** `titleMap[key]` as a JavaScript value: undefined when absent. */
  function TitleValue(m: map<string, string>, key: string): (v: JVal)
    ensures v == JUndef || v.JStr?
  {
    if key in m then JStr(m[key]) else JUndef
  }

  /** `titleMap[key]` where only its truthiness and text matter: absent reads as "". */
  function Lookup(m: map<string, string>, key: string): (r: string)
    ensures r != "" <==> Truthy(TitleValue(m, key))
  {
    if key in m then m[key] else ""
  }

  /** The first non-empty value of the keys after the first one is the
      first non-empty value of all keys when the first key's value is empty. */
  lemma FirstNonEmptyShift(m: map<string, string>, keys: seq<string>, r: string)
    requires |keys| > 0 && Lookup(m, keys[0]) == ""
    requires r == "" <==> forall i :: 0 <= i < |keys[1..]| ==> Lookup(m, keys[1..][i]) == ""
    requires r != "" ==>
      exists i :: 0 <= i < |keys[1..]| && r == Lookup(m, keys[1..][i]) && forall j :: 0 <= j < i ==> Lookup(m, keys[1..][j]) == ""
    ensures r == "" <==> forall i :: 0 <= i < |keys| ==> Lookup(m, keys[i]) == ""
    ensures r != "" ==>
      exists i :: 0 <= i < |keys| && r == Lookup(m, keys[i]) && forall j :: 0 <= j < i ==> Lookup(m, keys[j]) == ""
  {
    assert forall i :: 1 <= i < |keys| ==> keys[i] == keys[1..][i - 1];
    if r != "" {
      var i :| 0 <= i < |keys[1..]| && r == Lookup(m, keys[1..][i]) && forall j :: 0 <= j < i ==> Lookup(m, keys[1..][j]) == "";
      assert forall j :: 1 <= j < i + 1 ==> Lookup(m, keys[j]) == Lookup(m, keys[1..][j - 1]);
      assert r == Lookup(m, keys[i + 1]);
    }
  }

  /** `titleMap[k1] || titleMap[k2] || …`: the first non-empty value, or "". */
  function FirstNonEmpty(m: map<string, string>, keys: seq<string>): (r: string)
    ensures r == "" <==> forall i :: 0 <= i < |keys| ==> Lookup(m, keys[i]) == ""
    ensures r != "" ==>
      exists i :: 0 <= i < |keys| && r == Lookup(m, keys[i]) && forall j :: 0 <= j < i ==> Lookup(m, keys[j]) == ""
  {
    if |keys| == 0 then ""
    else if Lookup(m, keys[0]) != "" then Lookup(m, keys[0])
    else
      var r := FirstNonEmpty(m, keys[1..]);
      FirstNonEmptyShift(m, keys, r);
      r
  }

  /** `value || null`. */
  function OrNull(s: string): (r: Option<string>)
    ensures r.None? <==> s == ""
    ensures r.Some? ==> r.value == s
    ensures NonEmptyText(r)
  {
    if s == "" then None else Some(s)
  }

  /** `titleMap[key] || null`. */
  function Column(m: map<string, string>, key: string): (r: Option<string>)
    ensures NonEmptyText(r)
    ensures r.Some? <==> key in m && m[key] != ""
    ensures r.Some? ==> r.value == m[key]
  {
    OrNull(Lookup(m, key))
  }

  /** `Number(titleMap["Năm sinh"]) || null`: NaN and 0 become null. */
  function BirthYear(m: map<string, string>): (r: Option<int>)
    ensures r != Some(0)
    ensures r.Some? ==> BirthYearKey in m && ToNumber(JStr(m[BirthYearKey])) == r
    ensures BirthYearKey in m && ToNumber(JStr(m[BirthYearKey])).Some? && ToNumber(JStr(m[BirthYearKey])).value != 0
            ==> r == ToNumber(JStr(m[BirthYearKey]))
  {
    var n := ToNumber(TitleValue(m, BirthYearKey));
    if n.None? || n.value == 0 then None else n
  }

  /** A row of `workflow_job_atct_min`. Instants are minutes since the Unix
      epoch (the ISO text `toISOString` writes is a function of them);
      `baseUpdatedAt` is in milliseconds. */
  datatype AtctRow = AtctRow(
    workflowId: int,
    jobId: string,
    ceremonyType: Option<string>,
    agePhrase: Option<string>,
    positionKhu: Option<string>,
    positionTieukhu: Option<string>,
    positionTieukhuNo: Option<string>,
    positionRow: Option<string>,
    positionIndex: Option<string>,
    deceasedName: Option<string>,
    deceasedBirthYear: Option<int>,
    timeOfDeath: Option<int>,
    lunarDate: Option<string>,
    timeOfFuneral: Option<int>,
    departurePlace: Option<string>,
    baseUpdatedAt: int)

  /** A nullable text column holds null rather than empty text. */
  predicate NonEmptyText(o: Option<string>) {
    o.Some? ==> o.value != ""
  }

  /** Text columns hold null rather than empty text, and the birth year is never 0. */
  predicate NoEmptyColumns(row: AtctRow) {
    && NonEmptyText(row.ceremonyType)
    && NonEmptyText(row.agePhrase)
    && NonEmptyText(row.positionKhu)
    && NonEmptyText(row.positionTieukhu)
    && NonEmptyText(row.positionTieukhuNo)
    && NonEmptyText(row.positionRow)
    && NonEmptyText(row.positionIndex)
    && NonEmptyText(row.deceasedName)
    && NonEmptyText(row.lunarDate)
    && NonEmptyText(row.departurePlace)
    && row.deceasedBirthYear != Some(0)
  }

  const TitleSplitError := "TypeError: title.split is not a function"

  /** `parseTitleToMap(job.title)`: a falsy title gives the empty map and any
      other non-string title throws when it is split. */
  function TitleMapOf(title: JVal): (r: Result<map<string, string>>)
    ensures r.Err? <==> Truthy(title) && !title.JStr?
    ensures title.JStr? ==> r == Ok(ParseTitleToMap(title.s))
    ensures !Truthy(title) ==> r == Ok(map[])
  {
    if !Truthy(title) then Ok(map[])
    else if title.JStr? then Ok(ParseTitleToMap(title.s))
    else Err(TitleSplitError)
  }

  /** The row read from a title map, once both instants are parsed. */
  function RowOfTitle(jobId: string, m: map<string, string>, death: Option<int>, funeral: Option<int>, updatedAt: int): (row: AtctRow)
    ensures NoEmptyColumns(row)
    ensures row.workflowId == WorkflowId && row.jobId == jobId && row.baseUpdatedAt == updatedAt
    ensures row.timeOfDeath == death && row.timeOfFuneral == funeral
  {
    var ceremony := NormalizeCeremonyType(FirstNonEmpty(m, RequestKeys));
    assert NonEmptyText(ceremony);
    AtctRow(
      WorkflowId, jobId,
      ceremony,
      OrNull(Trim(FirstNonEmpty(m, AgeKeys))),
      Column(m, KhuKey),
      Column(m, TieuKhuKey),
      Column(m, TieuKhuNoKey),
      Column(m, RowKey),
      Column(m, IndexKey),
      Column(m, DeceasedKey),
      BirthYear(m),
      death,
      Column(m, LunarKey),
      funeral,
      Column(m, DepartureKey),
      updatedAt)
  }

  const NullJobError := "TypeError: Cannot read properties of null"

  /** `mapJobToAtctRow(job)`, given the clock reading `now`. It throws when
      the title is a non-string or when either instant is out of range. */
  function MapJobToAtctRow(job: JVal, now: int): (r: Result<AtctRow>)
    ensures IsNullish(job) ==> r.Err?
    ensures !IsNullish(job) && Truthy(Get(job, "title")) && !Get(job, "title").JStr? ==> r == Err(TitleSplitError)
    ensures r.Ok? ==>
      && NoEmptyColumns(r.value)
      && r.value.workflowId == WorkflowId
      && r.value.jobId == ToStr(Get(job, "id"))
      && r.value.baseUpdatedAt == BaseUpdatedAt(Get(job, "last_update"), now)
  {
    if IsNullish(job) then Err(NullJobError)
    else match TitleMapOf(Get(job, "title"))
      case Err(e) => Err(e)
      case Ok(m) =>
        match ParseVnDateTime(TitleValue(m, DeathKey))
        case Err(e) => Err(e)
        case Ok(death) =>
          match ParseVnDateTime(TitleValue(m, FuneralKey))
          case Err(e) => Err(e)
          case Ok(funeral) =>
            Ok(RowOfTitle(ToStr(Get(job, "id")), m, death, funeral, BaseUpdatedAt(Get(job, "last_update"), now)))
  }

  /** The age phrase is the first non-empty age value as it stands: title
      values are already trimmed, so the mapping's own `trim` changes nothing. */
  lemma AgePhraseIsTitleValue(m: map<string, string>)
    requires forall k :: k in m ==> ValidEntry(k, m[k])
    ensures Trim(FirstNonEmpty(m, AgeKeys)) == FirstNonEmpty(m, AgeKeys)
  {
    var r := FirstNonEmpty(m, AgeKeys);
    if r != "" {
      var i :| 0 <= i < |AgeKeys| && r == Lookup(m, AgeKeys[i]);
      assert ValidEntry(AgeKeys[i], m[AgeKeys[i]]);
      TrimOfTrimmed(r);
    }
  }

  /** A text column read from one title label: null when the label is
      absent or empty, its value otherwise. */
  predicate LabelColumn(col: Option<string>, m: map<string, string>, key: string) {
    && (col.Some? <==> key in m && m[key] != "")
    && (col.Some? ==> col.value == m[key])
  }

  /** What each column of a mapped row holds, in terms of the job's title
      map: the mapping fails past the title only on an unparsable instant;
      the text columns are their labels' values; the ceremony is the
      normalised first non-empty request label; the age phrase is the first
      non-empty age label; the birth year is the non-zero number under its
      label; the instants are the parsed death and funeral times. */
  lemma MapJobColumns(job: JVal, now: int)
    requires !IsNullish(job) && TitleMapOf(Get(job, "title")).Ok?
    ensures var m := TitleMapOf(Get(job, "title")).value;
      var death := ParseVnDateTime(TitleValue(m, DeathKey));
      var funeral := ParseVnDateTime(TitleValue(m, FuneralKey));
      var r := MapJobToAtctRow(job, now);
      && (r.Ok? <==> death.Ok? && funeral.Ok?)
      && (r.Ok? ==>
        && r.value.timeOfDeath == death.value
        && r.value.timeOfFuneral == funeral.value
        && r.value.ceremonyType == NormalizeCeremonyType(FirstNonEmpty(m, RequestKeys))
        && r.value.agePhrase == OrNull(FirstNonEmpty(m, AgeKeys))
        && r.value.deceasedBirthYear == BirthYear(m)
        && LabelColumn(r.value.positionKhu, m, KhuKey)
        && LabelColumn(r.value.positionTieukhu, m, TieuKhuKey)
        && LabelColumn(r.value.positionTieukhuNo, m, TieuKhuNoKey)
        && LabelColumn(r.value.positionRow, m, RowKey)
        && LabelColumn(r.value.positionIndex, m, IndexKey)
        && LabelColumn(r.value.deceasedName, m, DeceasedKey)
        && LabelColumn(r.value.lunarDate, m, LunarKey)
        && LabelColumn(r.value.departurePlace, m, DepartureKey))
  {
    var m := TitleMapOf(Get(job, "title")).value;
    assert forall k :: k in m ==> ValidEntry(k, m[k]);
    AgePhraseIsTitleValue(m);
  }

  /** The deceased's name key is a plain title key. */
  lemma DeceasedKeyIsPlain()
    ensures DeceasedKey != "" && IsTrimmed(DeceasedKey) && ':' !in DeceasedKey && DeceasedKey != ProtoKey
    ensures PlainText(DeceasedKey)
    ensures DeceasedKey != DeathKey && DeceasedKey != FuneralKey
  {
    assert DeceasedKey[0] == 'H' && DeceasedKey[|DeceasedKey| - 1] == 't';
    assert |DeceasedKey| != |ProtoKey|;
  }

  /** Without either instant in the title, the mapping cannot fail past the title. */
  lemma MapJobWithoutInstants(job: JVal, m: map<string, string>, now: int)
    requires !IsNullish(job) && TitleMapOf(Get(job, "title")) == Ok(m)
    requires DeathKey !in m && FuneralKey !in m
    ensures MapJobToAtctRow(job, now) == Ok(RowOfTitle(ToStr(Get(job, "id")), m, None, None, BaseUpdatedAt(Get(job, "last_update"), now)))
  {
    assert TitleValue(m, DeathKey) == JUndef && TitleValue(m, FuneralKey) == JUndef;
  }

  /** A job whose title names only the deceased maps to a row holding that
      name, no instants and the job's id. */
  lemma DeceasedNameFromTitle(job: JVal, name: string, now: int)
    requires job.JObj? && Get(job, "title") == JStr(DeceasedKey + ": " + name)
    requires name != "" && IsTrimmed(name) && name[0] != ':' && PlainText(name)
    ensures MapJobToAtctRow(job, now).Ok?
    ensures MapJobToAtctRow(job, now).value.deceasedName == Some(name)
    ensures MapJobToAtctRow(job, now).value.timeOfDeath == None
    ensures MapJobToAtctRow(job, now).value.jobId == ToStr(Get(job, "id"))
  {
    DeceasedKeyIsPlain();
    OneSegmentTitle(DeceasedKey, name);
    var m := map[DeceasedKey := name];
    MapJobWithoutInstants(job, m, now);
    assert Column(m, DeceasedKey) == Some(name);
  }
}

=== FILE: fullsync11055.dfy ===
/** The pure helpers of the "huyệt mộ" sweep (src/modules/workflow/fullSync11055.ts):
    status classification, plot-code parsing, the composite
    `<plots>-<name>-<phone>` title, and the probing of job-detail envelopes. */
module FullSync11055 {
  import opened Wrappers
  import opened Strings
  import opened Seqs
  import opened JsValue
  import opened Unicode
  import opened PlotGrammar

  // ---------------------------------------------------------------------
  // Status

  /** `isCompletedStatus`. */
  predicate IsCompletedStatus(st: JVal) {
    st == JNum(10) || st == JStr("10") || ToNumber(st) == Some(10) || Lower(ToStr(st)) == "completed"
  }

  /** `isFailedStatus`. */
  predicate IsFailedStatus(st: JVal) {
    st == JNum(-10) || st == JStr("-10") || ToNumber(st) == Some(-10) || Contains(Lower(ToStr(st)), "fail")
  }

  /** The digits "10" are worth ten. */
  lemma DigitsTen()
    ensures AllDigits("10") && DigitsValue("10") == 10
  {
    assert "10"[..1] == "1";
    assert "1"[..0] == "";
  }

  /** The texts "10" and "-10" read as the numbers 10 and -10. */
  lemma TenReadsAsTen()
    ensures StrToNum("10") == Some(10) && StrToNum("-10") == Some(-10)
  {
    PlainTenReads();
    MinusTenReads();
  }

  lemma PlainTenReads()
    ensures StrToNum("10") == Some(10)
  {
    var t := "10";
    DigitsTen();
    StrToNumOfDigits(t);
  }

  lemma MinusTenReads()
    ensures StrToNum("-10") == Some(-10)
  {
    var t := "-10";
    assert t[1..] == "10";
    DigitsTen();
    assert NoWhitespace(t) by {
      assert t[0] == '-' && t[1] == '1' && t[2] == '0';
    }
    StrToNumOfNegatedDigits(t);
  }

  /** The literal comparisons are redundant: completed means numerically 10
      or exactly "completed" once lower-cased. */
  lemma CompletedMeans(st: JVal)
    ensures IsCompletedStatus(st) <==> ToNumber(st) == Some(10) || Lower(ToStr(st)) == "completed"
  {
    TenReadsAsTen();
  }

  /** Failed means numerically -10 or containing "fail" once lower-cased. */
  lemma FailedMeans(st: JVal)
    ensures IsFailedStatus(st) <==> ToNumber(st) == Some(-10) || Contains(Lower(ToStr(st)), "fail")
  {
    TenReadsAsTen();
  }

  /** A status numerically 10 or -10 prints as digits, signs and white space. */
  lemma NumericStatusText(st: JVal)
    ensures ToNumber(st) == Some(10) || ToNumber(st) == Some(-10) ==> NumericText(ToStr(st))
  {
    if ToNumber(st) == Some(10) || ToNumber(st) == Some(-10) {
      NumberedValueIsNumericText(st, ToNumber(st).value);
    }
  }

  /** Numeric text is neither "completed" nor contains "fail", even lower-cased. */
  lemma NumericTextIsNoWord(s: string)
    ensures NumericText(s) ==> !Contains(Lower(s), "fail") && Lower(s) != "completed"
  {
    if NumericText(s) {
      LowerKeepsNonLetters(s);
      assert 'f' !in s;
      AbsentCharNotContained(s, "fail", 0);
      assert "completed"[0] == 'c';
      assert |s| == 0 || s[0] != 'c';
    }
  }

  /** No status is both completed and failed, so testing failed first (as
      `processJob11055` does) never hides a completed job. */
  lemma StatusesExclusive(st: JVal)
    ensures !(IsCompletedStatus(st) && IsFailedStatus(st))
  {
    CompletedMeans(st);
    FailedMeans(st);
    if ToNumber(st) == Some(10) || ToNumber(st) == Some(-10) {
      NumericStatusText(st);
      NumericTextIsNoWord(ToStr(st));
    } else if Lower(ToStr(st)) == "completed" {
      AbsentCharNotContained("completed", "fail", 0);
    }
  }

  /** The words `String` prints for booleans and null name neither status. */
  lemma WordsAreNoStatus(st: JVal)
    requires st.JBool? || st.JNull?
    ensures !Contains(Lower(ToStr(st)), "fail") && Lower(ToStr(st)) != "completed"
  {
    var s := Lower(ToStr(st));
    assert |s| == |ToStr(st)| <= 5;
    assert 'i' !in s by {
      forall k | 0 <= k < |s| ensures s[k] != 'i' {
        assert s[k] == LowerChar(ToStr(st)[k]);
      }
    }
    assert "fail"[2] == 'i';
    AbsentCharNotContained(s, "fail", 2);
  }

  /** Any other numeric status (-1, 0 and 1 included, booleans and null
      too) is neither completed nor failed, so the job counts as active. */
  lemma OtherNumbersAreActive(st: JVal, n: int)
    requires ToNumber(st) == Some(n)
    requires n != 10 && n != -10
    ensures !IsCompletedStatus(st) && !IsFailedStatus(st)
  {
    CompletedMeans(st);
    FailedMeans(st);
    if st.JBool? || st.JNull? {
      WordsAreNoStatus(st);
    } else {
      NumberedValueIsNumericText(st, n);
      NumericTextIsNoWord(ToStr(st));
    }
  }

  /** A blank status (`""` or only white space) reads as the number 0, so
      it is neither completed nor failed. */
  lemma BlankStatusIsActive(s: string)
    requires forall i :: 0 <= i < |s| ==> IsWhitespace(s[i])
    ensures !IsCompletedStatus(JStr(s)) && !IsFailedStatus(JStr(s))
  {
    assert Trim(s) == "" by {
      assert TrimEnd(s) == "";
    }
    OtherNumbersAreActive(JStr(s), 0);
  }

  // ---------------------------------------------------------------------
  // Plot codes

  /** `parsePlotCodes(segmentRaw)`: white space deleted, then the clusters read. */
  function ParsePlotCodes(raw: Option<string>): (r: seq<string>)
    ensures raw.None? || raw == Some("") ==> r == []
    ensures NoDup(r)
    ensures forall k :: 0 <= k < |r| ==> IsPlotCode(r[k])
  {
    if raw.None? || raw.value == "" then [] else PlotCodesOf(RemoveWhitespace(raw.value))
  }

  /** A de-duplicated list of plot codes, joined with '+', is read back unchanged. */
  lemma JoinedCodesReparse(codes: seq<string>)
    requires codes != [] && NoDup(codes)
    requires forall k :: 0 <= k < |codes| ==> IsPlotCode(codes[k])
    ensures Join(codes, '+') != ""
    ensures PlotCodesOf(RemoveWhitespace(Join(codes, '+'))) == codes
  {
    forall k | 0 <= k < |codes|
      ensures NoWhitespace(codes[k]) && '+' !in codes[k] && |codes[k]| > 0
    {
      PlotCodeCharacters(codes[k]);
    }
    var joined := Join(codes, '+');
    JoinNoWhitespace(codes, '+');
    RemoveWhitespaceOfClean(joined);
    SplitJoin(codes, '+');
    CodesOfPlotCodes(codes);
    DedupOfNoDup(codes);
    JoinSplit(joined, '+');
    assert Split("", '+') == [""];
  }

  /** Re-parsing the codes joined with '+' gives the same list back. */
  lemma ParsePlotCodesIdempotent(raw: Option<string>)
    ensures ParsePlotCodes(Some(Join(ParsePlotCodes(raw), '+'))) == ParsePlotCodes(raw)
  {
    var codes := ParsePlotCodes(raw);
    if codes != [] {
      JoinedCodesReparse(codes);
    }
  }

  // ---------------------------------------------------------------------
  // Composite field

  datatype Composite = Composite(plotCodes: seq<string>, customerName: Option<string>, customerPhone: Option<string>)

  /** `/-(\d[\d\s]{6,})\s*$/` matches starting at `i`; its capture is the
      whole rest of the text. */
  predicate PhoneAt(s: string, i: int) {
    && 0 <= i && i + 8 <= |s| && s[i] == '-' && IsDigit(s[i + 1])
    && forall k :: i + 2 <= k < |s| ==> IsDigit(s[k]) || IsWhitespace(s[k])
  }

  /** At most one position starts a phone suffix. */
  lemma PhoneAtUnique(s: string, i: int, j: int)
    requires PhoneAt(s, i) && PhoneAt(s, j)
    ensures i == j
  {
  }

  /** The leftmost phone match at or after `from`. */
  function FindPhone(s: string, from: nat): (r: Option<nat>)
    requires from <= |s|
    ensures r.Some? ==> from <= r.value < |s| && PhoneAt(s, r.value)
    ensures r.None? ==> forall j :: from <= j < |s| ==> !PhoneAt(s, j)
    decreases |s| - from
  {
    if from == |s| then None
    else if PhoneAt(s, from) then Some(from)
    else FindPhone(s, from + 1)
  }

  /** Step 1 of `parseCompositeField`: cut a trailing `-<phone>` and keep its digits. */
  function SplitPhone(work: string): (r: (string, Option<string>))
    ensures r.1.None? ==> r.0 == work && forall i :: !PhoneAt(work, i)
    ensures r.1.Some? ==> |r.1.value| > 0 && AllDigits(r.1.value)
    ensures r.1.Some? ==> exists i :: PhoneAt(work, i) && r.0 == Trim(work[..i]) && r.1.value == DigitsOnly(work[i + 1..])
  {
    match FindPhone(work, 0)
    case None => (work, None)
    case Some(i) =>
      assert work[i + 1..][0] == work[i + 1];
      (Trim(work[..i]), Some(DigitsOnly(work[i + 1..])))
  }

  /** Step 2: if the text after the last hyphen holds a letter, it is the name. */
  function SplitName(work: string): (r: (string, Option<string>))
    ensures r.1.None? ==> r.0 == work
    ensures r.1.Some? ==> HasNameLetter(r.1.value) && '-' !in r.1.value && IsTrimmed(r.1.value)
    ensures r.1.Some? ==> exists h :: (0 <= h < |work| && work[h] == '-' && '-' !in work[h + 1..] &&
      r.0 == Trim(work[..h]) && r.1.value == Trim(work[h + 1..]))
  {
    match LastIndexOf(work, '-')
    case None => (work, None)
    case Some(h) =>
      var right := Trim(work[h + 1..]);
      if HasNameLetter(right) then
        TrimKeepsAbsentChar(work[h + 1..], '-');
        (Trim(work[..h]), Some(right))
      else (work, None)
  }

  /** Cutting a phone leaves a prefix of a text that starts with a non-space. */
  lemma SplitPhoneIsPrefix(work: string)
    requires |work| > 0 && !IsWhitespace(work[0])
    ensures IsPrefix(SplitPhone(work).0, work)
    ensures |SplitPhone(work).0| == 0 || !IsWhitespace(SplitPhone(work).0[0])
  {
    var r := SplitPhone(work);
    if r.1.Some? {
      var i :| PhoneAt(work, i) && r.0 == Trim(work[..i]);
      TrimmedHeadIsPrefix(work, i);
    } else {
      assert work[..|work|] == work;
    }
  }

  /** Trimming the first `i` characters of text that starts with a
      non-white-space character leaves a prefix that starts the same way. */
  lemma TrimmedHeadIsPrefix(work: string, i: int)
    requires |work| > 0 && !IsWhitespace(work[0]) && 0 <= i <= |work|
    ensures IsPrefix(Trim(work[..i]), work)
    ensures |Trim(work[..i])| == 0 || !IsWhitespace(Trim(work[..i])[0])
  {
    assert i == 0 || work[..i][0] == work[0];
    TrimIsPrefix(work[..i]);
    PrefixOfTake(Trim(work[..i]), work, i);
  }

  /** Cutting a name leaves a prefix of a text that starts with a non-space. */
  lemma SplitNameIsPrefix(work: string)
    requires |work| == 0 || !IsWhitespace(work[0])
    ensures IsPrefix(SplitName(work).0, work)
  {
    var r := SplitName(work);
    if r.1.Some? {
      var h :| 0 <= h < |work| && work[h] == '-' && r.0 == Trim(work[..h]);
      assert h == 0 || work[..h][0] == work[0];
      TrimIsPrefix(work[..h]);
      PrefixOfTake(r.0, work, h);
    } else {
      assert work[..|work|] == work;
    }
  }

  /** Cutting the phone and then the name leaves a prefix of the text. */
  lemma CompositeRestIsPrefix(work: string)
    requires |work| > 0 && !IsWhitespace(work[0])
    ensures IsPrefix(SplitName(SplitPhone(work).0).0, work)
  {
    var w1 := SplitPhone(work).0;
    SplitPhoneIsPrefix(work);
    SplitNameIsPrefix(w1);
    PrefixTrans(SplitName(w1).0, w1, work);
  }

  /** `parseCompositeField(raw)` of the sweep. */
  function ParseComposite(raw: string): (r: Composite)
    ensures Trim(raw) == "" ==> r == Composite([], None, None)
    ensures r.customerPhone.Some? ==> |r.customerPhone.value| > 0 && AllDigits(r.customerPhone.value)
    ensures r.customerPhone.Some? ==> exists i :: PhoneAt(Trim(raw), i) && r.customerPhone.value == DigitsOnly(Trim(raw)[i + 1..])
    ensures r.customerPhone.None? ==> forall i :: !PhoneAt(Trim(raw), i)
    ensures r.customerName.Some? ==> HasNameLetter(r.customerName.value) && '-' !in r.customerName.value
    ensures exists rest :: IsPrefix(rest, Trim(raw)) && r.plotCodes == ParsePlotCodes(Some(rest))
    ensures Trim(raw) != "" ==> r.customerPhone == SplitPhone(Trim(raw)).1
    ensures Trim(raw) != "" ==> r.customerName == SplitName(SplitPhone(Trim(raw)).0).1
    ensures Trim(raw) != "" ==> r.plotCodes == ParsePlotCodes(Some(SplitName(SplitPhone(Trim(raw)).0).0))
    ensures NoDup(r.plotCodes) && forall k :: 0 <= k < |r.plotCodes| ==> IsPlotCode(r.plotCodes[k])
  {
    var work := Trim(raw);
    if work == "" then
      assert IsPrefix("", work) && ParsePlotCodes(Some("")) == [];
      Composite([], None, None)
    else
      var (w1, phone) := SplitPhone(work);
      var (w2, name) := SplitName(w1);
      CompositeRestIsPrefix(work);
      Composite(ParsePlotCodes(Some(w2)), name, phone)
  }

  /** Digits pass through the digit filter unchanged. */
  lemma DigitsOnlyOfDigits(s: string)
    requires AllDigits(s)
    ensures DigitsOnly(s) == s
  {
  }

  /** A field of one clean cluster is read as that cluster's codes. */
  lemma PlotCodesOfCluster(c: Cluster)
    requires WellFormed(c)
    ensures ParsePlotCodes(Some(Hyphenate(c))) == Dedup(ClusterCodes(Hyphenate(c)))
  {
    var h := Hyphenate(c);
    ClusterCharacters(c);
    RemoveWhitespaceOfClean(h);
    SplitNoSeparator(h, '+');
    CodesOfOnePart(h);
  }

  /** A hyphen followed by at least seven digits to the end is a phone match. */
  lemma PhoneAfter(w: string, phone: string)
    requires |phone| >= 7 && AllDigits(phone)
    ensures PhoneAt(w + "-" + phone, |w|)
    ensures (w + "-" + phone)[..|w|] == w && (w + "-" + phone)[|w| + 1..] == phone
  {
    var s := w + "-" + phone;
    assert s[|w|] == '-' && s[|w| + 1] == phone[0];
    assert forall k :: |w| + 2 <= k < |s| ==> s[k] == phone[k - |w| - 1];
  }

  /** The hyphen before a hyphen-free name is the last one. */
  lemma NameHyphen(h: string, name: string)
    requires '-' !in name
    ensures LastIndexOf(h + "-" + name, '-') == Some(|h|)
  {
    var w := h + "-" + name;
    assert w[|h|] == '-';
    assert w[|h| + 1..] == name;
  }

  /** Step 1 cuts at the one phone match there is. */
  lemma SplitPhoneAt(s: string, j: nat)
    requires PhoneAt(s, j)
    ensures SplitPhone(s) == (Trim(s[..j]), Some(DigitsOnly(s[j + 1..])))
  {
    var i := FindPhone(s, 0);
    assert i.Some?;
    PhoneAtUnique(s, i.value, j);
  }

  /** Step 1 on a trimmed text followed by `-<phone>` cuts exactly the phone,
      whatever hyphens the text holds. */
  lemma SplitPhoneOfComposite(w: string, phone: string)
    requires IsTrimmed(w)
    requires |phone| >= 7 && AllDigits(phone)
    ensures SplitPhone(w + "-" + phone) == (w, Some(phone))
  {
    PhoneAfter(w, phone);
    SplitPhoneAt(w + "-" + phone, |w|);
    DigitsOnlyOfDigits(phone);
    TrimOfTrimmed(w);
  }

  /** Step 2 on the example shape cuts exactly the name. */
  lemma SplitNameOfComposite(h: string, name: string)
    requires NoWhitespace(h)
    requires HasNameLetter(name) && IsTrimmed(name) && '-' !in name
    ensures SplitName(h + "-" + name) == (h, Some(name))
  {
    var w := h + "-" + name;
    NameHyphen(h, name);
    assert w[|h| + 1..] == name && w[..|h|] == h;
    TrimOfTrimmed(name);
    TrimNoWhitespace(h);
  }

  /** The sweep's example shape: a clean cluster, then a hyphen-free name
      holding a letter, then a phone of at least seven digits. All three parts are
      recovered, and the codes are those of the cluster alone. */
  lemma CompositeOfClusterNamePhone(c: Cluster, name: string, phone: string)
    requires WellFormed(c)
    requires HasNameLetter(name) && IsTrimmed(name) && '-' !in name
    requires |phone| >= 7 && AllDigits(phone)
    ensures ParseComposite(Hyphenate(c) + "-" + name + "-" + phone)
         == Composite(Dedup(ClusterCodes(Hyphenate(c))), Some(name), Some(phone))
  {
    var h := Hyphenate(c);
    var w := h + "-" + name;
    var s := w + "-" + phone;
    ClusterCharacters(c);
    assert h[0] == c.block[0];
    assert IsTrimmed(w) by {
      assert w[0] == h[0] && w[|w| - 1] == name[|name| - 1];
    }
    assert IsTrimmed(s) by {
      assert s[0] == h[0] && s[|s| - 1] == phone[|phone| - 1];
    }
    TrimOfTrimmed(s);
    SplitPhoneOfComposite(w, phone);
    SplitNameOfComposite(h, name);
    PlotCodesOfCluster(c);
  }

  const ExampleCluster := Cluster("F6.3", "09", "16;17")
  const ExampleName := "T\U{1ED0}NG QU\U{1ED0}C TR\U{1ECC}NG"
  const ExamplePhone := "0979944914"

  lemma ExampleParts()
    ensures WellFormed(ExampleCluster) && Hyphenate(ExampleCluster) == "F6.3-09-16;17"
    ensures HasNameLetter(ExampleName) && IsTrimmed(ExampleName) && '-' !in ExampleName
    ensures |ExamplePhone| >= 7 && AllDigits(ExamplePhone)
  {
    assert "F6.3"[3..] == "3";
    assert IsNameLetter(ExampleName[0]);
  }

  lemma ExampleIndexPieces()
    ensures Split("16;17", ';') == ["16", "17"]
  {
    assert "16;17" == "16" + [';'] + "17";
    SplitNoSeparator("17", ';');
    SplitAppend("16", "17", ';');
  }

  lemma ExamplePlotCodes()
    ensures PlotCode("F6.3", "09", PadIndex("16")) == "F6.3-09-16"
    ensures PlotCode("F6.3", "09", PadIndex("17")) == "F6.3-09-17"
  {
    assert PadIndex("16") == "16" && PadIndex("17") == "17";
  }

  lemma ExampleIndexCodes()
    ensures IndexCodes("F6.3", "09", ["16", "17"]) == ["F6.3-09-16", "F6.3-09-17"]
  {
    ExamplePlotCodes();
    IndexCodesOfTwo("F6.3", "09", "16", "17");
  }

  lemma ExampleClusterCodes()
    ensures ClusterCodes("F6.3-09-16;17") == ["F6.3-09-16", "F6.3-09-17"]
  {
    ExampleParts();
    ClusterCodesOfWellFormed(ExampleCluster);
    ExampleIndexPieces();
    ExampleIndexCodes();
  }

  lemma ExampleCodesDistinct(codes: seq<string>)
    requires codes == ["F6.3-09-16", "F6.3-09-17"]
    ensures Dedup(codes) == codes
  {
    assert codes[0][9] != codes[1][9];
    DedupOfNoDup(codes);
  }

  /** The sweep's documented example: plots, name and phone of
      "F6.3-09-16;17-TỐNG QUỐC TRỌNG-0979944914". */
  lemma DocumentedExample(raw: string)
    requires raw == Hyphenate(ExampleCluster) + "-" + ExampleName + "-" + ExamplePhone
    ensures ParseComposite(raw) == Composite(["F6.3-09-16", "F6.3-09-17"], Some(ExampleName), Some(ExamplePhone))
  {
    ExampleParts();
    CompositeOfClusterNamePhone(ExampleCluster, ExampleName, ExamplePhone);
    ExampleClusterCodes();
    ExampleCodesDistinct(ClusterCodes(Hyphenate(ExampleCluster)));
  }

  // ---------------------------------------------------------------------
  // Job-detail envelopes

  /** The envelope shapes `extractJobFromPayload` tries, in order. */
  function PayloadProbes(parsed: JVal): seq<Probe> {
    var data := Get(parsed, "data");
    var dataJobs := Get(data, "jobs");
    var jobs := Get(parsed, "jobs");
    [ Probe(IsObjectLike(Get(parsed, "job")), Get(parsed, "job")),
      Probe(Truthy(data) && IsObjectLike(Get(data, "job")), Get(data, "job")),
      Probe(Truthy(data) && IsObjectLike(Get(data, "item")), Get(data, "item")),
      Probe(Truthy(data) && dataJobs.JArr? && |dataJobs.items| > 0, if dataJobs.JArr? && |dataJobs.items| > 0 then dataJobs.items[0] else JUndef),
      Probe(Truthy(data) && TypeofObject(data) && Truthy(Get(data, "id")), data),
      Probe(jobs.JArr? && |jobs.items| > 0, if jobs.JArr? && |jobs.items| > 0 then jobs.items[0] else JUndef),
      Probe(IsObjectLike(Get(parsed, "item")), Get(parsed, "item")) ]
  }

  /** `extractJobFromPayload(parsed)`; `JNull` stands for the `null` it returns. */
  function ExtractJobFromPayload(parsed: JVal): (r: JVal)
    ensures !IsObjectLike(parsed) ==> r == JNull
    ensures r == JNull || exists k :: 0 <= k < |PayloadProbes(parsed)| && PayloadProbes(parsed)[k].hit && r == PayloadProbes(parsed)[k].value
  {
    var ps := PayloadProbes(parsed);
    if !Truthy(parsed) || !TypeofObject(parsed) then JNull
    else
      var job := Get(parsed, "job");
      var data := Get(parsed, "data");
      if IsObjectLike(job) then assert ps[0].hit; job
      else if Truthy(data) && IsObjectLike(Get(data, "job")) then assert ps[1].hit; Get(data, "job")
      else if Truthy(data) && IsObjectLike(Get(data, "item")) then assert ps[2].hit; Get(data, "item")
      else if Truthy(data) && Get(data, "jobs").JArr? && |Get(data, "jobs").items| > 0 then
        assert ps[3].hit; Get(data, "jobs").items[0]
      else if Truthy(data) && TypeofObject(data) && Truthy(Get(data, "id")) then assert ps[4].hit; data
      else if Get(parsed, "jobs").JArr? && |Get(parsed, "jobs").items| > 0 then
        assert ps[5].hit; Get(parsed, "jobs").items[0]
      else if IsObjectLike(Get(parsed, "item")) then assert ps[6].hit; Get(parsed, "item")
      else JNull
  }

  /** The probes are tried strictly in order: an object payload yields the
      value of the first probe that hits, and null when none does. */
  lemma PayloadProbeOrder(parsed: JVal)
    requires IsObjectLike(parsed)
    ensures ExtractJobFromPayload(parsed) == FirstHit(PayloadProbes(parsed)).GetOr(JNull)
  {
    var ps := PayloadProbes(parsed);
    assert ps[1..][0] == ps[1] && ps[2..][0] == ps[2] && ps[3..][0] == ps[3];
    assert ps[4..][0] == ps[4] && ps[5..][0] == ps[5] && ps[6..][0] == ps[6];
    assert ps[1..][1..] == ps[2..] && ps[2..][1..] == ps[3..] && ps[3..][1..] == ps[4..];
    assert ps[4..][1..] == ps[5..] && ps[5..][1..] == ps[6..] && ps[6..][1..] == [];
    assert FirstHit(ps[6..]) == if ps[6].hit then Some(ps[6].value) else None;
    assert FirstHit(ps[5..]) == if ps[5].hit then Some(ps[5].value) else FirstHit(ps[6..]);
    assert FirstHit(ps[4..]) == if ps[4].hit then Some(ps[4].value) else FirstHit(ps[5..]);
    assert FirstHit(ps[3..]) == if ps[3].hit then Some(ps[3].value) else FirstHit(ps[4..]);
    assert FirstHit(ps[2..]) == if ps[2].hit then Some(ps[2].value) else FirstHit(ps[3..]);
    assert FirstHit(ps[1..]) == if ps[1].hit then Some(ps[1].value) else FirstHit(ps[2..]);
  }
}

=== FILE: huyetmo_store.dfy ===
/** The three tables `processJob11055` (src/modules/workflow/fullSync11055.ts)
    writes: the job rows of `workflow_jobs_huyetmo`, the job-to-plot links of
    `workflow_job_plots`, and the owner columns of `ocm_plots`. */
module HuyetMoStore {
  import opened Wrappers
  import opened Seqs
  import opened JsValue
  import opened FullSync11055

  /** The columns of a `workflow_jobs_huyetmo` row the processor decides.
      The columns `extractSystem` derives from the job are summed up by
      `raw`, which they are a function of; instants are clock readings. */
  datatype JobRow = JobRow(
    workflowId: JVal,
    raw: JVal,
    isFrozen: bool,
    deletedAt: Option<int>,
    syncedAt: int,
    customerName: Option<string>,
    customerPhone: Option<string>)

  /** The owner columns of an `ocm_plots` row. */
  datatype Owner = Owner(name: Option<string>, phone: Option<string>, updatedAt: int)

  datatype Db = Db(jobs: map<string, JobRow>, plots: set<(string, string)>, owners: map<string, Owner>)

  /** The database after a call, and the error the call threw, if any.
      Statements run before the throw keep their effect. */
  datatype Processed = Processed(db: Db, error: Option<string>)

  /** `COALESCE($new, column)`. */
  function Coalesced(column: Option<string>, incoming: Option<string>): (r: Option<string>)
    ensures incoming.Some? ==> r == incoming
    ensures incoming.None? ==> r == column
  {
    if incoming.Some? then incoming else column
  }

  /** The plot codes linked to job `jobId`. */
  function PlotsOf(plots: set<(string, string)>, jobId: string): set<string> {
    set p | p in plots && p.0 == jobId :: p.1
  }

  /** `DELETE FROM workflow_job_plots WHERE job_id = $1`. */
  function DropPlots(plots: set<(string, string)>, jobId: string): (r: set<(string, string)>)
    ensures forall p :: p in r <==> p in plots && p.0 != jobId
  {
    set p | p in plots && p.0 != jobId
  }

  /** The delete above followed by one `INSERT … ON CONFLICT DO NOTHING` per code. */
  function ReplacePlots(plots: set<(string, string)>, jobId: string, codes: seq<string>): (r: set<(string, string)>)
    ensures forall p :: p in r <==> (p in plots && p.0 != jobId) || (p.0 == jobId && p.1 in codes)
  {
    DropPlots(plots, jobId) + set c | c in codes :: (jobId, c)
  }

  /** The failed branch's `UPDATE … SET deleted_at = NOW(), is_frozen = FALSE`:
      it touches an existing row only. */
  function SoftDelete(jobs: map<string, JobRow>, jobId: string, now: int): (r: map<string, JobRow>)
    ensures SameExcept(jobs, r, jobId)
    ensures jobId in r <==> jobId in jobs
    ensures jobId in r ==> r[jobId] == jobs[jobId].(deletedAt := Some(now), isFrozen := false)
  {
    if jobId in jobs then jobs[jobId := jobs[jobId].(deletedAt := Some(now), isFrozen := false)] else jobs
  }

  /** `upsertJobToDb(job)`: a new row starts unfrozen; an existing row keeps
      its freeze flag and customer columns and is revived. `defaultId` is
      `WORKFLOW_ID`, read from the environment. */
  function UpsertJob(jobs: map<string, JobRow>, jobId: string, job: JVal, defaultId: JVal, now: int): (r: map<string, JobRow>)
    ensures SameExcept(jobs, r, jobId)
    ensures jobId in r
    ensures r[jobId].deletedAt == None && r[jobId].syncedAt == now && r[jobId].raw == job
    ensures r[jobId].workflowId == Coalesce(Get(job, "workflow_id"), defaultId)
    ensures r[jobId].isFrozen == (jobId in jobs && jobs[jobId].isFrozen)
    ensures jobId in jobs ==>
      r[jobId].customerName == jobs[jobId].customerName && r[jobId].customerPhone == jobs[jobId].customerPhone
    ensures jobId !in jobs ==> r[jobId].customerName == None && r[jobId].customerPhone == None
  {
    var workflowId := Coalesce(Get(job, "workflow_id"), defaultId);
    var row :=
      if jobId in jobs then jobs[jobId].(workflowId := workflowId, raw := job, deletedAt := None, syncedAt := now)
      else JobRow(workflowId, job, false, None, now, None, None);
    jobs[jobId := row]
  }

  /** The customer name stored for `jobId`, or null when there is no row. */
  function StoredName(jobs: map<string, JobRow>, jobId: string): Option<string> {
    if jobId in jobs then jobs[jobId].customerName else None
  }

  /** The customer phone stored for `jobId`, or null when there is no row. */
  function StoredPhone(jobs: map<string, JobRow>, jobId: string): Option<string> {
    if jobId in jobs then jobs[jobId].customerPhone else None
  }

  /** Whether the composite title named a customer at all. */
  predicate HasCustomer(c: Composite) {
    c.customerName.Some? || c.customerPhone.Some?
  }

  /** The `COALESCE` update of the job's customer columns. */
  function UpdateCustomer(jobs: map<string, JobRow>, jobId: string, c: Composite): (r: map<string, JobRow>)
    requires jobId in jobs
    ensures SameExcept(jobs, r, jobId) && jobId in r
    ensures r[jobId] == jobs[jobId].(
      customerName := Coalesced(jobs[jobId].customerName, c.customerName),
      customerPhone := Coalesced(jobs[jobId].customerPhone, c.customerPhone))
  {
    if HasCustomer(c) then
      var row := jobs[jobId];
      jobs[jobId := row.(customerName := Coalesced(row.customerName, c.customerName),
                         customerPhone := Coalesced(row.customerPhone, c.customerPhone))]
    else jobs
  }

  /** The owner update of `ocm_plots`, one `UPDATE … WHERE plot_code` per
      code: plots that are not in the table stay absent. */
  function UpdateOwners(owners: map<string, Owner>, c: Composite, now: int): (r: map<string, Owner>)
    ensures r.Keys == owners.Keys
    ensures forall code :: code in owners && !(HasCustomer(c) && code in c.plotCodes) ==> r[code] == owners[code]
    ensures forall code :: code in owners && HasCustomer(c) && code in c.plotCodes ==>
      r[code] == Owner(Coalesced(owners[code].name, c.customerName), Coalesced(owners[code].phone, c.customerPhone), now)
  {
    map code | code in owners ::
      if HasCustomer(c) && code in c.plotCodes then
        Owner(Coalesced(owners[code].name, c.customerName), Coalesced(owners[code].phone, c.customerPhone), now)
      else owners[code]
  }

  /** `jobDetail.status ?? jobDetail.state ?? ""`. */
  function StatusOf(job: JVal): JVal {
    Coalesce(Coalesce(Get(job, "status"), Get(job, "state")), JStr(""))
  }

  /** How `processJob11055` classifies a job; failure is tested first. */
  datatype Verdict = Failed | Completed | Open

  function VerdictOf(job: JVal): (v: Verdict)
    ensures v == Failed <==> IsFailedStatus(StatusOf(job))
    ensures v == Completed <==> IsCompletedStatus(StatusOf(job))
    ensures v == Open <==> !IsFailedStatus(StatusOf(job)) && !IsCompletedStatus(StatusOf(job))
  {
    var st := StatusOf(job);
    StatusesExclusive(st);
    if IsFailedStatus(st) then Failed
    else if IsCompletedStatus(st) then Completed
    else Open
  }

  /** `jobDetail.name || jobDetail.title || ""`, the text the composite is read from. */
  function CompositeSource(job: JVal): JVal {
    Or(Or(Get(job, "name"), Get(job, "title")), JStr(""))
  }

  const NullJobError := "TypeError: Cannot read properties of null"
  const UndefinedReadError := "TypeError: Cannot read properties of undefined"
  const TrimError := "TypeError: raw.trim is not a function"

  /** The list `extractSystem` maps over: the job's `followers` array, or
      else its `watchers` array, or nothing. */
  function FollowerList(job: JVal): (r: seq<JVal>)
    ensures Get(job, "followers").JArr? ==> r == Get(job, "followers").items
    ensures !Get(job, "followers").JArr? && Get(job, "watchers").JArr? ==> r == Get(job, "watchers").items
    ensures !Get(job, "followers").JArr? && !Get(job, "watchers").JArr? ==> r == []
  {
    if Get(job, "followers").JArr? then Get(job, "followers").items
    else if Get(job, "watchers").JArr? then Get(job, "watchers").items
    else []
  }

  /** The TypeError of reading `x.name` on each element in turn, if one of
      them is null or undefined: the first such element decides the message. */
  function ReadNameError(xs: seq<JVal>): (r: Option<string>)
    ensures r.Some? <==> exists i :: 0 <= i < |xs| && IsNullish(xs[i])
    ensures r.Some? ==> r.value == NullJobError || r.value == UndefinedReadError
  {
    if |xs| == 0 then None
    else if xs[0] == JNull then Some(NullJobError)
    else if xs[0] == JUndef then Some(UndefinedReadError)
    else
      var r := ReadNameError(xs[1..]);
      assert forall i :: 1 <= i < |xs| ==> xs[i] == xs[1..][i - 1];
      assert r.Some? ==> exists i :: 0 <= i < |xs| && IsNullish(xs[i]) by {
        if r.Some? {
          var i :| 0 <= i < |xs[1..]| && IsNullish(xs[1..][i]);
          assert IsNullish(xs[i + 1]);
        }
      }
      r
  }

  /** What `extractSystem(job)` throws, if anything: it reads `x.name` of
      every follower (or watcher), which fails on a null or undefined one.
      Every other field it reads is optional. */
  function SystemError(job: JVal): (r: Option<string>)
    ensures r.Some? <==> exists i :: 0 <= i < |FollowerList(job)| && IsNullish(FollowerList(job)[i])
  {
    ReadNameError(FollowerList(job))
  }

  /** The open branch once the row is upserted: customer columns, plot
      links and plot owners, all read from one composite. */
  function Refresh(db: Db, jobId: string, c: Composite, now: int): (r: Db)
    requires jobId in db.jobs
    ensures SameExcept(db.jobs, r.jobs, jobId) && jobId in r.jobs
    ensures PlotsOf(r.plots, jobId) == set code | code in c.plotCodes
    ensures forall p :: p in r.plots && p.0 != jobId <==> p in db.plots && p.0 != jobId
    ensures r.owners == UpdateOwners(db.owners, c, now)
    ensures r.jobs[jobId] == db.jobs[jobId].(
      customerName := Coalesced(db.jobs[jobId].customerName, c.customerName),
      customerPhone := Coalesced(db.jobs[jobId].customerPhone, c.customerPhone))
  {
    var r := Db(UpdateCustomer(db.jobs, jobId, c), ReplacePlots(db.plots, jobId, c.plotCodes), UpdateOwners(db.owners, c, now));
    assert forall code :: code in PlotsOf(r.plots, jobId) <==> (jobId, code) in r.plots;
    r
  }

  /** What `processJob11055` decides for a job, before touching the
      database: it depends on the job alone. */
  datatype Plan =
    | Bury(jobId: string)
    | Purge(jobId: string)
    | Halt(jobId: string, error: string)
    | Sync(jobId: string, job: JVal, parsed: Result<Composite>)

  function PlanKey(plan: Plan): string {
    plan.jobId
  }

  /** `parseCompositeField(jobDetail.name || jobDetail.title || "")`: a
      truthy value that is not text throws at `raw.trim()`. */
  function CompositeOf(job: JVal): (r: Result<Composite>)
    ensures r.Err? <==> !CompositeSource(job).JStr?
    ensures r.Ok? ==> r.value == ParseComposite(CompositeSource(job).s)
    ensures Truthy(Get(job, "name")) ==>
      (r.Ok? <==> Get(job, "name").JStr?) && (r.Ok? ==> r.value == ParseComposite(Get(job, "name").s))
    ensures !Truthy(Get(job, "name")) && Truthy(Get(job, "title")) ==>
      (r.Ok? <==> Get(job, "title").JStr?) && (r.Ok? ==> r.value == ParseComposite(Get(job, "title").s))
    ensures !Truthy(Get(job, "name")) && !Truthy(Get(job, "title")) ==> r == Ok(ParseComposite(""))
  {
    var source := CompositeSource(job);
    if source.JStr? then Ok(ParseComposite(source.s)) else Err(TrimError)
  }

  function PlanOf(job: JVal): (plan: Plan)
    ensures PlanKey(plan) == ToStr(Get(job, "id"))
    ensures plan.Bury? <==> VerdictOf(job) == Failed
    ensures plan.Purge? <==> VerdictOf(job) == Completed
    ensures plan.Halt? <==> VerdictOf(job) == Open && SystemError(job).Some?
    ensures plan.Halt? ==> plan.error == SystemError(job).value
    ensures plan.Sync? ==> plan.job == job && plan.parsed == CompositeOf(job)
  {
    var jobId := ToStr(Get(job, "id"));
    match VerdictOf(job)
    case Failed => Bury(jobId)
    case Completed => Purge(jobId)
    case Open =>
      match SystemError(job)
      case Some(e) => Halt(jobId, e)
      case None => Sync(jobId, job, CompositeOf(job))
  }

  /** Carries a plan out against `db`. */
  function Apply(db: Db, plan: Plan, defaultId: JVal, now: int): (r: Processed)
    ensures SameExcept(db.jobs, r.db.jobs, PlanKey(plan))
    ensures forall p :: p in r.db.plots && p.0 != PlanKey(plan) <==> p in db.plots && p.0 != PlanKey(plan)
    ensures r.error.Some? <==> plan.Halt? || (plan.Sync? && plan.parsed.Err?)
    ensures plan.Halt? ==> r == Processed(db, Some(plan.error))
    ensures plan.Bury? ==> r.db.jobs == SoftDelete(db.jobs, plan.jobId, now)
    ensures plan.Purge? ==> plan.jobId !in r.db.jobs
    ensures plan.Bury? || plan.Purge? ==> PlotsOf(r.db.plots, plan.jobId) == {} && r.db.owners == db.owners
    ensures plan.Sync? ==> plan.jobId in r.db.jobs && r.db.jobs[plan.jobId].deletedAt == None
    ensures plan.Sync? && plan.parsed.Ok? ==>
      PlotsOf(r.db.plots, plan.jobId) == set code | code in plan.parsed.value.plotCodes
    ensures plan.Sync? && plan.parsed.Ok? ==> r.db.owners == UpdateOwners(db.owners, plan.parsed.value, now)
    ensures plan.Sync? && plan.parsed.Err? ==> r.db.plots == db.plots && r.db.owners == db.owners
    ensures plan.Sync? ==>
      && r.db.jobs[plan.jobId].raw == plan.job && r.db.jobs[plan.jobId].syncedAt == now
      && r.db.jobs[plan.jobId].workflowId == Coalesce(Get(plan.job, "workflow_id"), defaultId)
      && r.db.jobs[plan.jobId].isFrozen == (plan.jobId in db.jobs && db.jobs[plan.jobId].isFrozen)
    ensures plan.Sync? && plan.parsed.Ok? ==>
      && r.db.jobs[plan.jobId].customerName == Coalesced(StoredName(db.jobs, plan.jobId), plan.parsed.value.customerName)
      && r.db.jobs[plan.jobId].customerPhone == Coalesced(StoredPhone(db.jobs, plan.jobId), plan.parsed.value.customerPhone)
    ensures plan.Sync? && plan.parsed.Err? ==>
      && r.db.jobs[plan.jobId].customerName == StoredName(db.jobs, plan.jobId)
      && r.db.jobs[plan.jobId].customerPhone == StoredPhone(db.jobs, plan.jobId)
  {
    match plan
    case Bury(jobId) =>
      Processed(Db(SoftDelete(db.jobs, jobId, now), DropPlots(db.plots, jobId), db.owners), None)
    case Purge(jobId) =>
      Processed(Db(db.jobs - {jobId}, DropPlots(db.plots, jobId), db.owners), None)
    case Halt(_, e) =>
      Processed(db, Some(e))
    case Sync(jobId, job, parsed) =>
      var jobs := UpsertJob(db.jobs, jobId, job, defaultId, now);
      match parsed
      case Err(e) => Processed(db.(jobs := jobs), Some(e))
      case Ok(c) => Processed(Refresh(db.(jobs := jobs), jobId, c, now), None)
  }

  /** `processJob11055(job)` against `db`, with `now` the value of `NOW()`
      and `defaultId` the configured `WORKFLOW_ID`. What one call leaves
      behind, branch by branch: a null job throws reading its id; a failed
      job is soft-deleted (never inserted) and loses its plots; a completed
      job loses its row and its plots; an open job with a null follower
      throws before anything is written; and any other open job is live and
      linked to exactly the plots its composite lists. Only the job's own
      row ever changes. */
  function ProcessJob(db: Db, job: JVal, defaultId: JVal, now: int): (r: Processed)
    ensures IsNullish(job) ==> r == Processed(db, Some(NullJobError))
    ensures !IsNullish(job) ==> var jobId := ToStr(Get(job, "id"));
      && SameExcept(db.jobs, r.db.jobs, jobId)
      && (forall p :: p in r.db.plots && p.0 != jobId <==> p in db.plots && p.0 != jobId)
      && (VerdictOf(job) != Open || !CompositeSource(job).JStr? ==> r.db.owners == db.owners)
      && (IsFailedStatus(StatusOf(job)) ==>
            && r.error == None
            && (jobId in r.db.jobs <==> jobId in db.jobs)
            && (jobId in r.db.jobs ==> r.db.jobs[jobId].deletedAt == Some(now) && !r.db.jobs[jobId].isFrozen)
            && PlotsOf(r.db.plots, jobId) == {})
      && (IsCompletedStatus(StatusOf(job)) ==>
            r.error == None && jobId !in r.db.jobs && PlotsOf(r.db.plots, jobId) == {})
      && (VerdictOf(job) == Open && SystemError(job).Some? ==> r == Processed(db, SystemError(job)))
      && (VerdictOf(job) == Open && SystemError(job).None? ==>
            && jobId in r.db.jobs && r.db.jobs[jobId].deletedAt == None && r.db.jobs[jobId].raw == job
            && r.db.jobs[jobId].workflowId == Coalesce(Get(job, "workflow_id"), defaultId)
            && r.db.jobs[jobId].isFrozen == (jobId in db.jobs && db.jobs[jobId].isFrozen)
            && (r.error.Some? <==> !CompositeSource(job).JStr?)
            && (!CompositeSource(job).JStr? ==>
                  r.db.jobs[jobId].customerName == StoredName(db.jobs, jobId)
                  && r.db.jobs[jobId].customerPhone == StoredPhone(db.jobs, jobId))
            && (CompositeSource(job).JStr? ==>
                  && PlotsOf(r.db.plots, jobId) == set code | code in ParseComposite(CompositeSource(job).s).plotCodes
                  && r.db.owners == UpdateOwners(db.owners, ParseComposite(CompositeSource(job).s), now)
                  && r.db.jobs[jobId].customerName
                       == Coalesced(StoredName(db.jobs, jobId), ParseComposite(CompositeSource(job).s).customerName)
                  && r.db.jobs[jobId].customerPhone
                       == Coalesced(StoredPhone(db.jobs, jobId), ParseComposite(CompositeSource(job).s).customerPhone)))
  {
    if IsNullish(job) then Processed(db, Some(NullJobError))
    else
      PlanEffects(db, job, defaultId, now);
      Apply(db, PlanOf(job), defaultId, now)
  }

  /** What applying a job's plan does to the row, its plot links and the
      owners whatever the verdict. */
  lemma PlanEffects(db: Db, job: JVal, defaultId: JVal, now: int)
    requires !IsNullish(job)
    ensures var r := Apply(db, PlanOf(job), defaultId, now); var jobId := ToStr(Get(job, "id"));
      && SameExcept(db.jobs, r.db.jobs, jobId)
      && (forall p :: p in r.db.plots && p.0 != jobId <==> p in db.plots && p.0 != jobId)
      && (VerdictOf(job) != Open || !CompositeSource(job).JStr? ==> r.db.owners == db.owners)
    ensures VerdictOf(job) != Open ==> ClosedEffects(db, job, now, Apply(db, PlanOf(job), defaultId, now))
    ensures VerdictOf(job) == Open && SystemError(job).Some? ==>
      Apply(db, PlanOf(job), defaultId, now) == Processed(db, SystemError(job))
    ensures VerdictOf(job) == Open && SystemError(job).None? ==>
      SyncEffects(db, job, defaultId, now, Apply(db, PlanOf(job), defaultId, now))
  {
    var plan := PlanOf(job);
    if plan.Sync? {
      assert plan.job == job && plan.parsed == CompositeOf(job);
      SyncPlanEffects(db, job, defaultId, now);
    } else if !plan.Halt? {
      ClosedPlanEffects(db, job, defaultId, now);
    }
  }

  /** A failed job's row is soft-deleted and unfrozen, a completed job's
      row is removed; both lose their plot links and report no error. */
  ghost predicate ClosedEffects(db: Db, job: JVal, now: int, r: Processed) {
    var jobId := ToStr(Get(job, "id"));
    && (IsFailedStatus(StatusOf(job)) ==>
          && r.error == None
          && (jobId in r.db.jobs <==> jobId in db.jobs)
          && (jobId in r.db.jobs ==> r.db.jobs[jobId].deletedAt == Some(now) && !r.db.jobs[jobId].isFrozen)
          && PlotsOf(r.db.plots, jobId) == {})
    && (IsCompletedStatus(StatusOf(job)) ==>
          r.error == None && jobId !in r.db.jobs && PlotsOf(r.db.plots, jobId) == {})
  }

  /** An open job without a follower error is upserted live as `r`; its
      customer columns, plot links and owners follow the composite when
      there is one, and the error is reported when there is not. */
  ghost predicate SyncEffects(db: Db, job: JVal, defaultId: JVal, now: int, r: Processed) {
    var jobId := ToStr(Get(job, "id"));
    && jobId in r.db.jobs && r.db.jobs[jobId].deletedAt == None && r.db.jobs[jobId].raw == job
    && r.db.jobs[jobId].workflowId == Coalesce(Get(job, "workflow_id"), defaultId)
    && r.db.jobs[jobId].isFrozen == (jobId in db.jobs && db.jobs[jobId].isFrozen)
    && (r.error.Some? <==> !CompositeSource(job).JStr?)
    && (!CompositeSource(job).JStr? ==>
          r.db.jobs[jobId].customerName == StoredName(db.jobs, jobId)
          && r.db.jobs[jobId].customerPhone == StoredPhone(db.jobs, jobId))
    && (CompositeSource(job).JStr? ==>
          && PlotsOf(r.db.plots, jobId) == set code | code in ParseComposite(CompositeSource(job).s).plotCodes
          && r.db.owners == UpdateOwners(db.owners, ParseComposite(CompositeSource(job).s), now)
          && r.db.jobs[jobId].customerName
               == Coalesced(StoredName(db.jobs, jobId), ParseComposite(CompositeSource(job).s).customerName)
          && r.db.jobs[jobId].customerPhone
               == Coalesced(StoredPhone(db.jobs, jobId), ParseComposite(CompositeSource(job).s).customerPhone))
  }

  lemma ClosedPlanEffects(db: Db, job: JVal, defaultId: JVal, now: int)
    requires !IsNullish(job) && VerdictOf(job) != Open
    ensures ClosedEffects(db, job, now, Apply(db, PlanOf(job), defaultId, now))
  {
    var jobId := ToStr(Get(job, "id"));
    if VerdictOf(job) == Failed {
      assert PlanOf(job) == Bury(jobId);
    } else {
      assert PlanOf(job) == Purge(jobId);
    }
  }

  lemma SyncPlanEffects(db: Db, job: JVal, defaultId: JVal, now: int)
    requires !IsNullish(job) && VerdictOf(job) == Open && SystemError(job).None?
    ensures SyncEffects(db, job, defaultId, now, Apply(db, PlanOf(job), defaultId, now))
  {
    var jobId := ToStr(Get(job, "id"));
    var plan := PlanOf(job);
    assert plan == Sync(jobId, job, CompositeOf(job));
    SyncComposite(db, jobId, job, defaultId, now);
  }

  /** The sync plan carried out with the composite read from the job itself. */
  lemma SyncComposite(db: Db, jobId: string, job: JVal, defaultId: JVal, now: int)
    requires jobId == ToStr(Get(job, "id"))
    ensures SyncEffects(db, job, defaultId, now, Apply(db, Sync(jobId, job, CompositeOf(job)), defaultId, now))
  {
  }

  /** `COALESCE` with the same value twice is `COALESCE` once. */
  lemma CoalescedTwice(column: Option<string>, incoming: Option<string>)
    ensures Coalesced(Coalesced(column, incoming), incoming) == Coalesced(column, incoming)
  {
  }

  /** The open branch on a database it has already brought up to date changes nothing. */
  lemma SyncTwice(db: Db, jobId: string, job: JVal, parsed: Result<Composite>, defaultId: JVal, now: int)
    ensures var once := Apply(db, Sync(jobId, job, parsed), defaultId, now);
      Apply(once.db, Sync(jobId, job, parsed), defaultId, now) == once
  {
    var jobs := UpsertJob(db.jobs, jobId, job, defaultId, now);
    var once := Apply(db, Sync(jobId, job, parsed), defaultId, now);
    var again := UpsertJob(once.db.jobs, jobId, job, defaultId, now);
    match parsed
    case Err(_) =>
      assert again == jobs;
    case Ok(c) =>
      var row := once.db.jobs[jobId];
      CoalescedTwice(jobs[jobId].customerName, c.customerName);
      CoalescedTwice(jobs[jobId].customerPhone, c.customerPhone);
      assert again == once.db.jobs;
      assert UpdateCustomer(again, jobId, c) == once.db.jobs;
      assert ReplacePlots(once.db.plots, jobId, c.plotCodes) == once.db.plots;
      var owners := UpdateOwners(once.db.owners, c, now);
      assert forall code :: code in owners ==> owners[code] == once.db.owners[code];
      assert owners == once.db.owners;
  }

  /** Any plan carried out twice with the same clock acts once. */
  lemma ApplyTwice(db: Db, plan: Plan, defaultId: JVal, now: int)
    ensures var once := Apply(db, plan, defaultId, now);
      Apply(once.db, plan, defaultId, now) == once
  {
    var once := Apply(db, plan, defaultId, now);
    match plan
    case Bury(jobId) =>
      assert SoftDelete(once.db.jobs, jobId, now) == once.db.jobs;
      assert DropPlots(once.db.plots, jobId) == once.db.plots;
    case Purge(jobId) =>
      assert once.db.jobs - {jobId} == once.db.jobs;
      assert DropPlots(once.db.plots, jobId) == once.db.plots;
    case Halt(_, _) =>
    case Sync(jobId, j, parsed) =>
      SyncTwice(db, jobId, j, parsed, defaultId, now);
  }

  /** Delivering the same job twice with the same clock (the sweep and a
      webhook, say) leaves the database as one delivery did. */
  lemma ProcessJobIdempotent(db: Db, job: JVal, defaultId: JVal, now: int)
    ensures var once := ProcessJob(db, job, defaultId, now);
      ProcessJob(once.db, job, defaultId, now) == once
  {
    if !IsNullish(job) {
      ApplyTwice(db, PlanOf(job), defaultId, now);
    }
  }
}

=== FILE: js_value.dfy ===
/** The JavaScript values the synchronisation code inspects, with the
    coercions it relies on: truthiness, `??`, `||`, `typeof … === "object"`,
    property reads, `String(v)` and `Number(v)`.

    Numbers are integers: `Number(v)` reads an optionally signed decimal
    integer after trimming, maps the empty string to 0, and yields NaN
    (here `None`) for everything else. */
module JsValue {
  import opened Wrappers
  import opened Strings

  datatype JVal =
    | JNull
    | JUndef
    | JBool(b: bool)
    | JNum(n: int)
    | JStr(s: string)
    | JArr(items: seq<JVal>)
    | JObj(fields: map<string, JVal>)

  /** `v === null || v === undefined`. */
  predicate IsNullish(v: JVal) {
    v.JNull? || v.JUndef?
  }

  /** `!!v`. */
  predicate Truthy(v: JVal) {
    match v
    case JNull => false
    case JUndef => false
    case JBool(b) => b
    case JNum(n) => n != 0
    case JStr(s) => s != ""
    case JArr(_) => true
    case JObj(_) => true
  }

  /** `typeof v === "object"` (true of null as well). */
  predicate TypeofObject(v: JVal) {
    v.JNull? || v.JArr? || v.JObj?
  }

  /** `v && typeof v === "object"`. */
  predicate IsObjectLike(v: JVal) {
    Truthy(v) && TypeofObject(v)
  }

  /** Only arrays and objects pass the `v && typeof v === "object"` guard. */
  lemma ObjectLikeIsArrayOrObject(v: JVal)
    ensures IsObjectLike(v) <==> v.JArr? || v.JObj?
  {
  }

  /** The property read `v.key` (and `v?.key` on a nullish `v`). None of the
      keys the code reads is an intrinsic property of arrays or strings, so
      only plain objects carry them. */
  function Get(v: JVal, key: string): (r: JVal)
    ensures !v.JObj? ==> r == JUndef
    ensures v.JObj? && key !in v.fields ==> r == JUndef
  {
    if v.JObj? && key in v.fields then v.fields[key] else JUndef
  }

  /** `a ?? b`. */
  function Coalesce(a: JVal, b: JVal): JVal {
    if IsNullish(a) then b else a
  }

  /** `a || b`. */
  function Or(a: JVal, b: JVal): JVal {
    if Truthy(a) then a else b
  }

  /** One step of an ordered shape probe: whether its guard holds, and the
      value it yields when it does. */
  datatype Probe = Probe(hit: bool, value: JVal)

  /** The value of the first probe whose guard holds. */
  function FirstHit(probes: seq<Probe>): (r: Option<JVal>)
    ensures r.None? <==> forall k :: 0 <= k < |probes| ==> !probes[k].hit
    ensures r.Some? ==> exists k :: (0 <= k < |probes| && probes[k].hit && r.value == probes[k].value &&
      forall j :: 0 <= j < k ==> !probes[j].hit)
  {
    if |probes| == 0 then None
    else if probes[0].hit then Some(probes[0].value)
    else
      var r := FirstHit(probes[1..]);
      assert r.Some? ==> exists k :: (0 <= k < |probes| && probes[k].hit && r.value == probes[k].value &&
        forall j :: 0 <= j < k ==> !probes[j].hit) by {
        if r.Some? {
          var k :| (0 <= k < |probes[1..]| && probes[1..][k].hit && r.value == probes[1..][k].value &&
            forall j :: 0 <= j < k ==> !probes[1..][j].hit);
          assert forall j :: 1 <= j < k + 1 ==> !probes[j].hit by {
            forall j | 1 <= j < k + 1 ensures !probes[j].hit {
              assert probes[j] == probes[1..][j - 1];
            }
          }
        }
      }
      r
  }

  function DigitChar(d: nat): (c: char)
    requires d < 10
    ensures IsDigit(c)
  {
    ('0' as int + d) as char
  }

  /** The decimal representation of a natural number, without leading zeros. */
  function NatToStr(n: nat): (r: string)
    ensures |r| > 0 && AllDigits(r)
  {
    if n < 10 then [DigitChar(n)] else NatToStr(n / 10) + [DigitChar(n % 10)]
  }

  /** `String(n)` for an integer. */
  function IntToStr(n: int): (r: string)
    ensures |r| > 0
  {
    if n < 0 then "-" + NatToStr(-n) else NatToStr(n)
  }

  /** The value of a string of decimal digits. */
  function DigitsValue(s: string): nat
    requires AllDigits(s)
  {
    if |s| == 0 then 0
    else 10 * DigitsValue(s[..|s| - 1]) + (s[|s| - 1] as int - '0' as int)
  }

  /** `Number(s)` on a string, restricted to integers. */
  function StrToNum(s: string): Option<int> {
    var t := Trim(s);
    if t == "" then Some(0)
    else if (t[0] == '-' || t[0] == '+') && |t| > 1 && AllDigits(t[1..]) then
      var m: int := DigitsValue(t[1..]);
      Some(if t[0] == '-' then -m else m)
    else if AllDigits(t) then Some(DigitsValue(t))
    else None
  }

  /** `String(v)`: arrays join their elements with ",", writing null and
      undefined elements as empty text. */
  function ToStr(v: JVal): string
    decreases v, 1, 0
  {
    match v
    case JNull => "null"
    case JUndef => "undefined"
    case JBool(b) => if b then "true" else "false"
    case JNum(n) => IntToStr(n)
    case JStr(s) => s
    case JArr(items) => JoinElements(v, 0)
    case JObj(_) => "[object Object]"
  }

  /** `items.slice(i).join(",")` for the array `v`. */
  function JoinElements(v: JVal, i: nat): string
    requires v.JArr? && i <= |v.items|
    decreases v, 0, |v.items| - i
  {
    if i == |v.items| then ""
    else
      var e := v.items[i];
      var text := if IsNullish(e) then "" else ToStr(e);
      if i + 1 == |v.items| then text else text + "," + JoinElements(v, i + 1)
  }

  /** `Number(v)`, with `None` standing for NaN. */
  function ToNumber(v: JVal): Option<int> {
    match v
    case JNull => Some(0)
    case JUndef => None
    case JBool(b) => Some(if b then 1 else 0)
    case JNum(n) => Some(n)
    case JStr(s) => StrToNum(s)
    case JArr(_) => StrToNum(ToStr(v))
    case JObj(_) => None
  }

  lemma {:induction false} DigitsValueOfNatToStr(n: nat)
    ensures DigitsValue(NatToStr(n)) == n
  {
    if n >= 10 {
      DigitsValueOfNatToStr(n / 10);
      var r := NatToStr(n);
      assert r[..|r| - 1] == NatToStr(n / 10);
    }
  }

  /** `Number(String(n)) === n` for every integer. */
  lemma IntToStrRoundTrip(n: int)
    ensures StrToNum(IntToStr(n)) == Some(n)
  {
    var r := IntToStr(n);
    if n < 0 {
      assert r[1..] == NatToStr(-n);
      DigitsValueOfNatToStr(-n);
      assert NoWhitespace(r) by {
        assert r[0] == '-';
      }
      StrToNumOfNegatedDigits(r);
    } else {
      DigitsValueOfNatToStr(n);
      StrToNumOfDigits(r);
    }
  }

  /** `String(n)` has no surrounding white space to trim. */
  lemma IntToStrIsTrimmed(n: int)
    ensures Trim(IntToStr(n)) == IntToStr(n)
  {
    var r := IntToStr(n);
    assert NoWhitespace(r);
    TrimNoWhitespace(r);
  }

  /** `Number` reads a non-empty run of digits as its decimal value. */
  lemma StrToNumOfDigits(t: string)
    requires |t| > 0 && AllDigits(t)
    ensures StrToNum(t) == Some(DigitsValue(t))
  {
    assert NoWhitespace(t);
    TrimNoWhitespace(t);
    assert t[0] != '-' && t[0] != '+';
  }

  /** `Number` reads a minus sign followed by digits as the negated value. */
  lemma StrToNumOfNegatedDigits(t: string)
    requires |t| > 1 && t[0] == '-' && AllDigits(t[1..]) && NoWhitespace(t)
    ensures StrToNum(t) == Some(-(DigitsValue(t[1..]) as int))
  {
    TrimNoWhitespace(t);
  }

  /** Text made only of white space, digits and signs: what `Number` can read. */
  predicate NumericText(s: string) {
    forall i :: 0 <= i < |s| ==> IsWhitespace(s[i]) || IsDigit(s[i]) || s[i] == '-' || s[i] == '+'
  }

  lemma StrToNumReadsNumericText(s: string)
    requires StrToNum(s).Some?
    ensures NumericText(s)
  {
    var a := TrimIsSlice(s);
    var t := Trim(s);
    forall i | 0 <= i < |s|
      ensures IsWhitespace(s[i]) || IsDigit(s[i]) || s[i] == '-' || s[i] == '+'
    {
      if a <= i < a + |t| {
        assert s[i] == t[i - a];
        if i - a > 0 && (t[0] == '-' || t[0] == '+') {
          assert t[i - a] == t[1..][i - a - 1];
        }
      }
    }
  }

  /** A value `Number` can read prints as numeric text, unless it is a
      boolean or null, which print as words. */
  lemma {:induction false} NumberedValueIsNumericText(v: JVal, k: int)
    requires ToNumber(v) == Some(k) && !v.JBool? && !v.JNull?
    ensures NumericText(ToStr(v))
  {
    match v
    case JNum(n) =>
      var r := IntToStr(n);
      assert n < 0 ==> r[1..] == NatToStr(-n);
    case JStr(s) =>
      StrToNumReadsNumericText(s);
    case JArr(_) =>
      StrToNumReadsNumericText(ToStr(v));
  }
}

=== FILE: plot_grammar.dfy ===
/** The plot-code grammar shared by both composite-field parsers.

    A cluster is `<block>-<row>-<indexes>` where
      block   = [A-Za-z]\d(?:\.\d+)?     e.g. F6.3
      row     = \d{2}                    e.g. 09
      indexes = [\d;]+                   e.g. 16;17;18
    and expands to one plot code `<block>-<row>-<idx>` per non-empty
    `;`-piece, the piece left-padded with '0' to at least two characters.
    A whole field is `+`-separated clusters; the codes of all clusters are
    de-duplicated keeping first occurrences. */
module PlotGrammar {
  import opened Wrappers
  import opened Strings
  import opened Seqs

  /** `[A-Za-z]\d(?:\.\d+)?`: one letter, one digit, at most one dotted group. */
  predicate IsBlock(b: string) {
    && |b| >= 2 && IsAsciiLetter(b[0]) && IsDigit(b[1])
    && (|b| == 2 || (|b| >= 4 && b[2] == '.' && AllDigits(b[3..])))
  }

  /** `\d{2}`. */
  predicate IsRow(r: string) {
    |r| == 2 && AllDigits(r)
  }

  /** `[\d;]+`. */
  predicate IsIndexList(n: string) {
    |n| > 0 && forall i :: 0 <= i < |n| ==> IsDigit(n[i]) || n[i] == ';'
  }

  datatype Cluster = Cluster(block: string, row: string, indexes: string)

  predicate WellFormed(c: Cluster) {
    IsBlock(c.block) && IsRow(c.row) && IsIndexList(c.indexes)
  }

  /** The text of a cluster (and of a single plot code). */
  function Hyphenate(c: Cluster): string {
    c.block + "-" + c.row + "-" + c.indexes
  }

  lemma BlockHasNoHyphen(b: string)
    requires IsBlock(b)
    ensures '-' !in b
  {
    if |b| > 2 {
      assert forall i :: 3 <= i < |b| ==> b[i] == b[3..][i - 3];
    }
  }

  /** Recogniser for `^([A-Za-z]\d(?:\.\d+)?)-(\d{2})-([\d;]+)$`. A block
      contains no hyphen, so it ends at the first one. */
  function MatchExtended(part: string): (r: Option<Cluster>)
    ensures r.Some? ==> WellFormed(r.value) && Hyphenate(r.value) == part
  {
    match IndexOf(part, '-')
    case None => None
    case Some(i) =>
      var block := part[..i];
      var rest := part[i + 1..];
      if IsBlock(block) && |rest| >= 3 && IsRow(rest[..2]) && rest[2] == '-' && IsIndexList(rest[3..]) then
        assert part == block + "-" + rest[..2] + "-" + rest[3..];
        Some(Cluster(block, rest[..2], rest[3..]))
      else None
  }

  /** Every text the grammar derives is recognised, with its own parts:
      together with the postcondition of `MatchExtended` this makes the
      recogniser exactly the grammar. */
  lemma MatchExtendedComplete(c: Cluster)
    requires WellFormed(c)
    ensures MatchExtended(Hyphenate(c)) == Some(c)
  {
    var s := Hyphenate(c);
    BlockHasNoHyphen(c.block);
    assert s[..|c.block|] == c.block;
    assert s[|c.block|] == '-';
    assert IndexOf(s, '-') == Some(|c.block|);
    var rest := s[|c.block| + 1..];
    assert rest == c.row + "-" + c.indexes;
    assert rest[..2] == c.row;
    assert rest[3..] == c.indexes;
  }

  /** Recogniser for the single-index pattern `^[A-Za-z]\d(?:\.\d+)?-\d{2}-\d{2}$`. */
  predicate MatchSingle(part: string) {
    match IndexOf(part, '-')
    case None => false
    case Some(i) =>
      var rest := part[i + 1..];
      IsBlock(part[..i]) && |rest| == 5 && IsRow(rest[..2]) && rest[2] == '-' && IsRow(rest[3..])
  }

  /** `g.padStart(2, "0")`. */
  function PadIndex(g: string): string {
    PadStart(g, 2, '0')
  }

  function PlotCode(block: string, row: string, idx: string): string {
    Hyphenate(Cluster(block, row, idx))
  }

  /** A normalised plot code: a cluster whose index part is a single run of
      at least two digits. */
  predicate IsPlotCode(s: string) {
    match MatchExtended(s)
    case Some(c) => AllDigits(c.indexes) && |c.indexes| >= 2
    case None => false
  }

  /** A non-empty first piece contributes its code first. */
  lemma IndexCodesCons(block: string, row: string, p: string, ps: seq<string>)
    requires p != ""
    ensures IndexCodes(block, row, [p] + ps) == [PlotCode(block, row, PadIndex(p))] + IndexCodes(block, row, ps)
  {
    assert ([p] + ps)[1..] == ps;
  }

  /** The codes of one cluster, one per non-empty `;`-piece. */
  function IndexCodes(block: string, row: string, pieces: seq<string>): (r: seq<string>)
    ensures |r| <= |pieces|
  {
    if |pieces| == 0 then []
    else
      var rest := IndexCodes(block, row, pieces[1..]);
      if pieces[0] == "" then rest
      else [PlotCode(block, row, PadIndex(pieces[0]))] + rest
  }

  /** Two non-empty pieces give their two codes, in order. */
  lemma IndexCodesOfTwo(block: string, row: string, p: string, q: string)
    requires p != "" && q != ""
    ensures IndexCodes(block, row, [p, q]) == [PlotCode(block, row, PadIndex(p)), PlotCode(block, row, PadIndex(q))]
  {
    ConsTwo(p, q);
    IndexCodesCons(block, row, q, []);
    IndexCodesCons(block, row, p, [q]);
    ConsTwo(PlotCode(block, row, PadIndex(p)), PlotCode(block, row, PadIndex(q)));
  }

  /** Three non-empty pieces give their three codes, in order. */
  lemma IndexCodesOfThree(block: string, row: string, p: string, q: string, t: string)
    requires p != "" && q != "" && t != ""
    ensures IndexCodes(block, row, [p, q, t])
         == [PlotCode(block, row, PadIndex(p)), PlotCode(block, row, PadIndex(q)), PlotCode(block, row, PadIndex(t))]
  {
    IndexCodesOfTwo(block, row, q, t);
    ConsThree(p, q, t);
    IndexCodesCons(block, row, p, [q, t]);
    ConsThree(PlotCode(block, row, PadIndex(p)), PlotCode(block, row, PadIndex(q)), PlotCode(block, row, PadIndex(t)));
  }

  /** `c` is the code of one of the non-empty `pieces`. */
  predicate FromSomePiece(block: string, row: string, pieces: seq<string>, c: string) {
    exists p :: p in pieces && p != "" && c == PlotCode(block, row, PadIndex(p))
  }

  /** The codes of a cluster are exactly the codes of its non-empty pieces. */
  lemma IndexCodesMembers(block: string, row: string, pieces: seq<string>)
    ensures forall k :: 0 <= k < |IndexCodes(block, row, pieces)| ==> FromSomePiece(block, row, pieces, IndexCodes(block, row, pieces)[k])
    ensures forall p :: p in pieces && p != "" ==> PlotCode(block, row, PadIndex(p)) in IndexCodes(block, row, pieces)
  {
    IndexCodesSound(block, row, pieces);
    IndexCodesComplete(block, row, pieces);
  }

  /** Every code of a cluster comes from one of its non-empty pieces. */
  lemma {:induction false} IndexCodesSound(block: string, row: string, pieces: seq<string>)
    ensures forall k :: 0 <= k < |IndexCodes(block, row, pieces)| ==> FromSomePiece(block, row, pieces, IndexCodes(block, row, pieces)[k])
  {
    if |pieces| == 0 {
      assert IndexCodes(block, row, pieces) == [];
    } else {
      IndexCodesSound(block, row, pieces[1..]);
      IndexCodesSoundStep(block, row, pieces);
    }
  }

  /** A code from the later pieces also comes from the whole list. */
  lemma FromLaterPiece(block: string, row: string, pieces: seq<string>, c: string)
    requires |pieces| > 0 && FromSomePiece(block, row, pieces[1..], c)
    ensures FromSomePiece(block, row, pieces, c)
  {
    var p :| p in pieces[1..] && p != "" && c == PlotCode(block, row, PadIndex(p));
    assert p in pieces;
  }

  /** One step of `IndexCodesSound`: the first piece adds at most its own code. */
  lemma IndexCodesSoundStep(block: string, row: string, pieces: seq<string>)
    requires |pieces| > 0
    requires forall k :: 0 <= k < |IndexCodes(block, row, pieces[1..])| ==>
      FromSomePiece(block, row, pieces[1..], IndexCodes(block, row, pieces[1..])[k])
    ensures forall k :: 0 <= k < |IndexCodes(block, row, pieces)| ==> FromSomePiece(block, row, pieces, IndexCodes(block, row, pieces)[k])
  {
    var r := IndexCodes(block, row, pieces);
    var rest := IndexCodes(block, row, pieces[1..]);
    if pieces[0] == "" {
      assert r == rest;
      forall k | 0 <= k < |r|
        ensures FromSomePiece(block, row, pieces, r[k])
      {
        FromLaterPiece(block, row, pieces, rest[k]);
      }
    } else {
      var head := [PlotCode(block, row, PadIndex(pieces[0]))];
      assert r == head + rest;
      forall k | 0 <= k < |r|
        ensures FromSomePiece(block, row, pieces, r[k])
      {
        if k == 0 {
          assert pieces[0] in pieces;
        } else {
          IndexInTail(head, rest, k);
          FromLaterPiece(block, row, pieces, rest[k - 1]);
        }
      }
    }
  }

  /** Every non-empty piece of a cluster gives its code. */
  lemma {:induction false} IndexCodesComplete(block: string, row: string, pieces: seq<string>)
    ensures forall p :: p in pieces && p != "" ==> PlotCode(block, row, PadIndex(p)) in IndexCodes(block, row, pieces)
  {
    if |pieces| > 0 {
      var r := IndexCodes(block, row, pieces);
      var rest := IndexCodes(block, row, pieces[1..]);
      IndexCodesComplete(block, row, pieces[1..]);
      assert forall c :: c in rest ==> c in r;
      forall p | p in pieces && p != ""
        ensures PlotCode(block, row, PadIndex(p)) in r
      {
        if p == pieces[0] {
          assert r[0] == PlotCode(block, row, PadIndex(p));
        } else {
          assert p in pieces[1..];
        }
      }
    }
  }

  /** The codes contributed by one trimmed, non-empty `+`-cluster: the
      extended pattern first, then the single pattern, otherwise nothing. */
  function ClusterCodes(part: string): seq<string> {
    match MatchExtended(part)
    case Some(c) => IndexCodes(c.block, c.row, Split(c.indexes, ';'))
    case None => if MatchSingle(part) then [part] else []
  }

  /** The codes of all `+`-clusters, before de-duplication. */
  function CodesOfParts(parts: seq<string>): seq<string> {
    if |parts| == 0 then []
    else
      var part := Trim(parts[0]);
      (if part == "" then [] else ClusterCodes(part)) + CodesOfParts(parts[1..])
  }

  /** The de-duplicated codes of a whitespace-free field. */
  function PlotCodesOf(clean: string): (r: seq<string>)
    ensures NoDup(r)
    ensures forall k :: 0 <= k < |r| ==> IsPlotCode(r[k])
  {
    var all := CodesOfParts(Split(clean, '+'));
    CodesOfPartsArePlotCodes(Split(clean, '+'));
    var r := Dedup(all);
    assert forall k :: 0 <= k < |r| ==> r[k] in all;
    r
  }

  // ---------------------------------------------------------------------
  // Properties of the grammar

  /** Each piece of a well-formed index list is a (possibly empty) digit run. */
  lemma IndexPiecesAreDigits(n: string)
    requires IsIndexList(n)
    ensures forall k :: 0 <= k < |Split(n, ';')| ==> AllDigits(Split(n, ';')[k])
  {
    SplitPiecesDigits(n);
  }

  lemma {:induction false} SplitPiecesDigits(n: string)
    requires forall i :: 0 <= i < |n| ==> IsDigit(n[i]) || n[i] == ';'
    ensures forall k :: 0 <= k < |Split(n, ';')| ==> AllDigits(Split(n, ';')[k])
  {
    if |n| > 0 {
      SplitPiecesDigits(n[1..]);
    }
  }

  /** A padded digit piece is a run of at least two digits. */
  lemma PadIndexIsIndex(p: string)
    requires AllDigits(p)
    ensures AllDigits(PadIndex(p)) && |PadIndex(p)| >= 2
  {
    var r := PadIndex(p);
    forall i | 0 <= i < |r|
      ensures IsDigit(r[i])
    {
      if i >= |r| - |p| {
        assert r[i] == r[|r| - |p|..][i - (|r| - |p|)];
      }
    }
  }

  /** Expansion of a well-formed cluster: every code carries the cluster's
      block and row text verbatim (no case folding) and a padded non-empty
      piece of its index list, and every non-empty piece contributes its code. */
  lemma ExtendedClusterExpansion(c: Cluster)
    requires WellFormed(c)
    ensures forall k :: 0 <= k < |ClusterCodes(Hyphenate(c))| ==>
      exists p :: p in Split(c.indexes, ';') && p != "" &&
        ClusterCodes(Hyphenate(c))[k] == PlotCode(c.block, c.row, PadIndex(p))
    ensures forall p :: p in Split(c.indexes, ';') && p != "" ==>
      PlotCode(c.block, c.row, PadIndex(p)) in ClusterCodes(Hyphenate(c))
  {
    MatchExtendedComplete(c);
    assert ClusterCodes(Hyphenate(c)) == IndexCodes(c.block, c.row, Split(c.indexes, ';'));
    IndexCodesMembers(c.block, c.row, Split(c.indexes, ';'));
  }

  /** A well-formed cluster yields the codes of its `;`-pieces. */
  lemma ClusterCodesOfWellFormed(c: Cluster)
    requires WellFormed(c)
    ensures ClusterCodes(Hyphenate(c)) == IndexCodes(c.block, c.row, Split(c.indexes, ';'))
  {
    MatchExtendedComplete(c);
  }

  /** Every code a cluster yields is a normalised plot code. */
  lemma ClusterCodesArePlotCodes(part: string)
    ensures forall k :: 0 <= k < |ClusterCodes(part)| ==> IsPlotCode(ClusterCodes(part)[k])
  {
    var r := ClusterCodes(part);
    match MatchExtended(part)
    case Some(c) =>
      IndexPiecesAreDigits(c.indexes);
      IndexCodesMembers(c.block, c.row, Split(c.indexes, ';'));
      forall k | 0 <= k < |r|
        ensures IsPlotCode(r[k])
      {
        var p :| p in Split(c.indexes, ';') && p != "" && r[k] == PlotCode(c.block, c.row, PadIndex(p));
        PadIndexIsIndex(p);
        MatchExtendedComplete(Cluster(c.block, c.row, PadIndex(p)));
      }
    case None =>
  }

  /** The single-index branch never adds anything: whatever it accepts the
      extended pattern has already accepted, yielding the same one code. */
  lemma SingleBranchSubsumed(part: string)
    requires MatchSingle(part)
    ensures MatchExtended(part).Some?
    ensures ClusterCodes(part) == [part]
  {
    var c := SingleCluster(part);
    MatchExtendedComplete(c);
    SplitNoSeparator(c.indexes, ';');
  }

  /** The parts of a text of the single-index pattern: a well-formed
      cluster with one two-digit index. */
  lemma SingleCluster(part: string) returns (c: Cluster)
    requires MatchSingle(part)
    ensures WellFormed(c) && part == Hyphenate(c)
    ensures ';' !in c.indexes && PadIndex(c.indexes) == c.indexes
  {
    var i := IndexOf(part, '-').value;
    c := Cluster(part[..i], part[i + 1..][..2], part[i + 1..][3..]);
    SingleClusterAt(part, i);
  }

  /** The pieces around the hyphen at `i` and the one three places after it
      form a cluster with one padded index. */
  lemma SingleClusterAt(part: string, i: int)
    requires 0 <= i < |part| && part[i] == '-' && IsBlock(part[..i])
    requires |part[i + 1..]| == 5 && IsRow(part[i + 1..][..2]) && part[i + 1..][2] == '-' && IsRow(part[i + 1..][3..])
    ensures var c := Cluster(part[..i], part[i + 1..][..2], part[i + 1..][3..]);
      WellFormed(c) && part == Hyphenate(c) && ';' !in c.indexes && PadIndex(c.indexes) == c.indexes
  {
    var rest := part[i + 1..];
    assert rest == rest[..2] + "-" + rest[3..];
    assert part == part[..i] + "-" + rest;
    RowIsIndex(rest[3..]);
  }

  /** A two-digit row is also a single, already padded index. */
  lemma RowIsIndex(r: string)
    requires IsRow(r)
    ensures IsIndexList(r) && ';' !in r && PadIndex(r) == r
  {
    assert r[0] in r;
  }

  /** A normalised plot code re-parses to exactly itself. */
  lemma PlotCodeReparses(s: string)
    requires IsPlotCode(s)
    ensures ClusterCodes(s) == [s]
  {
    var c := MatchExtended(s).value;
    assert ';' !in c.indexes;
    SplitNoSeparator(c.indexes, ';');
    assert PadIndex(c.indexes) == c.indexes;
  }

  /** Letters, digits and the separators '.', '-', ';'. */
  predicate CodeChars(s: string) {
    forall i :: 0 <= i < |s| ==> IsAsciiLetter(s[i]) || IsDigit(s[i]) || s[i] in ".-;"
  }

  lemma CodeCharsAppend(a: string, b: string)
    requires CodeChars(a) && CodeChars(b)
    ensures CodeChars(a + b)
  {
    forall i | 0 <= i < |a + b|
      ensures IsAsciiLetter((a + b)[i]) || IsDigit((a + b)[i]) || (a + b)[i] in ".-;"
    {
      if i >= |a| {
        assert (a + b)[i] == b[i - |a|];
      }
    }
  }

  /** The text of a well-formed cluster holds neither white space nor '+'. */
  lemma ClusterCharacters(c: Cluster)
    requires WellFormed(c)
    ensures NoWhitespace(Hyphenate(c)) && '+' !in Hyphenate(c)
  {
    if |c.block| > 2 {
      assert forall i :: 3 <= i < |c.block| ==> c.block[i] == c.block[3..][i - 3];
    }
    assert CodeChars(c.block);
    CodeCharsAppend(c.block, "-");
    CodeCharsAppend(c.block + "-", c.row);
    CodeCharsAppend(c.block + "-" + c.row, "-");
    CodeCharsAppend(c.block + "-" + c.row + "-", c.indexes);
    assert CodeChars(Hyphenate(c));
  }

  /** Plot codes hold neither white space nor '+'. */
  lemma PlotCodeCharacters(s: string)
    requires IsPlotCode(s)
    ensures NoWhitespace(s) && '+' !in s && |s| > 0
  {
    ClusterCharacters(MatchExtended(s).value);
  }

  /** A white-space-free first part contributes its cluster codes first. */
  lemma CodesOfPartsCons(p: string, ps: seq<string>)
    requires NoWhitespace(p) && p != ""
    ensures CodesOfParts([p] + ps) == ClusterCodes(p) + CodesOfParts(ps)
  {
    TrimNoWhitespace(p);
    assert ([p] + ps)[1..] == ps;
  }

  /** A field of one white-space-free cluster yields that cluster's codes. */
  lemma CodesOfOnePart(q: string)
    requires NoWhitespace(q) && q != ""
    ensures CodesOfParts([q]) == ClusterCodes(q)
  {
    TrimNoWhitespace(q);
    assert [q][1..] == [];
  }

  /** All codes of a field are normalised plot codes. */
  lemma {:induction false} CodesOfPartsArePlotCodes(parts: seq<string>)
    ensures forall k :: 0 <= k < |CodesOfParts(parts)| ==> IsPlotCode(CodesOfParts(parts)[k])
  {
    if |parts| > 0 {
      CodesOfPartsArePlotCodes(parts[1..]);
      ClusterCodesArePlotCodes(Trim(parts[0]));
    }
  }

  /** A list of plot codes, taken as `+`-separated clusters, yields itself. */
  lemma {:induction false} CodesOfPlotCodes(xs: seq<string>)
    requires forall k :: 0 <= k < |xs| ==> IsPlotCode(xs[k])
    ensures CodesOfParts(xs) == xs
  {
    if |xs| > 0 {
      CodesOfPlotCodes(xs[1..]);
      PlotCodeCharacters(xs[0]);
      TrimNoWhitespace(xs[0]);
      PlotCodeReparses(xs[0]);
      assert CodesOfParts(xs) == ClusterCodes(xs[0]) + CodesOfParts(xs[1..]);
      HeadTail(xs);
    }
  }
}

=== FILE: seqs.dfy ===
/** Generic collection helpers: flattening, the first-occurrence
    de-duplication that `Array.from(new Set(xs))` performs, and the
    "nothing else changes" relation between two keyed tables. */
module Seqs {

  /** Two maps agree everywhere except possibly at `key`. */
  predicate SameExcept<K(==), V(==)>(a: map<K, V>, b: map<K, V>, key: K) {
    && (forall k :: k in a && k != key ==> k in b && a[k] == b[k])
    && (forall k :: k in b && k != key ==> k in a)
  }

  predicate NoDup<T(==)>(xs: seq<T>) {
    forall i, j :: 0 <= i < j < |xs| ==> xs[i] != xs[j]
  }

  /** The position at which `x` first occurs in `xs`. */
  function FirstIndex<T(==)>(xs: seq<T>, x: T): (i: nat)
    requires x in xs
    ensures i < |xs| && xs[i] == x && x !in xs[..i]
  {
    if xs[0] == x then 0
    else
      var i := FirstIndex(xs[1..], x);
      assert xs[..i + 1] == [xs[0]] + xs[1..][..i];
      i + 1
  }

  lemma FirstIndexOfPrefix<T>(xs: seq<T>, n: nat, x: T)
    requires n <= |xs| && x in xs[..n]
    ensures x in xs && FirstIndex(xs, x) == FirstIndex(xs[..n], x)
  {
    var i := FirstIndex(xs[..n], x);
    assert xs[..n][..i] == xs[..i];
    assert xs[i] == x;
  }

  /** `Array.from(new Set(xs))`: each element once, drawn from `xs`, and
      every element of `xs` represented. */
  function Dedup<T(==)>(xs: seq<T>): (r: seq<T>)
    ensures NoDup(r)
    ensures forall i :: 0 <= i < |r| ==> r[i] in xs
    ensures forall i :: 0 <= i < |xs| ==> xs[i] in r
    ensures |r| <= |xs|
  {
    if |xs| == 0 then []
    else
      var n := |xs| - 1;
      var r := Dedup(xs[..n]);
      assert xs == xs[..n] + [xs[n]];
      if xs[n] in r then r else r + [xs[n]]
  }

  /** The de-duplicated sequence keeps the order of first occurrences. */
  lemma {:induction false} DedupKeepsFirstOccurrenceOrder<T>(xs: seq<T>)
    ensures forall i, j :: 0 <= i < j < |Dedup(xs)| ==>
      FirstIndex(xs, Dedup(xs)[i]) < FirstIndex(xs, Dedup(xs)[j])
  {
    if |xs| > 0 {
      var n := |xs| - 1;
      var init := xs[..n];
      var r := Dedup(init);
      DedupKeepsFirstOccurrenceOrder(init);
      assert xs == init + [xs[n]];
      forall i | 0 <= i < |r|
        ensures FirstIndex(xs, r[i]) == FirstIndex(init, r[i]) < n
      {
        FirstIndexOfPrefix(xs, n, r[i]);
      }
      if xs[n] !in r {
        assert xs[n] !in init;
        assert FirstIndex(xs, xs[n]) == n;
        assert Dedup(xs) == r + [xs[n]];
      }
    }
  }

  /** Indexing past the head of a concatenation lands in the tail. */
  lemma IndexInTail<T>(head: seq<T>, tail: seq<T>, k: nat)
    requires |head| <= k < |head| + |tail|
    ensures (head + tail)[k] == tail[k - |head|]
  {
  }

  /** A one-element sequence is itself followed by nothing, and a
      two-element sequence is its head followed by its last element. */
  lemma ConsTwo<T>(a: T, b: T)
    ensures [b] + [] == [b]
    ensures [a] + [b] == [a, b]
  {
  }

  /** A non-empty sequence is its head followed by its tail. */
  lemma HeadTail<T>(xs: seq<T>)
    requires |xs| > 0
    ensures [xs[0]] + xs[1..] == xs
  {
  }

  /** A three-element sequence is its head followed by the other two. */
  lemma ConsThree<T>(a: T, b: T, c: T)
    ensures [a] + [b, c] == [a, b, c]
  {
  }

  /** A sequence without duplicates is its own de-duplication. */
  lemma {:induction false} DedupOfNoDup<T>(xs: seq<T>)
    requires NoDup(xs)
    ensures Dedup(xs) == xs
  {
    if |xs| > 0 {
      var n := |xs| - 1;
      DedupOfNoDup(xs[..n]);
      assert xs[n] !in xs[..n];
      assert xs[..n] + [xs[n]] == xs;
    }
  }

  /** The concatenation of a sequence of sequences. */
  function Flatten<T>(xss: seq<seq<T>>): seq<T>
  {
    if |xss| == 0 then [] else xss[0] + Flatten(xss[1..])
  }

  lemma {:induction false} FlattenSingletons<T>(xs: seq<T>, xss: seq<seq<T>>)
    requires |xss| == |xs|
    requires forall k :: 0 <= k < |xs| ==> xss[k] == [xs[k]]
    ensures Flatten(xss) == xs
  {
    if |xs| > 0 {
      FlattenSingletons(xs[1..], xss[1..]);
    }
  }

  lemma {:induction false} FlattenMember<T>(xss: seq<seq<T>>, x: T)
    requires x in Flatten(xss)
    ensures exists k :: 0 <= k < |xss| && x in xss[k]
  {
    if x !in xss[0] {
      FlattenMember(xss[1..], x);
      var k :| 0 <= k < |xss[1..]| && x in xss[1..][k];
      assert x in xss[k + 1];
    }
  }
}

=== FILE: strings.dfy ===
/** Character classes and string primitives with the semantics of the
    JavaScript built-ins the synchronisation code uses (`trim`, `split`,
    `join`, `includes`, `indexOf`, `lastIndexOf`, `padStart`, `\s`). */
module Strings {
  import opened Wrappers

  /** The characters matched by `\s` and removed by `String.prototype.trim`. */
  predicate IsWhitespace(c: char) {
    || c == ' ' || c == '\t' || c == '\n' || c == '\r'
    || c == '\U{000B}' || c == '\U{000C}' || c == '\U{00A0}' || c == '\U{1680}'
    || ('\U{2000}' <= c <= '\U{200A}')
    || c == '\U{2028}' || c == '\U{2029}' || c == '\U{202F}' || c == '\U{205F}'
    || c == '\U{3000}' || c == '\U{FEFF}'
  }

  /** `\d`: ASCII digits only. */
  predicate IsDigit(c: char) {
    '0' <= c <= '9'
  }

  /** `[A-Za-z]`. */
  predicate IsAsciiLetter(c: char) {
    ('A' <= c <= 'Z') || ('a' <= c <= 'z')
  }

  /** `[A-Za-zÀ-ỹ]` under the `u` flag: ASCII letters and the code points U+00C0..U+1EF9. */
  predicate IsNameLetter(c: char) {
    IsAsciiLetter(c) || ('\U{00C0}' <= c <= '\U{1EF9}')
  }

  predicate AllDigits(s: string) {
    forall i :: 0 <= i < |s| ==> IsDigit(s[i])
  }

  predicate NoWhitespace(s: string) {
    forall i :: 0 <= i < |s| ==> !IsWhitespace(s[i])
  }

  predicate HasNameLetter(s: string) {
    exists i :: 0 <= i < |s| && IsNameLetter(s[i])
  }

  /** Neither end of `s` is white space. */
  predicate IsTrimmed(s: string) {
    |s| > 0 ==> !IsWhitespace(s[0]) && !IsWhitespace(s[|s| - 1])
  }

  function TrimStart(s: string): (r: string)
    ensures |r| <= |s| && r == s[|s| - |r|..]
    ensures forall i :: 0 <= i < |s| - |r| ==> IsWhitespace(s[i])
    ensures |r| > 0 ==> !IsWhitespace(r[0])
  {
    if |s| > 0 && IsWhitespace(s[0]) then TrimStart(s[1..]) else s
  }

  function TrimEnd(s: string): (r: string)
    ensures |r| <= |s| && r == s[..|r|]
    ensures forall i :: |r| <= i < |s| ==> IsWhitespace(s[i])
    ensures |r| > 0 ==> !IsWhitespace(r[|r| - 1])
  {
    if |s| > 0 && IsWhitespace(s[|s| - 1]) then TrimEnd(s[..|s| - 1]) else s
  }

  /** `String.prototype.trim`. */
  function Trim(s: string): (r: string)
    ensures IsTrimmed(r)
    ensures |r| <= |s|
  {
    TrimStart(TrimEnd(s))
  }

  /** Trimming removes only white space: what is left is a slice of `s`
      and everything cut off either end is white space. */
  lemma TrimIsSlice(s: string) returns (a: nat)
    ensures a + |Trim(s)| <= |s| && Trim(s) == s[a..a + |Trim(s)|]
    ensures SpaceAround(s, a, |Trim(s)|)
  {
    a := TrimPartsSlice(s, TrimEnd(s), Trim(s));
  }

  /** The two halves of `Trim` put together: a prefix `e` of `s` followed by
      white space, and a suffix `t` of `e` preceded by white space. */
  lemma TrimPartsSlice(s: string, e: string, t: string) returns (a: nat)
    requires |e| <= |s| && e == s[..|e|]
    requires forall i :: |e| <= i < |s| ==> IsWhitespace(s[i])
    requires |t| <= |e| && t == e[|e| - |t|..]
    requires forall i :: 0 <= i < |e| - |t| ==> IsWhitespace(e[i])
    ensures a + |t| <= |s| && t == s[a..a + |t|]
    ensures SpaceAround(s, a, |t|)
  {
    a := |e| - |t|;
    assert t == s[a..a + |t|] by {
      assert e == s[0..|e|];
      SliceOfSlice(s, 0, |e|, a, |e|);
    }
    forall i | 0 <= i < a
      ensures IsWhitespace(s[i])
    {
      assert s[i] == e[i];
    }
  }

  /** Trimming adds no character. */
  lemma TrimKeepsAbsentChar(s: string, c: char)
    requires c !in s
    ensures c !in Trim(s)
  {
    var a := TrimIsSlice(s);
    var t := Trim(s);
    forall k | 0 <= k < |t| ensures t[k] != c {
      assert t[k] == s[a + k];
    }
  }

  /** Trimming a trimmed text with spaces put in front gives the text back. */
  lemma TrimLeadingSpace(v: string)
    requires IsTrimmed(v) && v != ""
    ensures Trim(" " + v) == v
  {
    var s := " " + v;
    assert s[|s| - 1] == v[|v| - 1];
    assert TrimEnd(s) == s;
    assert s[1..] == v;
  }

  lemma TrimOfTrimmed(s: string)
    requires IsTrimmed(s)
    ensures Trim(s) == s
  {
  }

  lemma TrimNoWhitespace(s: string)
    requires NoWhitespace(s)
    ensures Trim(s) == s
  {
  }

  /** `s.replace(/\s+/g, "")`. */
  function RemoveWhitespace(s: string): (r: string)
    ensures NoWhitespace(r)
    ensures |r| <= |s|
    ensures forall c :: c in r <==> c in s && !IsWhitespace(c)
  {
    if |s| == 0 then ""
    else if IsWhitespace(s[0]) then RemoveWhitespace(s[1..])
    else [s[0]] + RemoveWhitespace(s[1..])
  }

  lemma {:induction false} RemoveWhitespaceAppend(a: string, b: string)
    ensures RemoveWhitespace(a + b) == RemoveWhitespace(a) + RemoveWhitespace(b)
  {
    if |a| == 0 {
      assert a + b == b;
    } else {
      assert (a + b)[1..] == a[1..] + b;
      RemoveWhitespaceAppend(a[1..], b);
    }
  }

  lemma {:induction false} RemoveWhitespaceOfClean(s: string)
    requires NoWhitespace(s)
    ensures RemoveWhitespace(s) == s
  {
    if |s| > 0 {
      RemoveWhitespaceOfClean(s[1..]);
    }
  }

  lemma {:induction false} RemoveWhitespaceOfAllWhitespace(s: string)
    requires forall i :: 0 <= i < |s| ==> IsWhitespace(s[i])
    ensures RemoveWhitespace(s) == ""
  {
    if |s| > 0 {
      RemoveWhitespaceOfAllWhitespace(s[1..]);
    }
  }

  lemma {:induction false} RemoveWhitespaceTrimStart(s: string)
    ensures RemoveWhitespace(TrimStart(s)) == RemoveWhitespace(s)
  {
    if |s| > 0 && IsWhitespace(s[0]) {
      RemoveWhitespaceTrimStart(s[1..]);
    }
  }

  lemma {:induction false} RemoveWhitespaceTrimEnd(s: string)
    ensures RemoveWhitespace(TrimEnd(s)) == RemoveWhitespace(s)
  {
    if |s| > 0 && IsWhitespace(s[|s| - 1]) {
      var n := |s| - 1;
      RemoveWhitespaceTrimEnd(s[..n]);
      assert s == s[..n] + [s[n]];
      RemoveWhitespaceAppend(s[..n], [s[n]]);
    }
  }

  /** Removing all white space makes a preceding `trim` irrelevant. */
  lemma RemoveWhitespaceIgnoresTrim(s: string)
    ensures RemoveWhitespace(Trim(s)) == RemoveWhitespace(s)
  {
    RemoveWhitespaceTrimStart(TrimEnd(s));
    RemoveWhitespaceTrimEnd(s);
  }

  lemma {:induction false} RemoveWhitespaceIdempotent(s: string)
    ensures RemoveWhitespace(RemoveWhitespace(s)) == RemoveWhitespace(s)
  {
    RemoveWhitespaceOfClean(RemoveWhitespace(s));
  }

  predicate IsPrefix(a: string, b: string) {
    |a| <= |b| && b[..|a|] == a
  }

  /** A prefix of the first `n` characters is a prefix of the whole text. */
  lemma PrefixOfTake(a: string, b: string, n: nat)
    requires n <= |b| && IsPrefix(a, b[..n])
    ensures IsPrefix(a, b)
  {
    assert b[..n][..|a|] == b[..|a|];
  }

  /** A prefix of a prefix is a prefix. */
  lemma PrefixTrans(a: string, b: string, c: string)
    requires IsPrefix(a, b) && IsPrefix(b, c)
    ensures IsPrefix(a, c)
  {
    PrefixOfTake(a, c, |b|);
  }

  /** A text that does not start with white space loses only a suffix when trimmed. */
  lemma TrimIsPrefix(s: string)
    requires |s| == 0 || !IsWhitespace(s[0])
    ensures IsPrefix(Trim(s), s)
  {
    var e := TrimEnd(s);
    assert |e| > 0 ==> e[0] == s[0];
  }

  /** Joining white-space-free pieces with a non-white-space separator
      gives white-space-free text. */
  lemma {:induction false} JoinNoWhitespace(xs: seq<string>, sep: char)
    requires !IsWhitespace(sep)
    requires forall k :: 0 <= k < |xs| ==> NoWhitespace(xs[k])
    ensures NoWhitespace(Join(xs, sep))
  {
    if |xs| > 1 {
      JoinNoWhitespace(xs[1..], sep);
      var t := Join(xs[1..], sep);
      assert forall i :: |xs[0]| + 1 <= i < |xs[0]| + 1 + |t| ==> (xs[0] + [sep] + t)[i] == t[i - |xs[0]| - 1];
    }
  }

  /** `s.split(sep)` for a one-character separator. */
  function Split(s: string, sep: char): (r: seq<string>)
    ensures |r| >= 1
    ensures forall k :: 0 <= k < |r| ==> sep !in r[k]
  {
    if |s| == 0 then [""]
    else
      var rest := Split(s[1..], sep);
      if s[0] == sep then [""] + rest
      else [[s[0]] + rest[0]] + rest[1..]
  }

  /** `xs.join(sep)`. */
  function Join(xs: seq<string>, sep: char): string
  {
    if |xs| == 0 then ""
    else if |xs| == 1 then xs[0]
    else xs[0] + [sep] + Join(xs[1..], sep)
  }

  /** Splitting and re-joining on the same separator gives the string back. */
  lemma {:induction false} JoinSplit(s: string, sep: char)
    ensures Join(Split(s, sep), sep) == s
  {
    if |s| > 0 {
      var rest := Split(s[1..], sep);
      JoinSplit(s[1..], sep);
      if s[0] == sep {
        assert Split(s, sep) == [""] + rest;
        assert ([""] + rest)[1..] == rest;
        assert s == [sep] + s[1..];
      } else if |rest| == 1 {
        assert s == [s[0]] + rest[0];
      } else {
        assert Split(s, sep) == [[s[0]] + rest[0]] + rest[1..];
        assert ([[s[0]] + rest[0]] + rest[1..])[1..] == rest[1..];
        assert s == [s[0]] + (rest[0] + [sep] + Join(rest[1..], sep));
      }
    }
  }

  /** Joining pieces that do not contain the separator and splitting again
      gives the pieces back. */
  lemma {:induction false} SplitJoin(xs: seq<string>, sep: char)
    requires |xs| >= 1
    requires forall k :: 0 <= k < |xs| ==> sep !in xs[k]
    ensures Split(Join(xs, sep), sep) == xs
  {
    if |xs| == 1 {
      SplitNoSeparator(xs[0], sep);
    } else {
      SplitJoin(xs[1..], sep);
      SplitAppend(xs[0], Join(xs[1..], sep), sep);
      assert [xs[0]] + xs[1..] == xs;
    }
  }

  lemma {:induction false} SplitNoSeparator(s: string, sep: char)
    requires sep !in s
    ensures Split(s, sep) == [s]
  {
    if |s| > 0 {
      SplitNoSeparator(s[1..], sep);
      assert [s[0]] + s[1..] == s;
    }
  }

  /** Splitting `a + sep + b` where `a` holds no separator. */
  lemma {:induction false} SplitAppend(a: string, b: string, sep: char)
    requires sep !in a
    ensures Split(a + [sep] + b, sep) == [a] + Split(b, sep)
  {
    if |a| == 0 {
      assert a + [sep] + b == [sep] + b;
      assert ([sep] + b)[1..] == b;
    } else {
      assert (a + [sep] + b)[1..] == a[1..] + [sep] + b;
      SplitAppend(a[1..], b, sep);
      assert [a[0]] + a[1..] == a;
    }
  }

  /** Two separator-free pieces joined by the separator split back apart. */
  lemma SplitTwo(a: string, b: string, sep: char)
    requires sep !in a && sep !in b
    ensures Split(a + [sep] + b, sep) == [a, b]
  {
    SplitAppend(a, b, sep);
    SplitNoSeparator(b, sep);
  }

  /** Three separator-free pieces joined by the separator split back apart. */
  lemma SplitThree(a: string, b: string, c: string, sep: char)
    requires sep !in a && sep !in b && sep !in c
    ensures Split(a + [sep] + b + [sep] + c, sep) == [a, b, c]
  {
    assert a + [sep] + b + [sep] + c == a + [sep] + (b + [sep] + c);
    SplitAppend(a, b + [sep] + c, sep);
    SplitTwo(b, c, sep);
  }

  /** `w` occurs in `s` starting at position `i`. */
  predicate OccursAt(s: string, w: string, i: int) {
    0 <= i && i + |w| <= |s| && s[i..i + |w|] == w
  }

  /** `s.includes(w)`. */
  function Contains(s: string, w: string): (r: bool)
    ensures r <==> exists i :: OccursAt(s, w, i)
  {
    if |w| > |s| then false
    else if s[..|w|] == w then assert OccursAt(s, w, 0); true
    else
      var r := Contains(s[1..], w);
      assert r ==> exists i :: OccursAt(s, w, i) by {
        if r {
          var i :| OccursAt(s[1..], w, i);
          SliceOfSlice(s, 1, |s|, i, i + |w|);
          assert OccursAt(s, w, i + 1);
        }
      }
      assert (exists i :: OccursAt(s, w, i)) ==> r by {
        if exists i :: OccursAt(s, w, i) {
          var i :| OccursAt(s, w, i);
          assert i != 0;
          SliceOfSlice(s, 1, |s|, i - 1, i - 1 + |w|);
          assert OccursAt(s[1..], w, i - 1);
        }
      }
      r
  }

  /** Every text contains itself. */
  lemma ContainsSelf(w: string)
    ensures Contains(w, w)
  {
    assert OccursAt(w, w, 0);
  }

  /** A text containing `w` contains every character of `w`. */
  lemma ContainsChars(s: string, w: string, k: nat)
    requires Contains(s, w) && k < |w|
    ensures w[k] in s
  {
    var i :| OccursAt(s, w, i);
    assert s[i + k] == s[i..i + |w|][k];
  }

  /** A text lacking one of the needle's characters cannot contain it. */
  lemma AbsentCharNotContained(s: string, w: string, k: nat)
    requires k < |w| && w[k] !in s
    ensures !Contains(s, w)
  {
    if Contains(s, w) {
      ContainsChars(s, w, k);
    }
  }

  /** `s.indexOf(c)` as an optional index. */
  function IndexOf(s: string, c: char): (r: Option<nat>)
    ensures r.None? <==> c !in s
    ensures r.Some? ==> r.value < |s| && s[r.value] == c && c !in s[..r.value]
  {
    if |s| == 0 then None
    else if s[0] == c then Some(0)
    else match IndexOf(s[1..], c)
      case None => None
      case Some(i) =>
        assert s[..i + 1] == [s[0]] + s[1..][..i];
        Some(i + 1)
  }

  /** `a + ": " + b` and `a + ":: " + b` regrouped around their first colon. */
  lemma ColonShapes(a: string, b: string)
    ensures a + ": " + b == a + [':'] + (" " + b)
    ensures a + ":: " + b == a + [':'] + (": " + b)
  {
    assert ": " == [':'] + " ";
    assert ":: " == [':'] + ": ";
  }

  /** The first `c` of `a + [c] + b` is the one after `a` when `a` has none. */
  lemma IndexOfAfterAbsent(a: string, c: char, b: string)
    requires c !in a
    ensures IndexOf(a + [c] + b, c) == Some(|a|)
  {
    var s := a + [c] + b;
    var i := IndexOf(s, c).value;
    assert s[|a|] == c;
    assert forall k :: 0 <= k < |a| ==> s[k] == a[k];
    assert forall k :: |a| < k <= |s| ==> s[..k][|a|] == c;
  }

  /** `s.lastIndexOf(c)` as an optional index. */
  function LastIndexOf(s: string, c: char): (r: Option<nat>)
    ensures r.None? <==> c !in s
    ensures r.Some? ==> r.value < |s| && s[r.value] == c && c !in s[r.value + 1..]
  {
    if |s| == 0 then None
    else if s[|s| - 1] == c then Some(|s| - 1)
    else
      var r := LastIndexOf(s[..|s| - 1], c);
      assert s == s[..|s| - 1] + [s[|s| - 1]];
      match r
      case None => None
      case Some(i) =>
        assert s[i + 1..] == s[..|s| - 1][i + 1..] + [s[|s| - 1]];
        Some(i)
  }

  /** `s.padStart(width, fill)`: pads on the left, never truncates. */
  function PadStart(s: string, width: nat, fill: char): (r: string)
    ensures |r| == if |s| >= width then |s| else width
    ensures r[|r| - |s|..] == s
    ensures forall i :: 0 <= i < |r| - |s| ==> r[i] == fill
    decreases width - |s|
  {
    if |s| >= width then s else PadStart([fill] + s, width, fill)
  }

  /** The digits of `s`, in order (`s.replace(/\D+/g, "")`). */
  function DigitsOnly(s: string): (r: string)
    ensures AllDigits(r)
    ensures |r| <= |s|
    ensures (exists i :: 0 <= i < |s| && IsDigit(s[i])) ==> |r| > 0
  {
    if |s| == 0 then ""
    else if IsDigit(s[0]) then [s[0]] + DigitsOnly(s[1..])
    else DigitsOnly(s[1..])
  }

  /** A text contains whatever a piece of it contains. */
  lemma ContainsInfix(a: string, b: string, c: string, w: string)
    requires Contains(b, w)
    ensures Contains(a + b + c, w)
  {
    var i :| OccursAt(b, w, i);
    assert (a + b + c)[|a| + i..|a| + i + |w|] == b[i..i + |w|];
    assert OccursAt(a + b + c, w, |a| + i);
  }

  /** A text is its trimmed part with white space around it. */
  lemma TrimParts(s: string) returns (pre: string, post: string)
    ensures s == pre + Trim(s) + post
  {
    var a := TrimIsSlice(s);
    pre, post := s[..a], s[a + |Trim(s)|..];
    CutTwice(s, a, a + |Trim(s)|);
  }

  lemma CutTwice(s: string, i: nat, j: nat)
    requires i <= j <= |s|
    ensures s == s[..i] + s[i..j] + s[j..]
  {
  }

  /** Whatever the trimmed text contains, the text contains. */
  lemma ContainsBeforeTrim(x: string, w: string)
    ensures Contains(Trim(x), w) ==> Contains(x, w)
  {
    if Contains(Trim(x), w) {
      var pre, post := TrimParts(x);
      ContainsInfix(pre, Trim(x), post, w);
    }
  }

  /** Trimming cannot cut into a word that starts and ends with a
      non-space character. */
  lemma ContainsAfterTrim(u: string, w: string)
    requires |w| > 0 && !IsWhitespace(w[0]) && !IsWhitespace(w[|w| - 1])
    requires Contains(u, w)
    ensures Contains(Trim(u), w)
  {
    var t := Trim(u);
    var a := TrimIsSlice(u);
    assert Contains(t, w) by {
      ContainsInSlice(u, w, a, |t|, t);
    }
  }

  /** Only white space lies outside `u[a..a + n]`. */
  predicate SpaceAround(u: string, a: nat, n: nat) {
    && a + n <= |u|
    && (forall i :: 0 <= i < a ==> IsWhitespace(u[i]))
    && (forall i :: a + n <= i < |u| ==> IsWhitespace(u[i]))
  }

  /** A word that starts and ends with non-space characters, contained in a
      text, is contained in the slice of it that only white space surrounds. */
  lemma ContainsInSlice(u: string, w: string, a: nat, n: nat, t: string)
    requires |w| > 0 && !IsWhitespace(w[0]) && !IsWhitespace(w[|w| - 1])
    requires Contains(u, w) && SpaceAround(u, a, n) && t == u[a..a + n]
    ensures Contains(t, w)
  {
    var i := OccurrenceOf(u, w);
    OccursInSlice(u, w, a, n, t, i);
    ContainsOfOccurrence(t, w, i - a);
  }

  /** An occurrence of such a word lies wholly inside that slice. */
  lemma OccursInSlice(u: string, w: string, a: nat, n: nat, t: string, i: int)
    requires |w| > 0 && !IsWhitespace(w[0]) && !IsWhitespace(w[|w| - 1])
    requires OccursAt(u, w, i) && SpaceAround(u, a, n) && t == u[a..a + n]
    ensures a <= i && OccursAt(t, w, i - a)
  {
    assert u[i] == u[i..i + |w|][0] && u[i + |w| - 1] == u[i..i + |w|][|w| - 1];
    InsideTrim(u, a, n, i);
    InsideTrim(u, a, n, i + |w| - 1);
    SliceOfSlice(u, a, a + n, i - a, i - a + |w|);
  }

  /** Where a contained word occurs. */
  lemma OccurrenceOf(s: string, w: string) returns (i: nat)
    requires Contains(s, w)
    ensures OccursAt(s, w, i)
  {
    i :| OccursAt(s, w, i);
  }

  /** A word occurring somewhere is contained. */
  lemma ContainsOfOccurrence(s: string, w: string, i: int)
    requires OccursAt(s, w, i)
    ensures Contains(s, w)
  {
  }

  /** A non-space character lies inside the trimmed slice. */
  lemma InsideTrim(u: string, a: nat, n: nat, k: nat)
    requires SpaceAround(u, a, n) && k < |u| && !IsWhitespace(u[k])
    ensures a <= k < a + n
  {
  }

  /** A slice of a slice is a slice. */
  lemma SliceOfSlice(u: string, a: nat, e: nat, x: nat, y: nat)
    requires a <= e <= |u| && x <= y <= e - a
    ensures u[a..e][x..y] == u[a + x..a + y]
  {
    assert |u[a..e][x..y]| == y - x == |u[a + x..a + y]|;
    forall k | 0 <= k < y - x
      ensures u[a..e][x..y][k] == u[a + x..a + y][k]
    {
      assert u[a..e][x..y][k] == u[a + x + k];
    }
  }
}

=== FILE: unicode.dfy ===
/** The two Unicode operations the ceremony normaliser and the status
    classifiers need: `toLowerCase`, and `normalize("NFD")` followed by the
    removal of the combining marks U+0300..U+036F. Both are tabulated for
    ASCII, Latin-1 and the letters of Vietnamese; every other character is
    left as it is. */
module Unicode {
  import opened Strings

  /** `toLowerCase` of one character. */
  function LowerChar(c: char): char {
    if 'A' <= c <= 'Z' then (c as int + 32) as char
    else if '\U{00C0}' <= c <= '\U{00DE}' && c != '\U{00D7}' then (c as int + 32) as char
    else if c == '\U{0102}' || c == '\U{0110}' || c == '\U{0128}' || c == '\U{0168}' || c == '\U{01A0}'
    then (c as int + 1) as char
    else if c == '\U{01AF}' then '\U{01B0}'
    else if '\U{1EA0}' <= c <= '\U{1EF8}' && (c as int) % 2 == 0 then (c as int + 1) as char
    else c
  }

  /** `s.toLowerCase()`. */
  function Lower(s: string): string {
    seq(|s|, i requires 0 <= i < |s| => LowerChar(s[i]))
  }

  /** Lower-casing leaves digits, signs and white space alone. */
  lemma LowerKeepsNonLetters(s: string)
    requires forall i :: 0 <= i < |s| ==> IsWhitespace(s[i]) || IsDigit(s[i]) || s[i] == '-' || s[i] == '+'
    ensures Lower(s) == s
  {
  }

  /** Upper or lower case of a base letter, chosen by the case of `c`
      (in U+1EA0..U+1EF9 upper-case letters sit at even code points). */
  function CaseLike(c: char, upper: char, lower: char): seq<char> {
    if (c as int) % 2 == 0 then [upper] else [lower]
  }

  /** The base letter left of `c` once it is decomposed and its combining
      marks are dropped; a combining mark itself leaves nothing. */
  function StripMarksChar(c: char): seq<char> {
    if '\U{0300}' <= c <= '\U{036F}' then []
    // Latin-1
    else if '\U{00C0}' <= c <= '\U{00C5}' then "A"
    else if c == '\U{00C7}' then "C"
    else if '\U{00C8}' <= c <= '\U{00CB}' then "E"
    else if '\U{00CC}' <= c <= '\U{00CF}' then "I"
    else if c == '\U{00D1}' then "N"
    else if '\U{00D2}' <= c <= '\U{00D6}' then "O"
    else if '\U{00D9}' <= c <= '\U{00DC}' then "U"
    else if c == '\U{00DD}' then "Y"
    else if '\U{00E0}' <= c <= '\U{00E5}' then "a"
    else if c == '\U{00E7}' then "c"
    else if '\U{00E8}' <= c <= '\U{00EB}' then "e"
    else if '\U{00EC}' <= c <= '\U{00EF}' then "i"
    else if c == '\U{00F1}' then "n"
    else if '\U{00F2}' <= c <= '\U{00F6}' then "o"
    else if '\U{00F9}' <= c <= '\U{00FC}' then "u"
    else if c == '\U{00FD}' || c == '\U{00FF}' then "y"
    // Ă ă Ĩ ĩ Ũ ũ Ơ ơ Ư ư (Đ đ have no decomposition)
    else if c == '\U{0102}' then "A" else if c == '\U{0103}' then "a"
    else if c == '\U{0128}' then "I" else if c == '\U{0129}' then "i"
    else if c == '\U{0168}' then "U" else if c == '\U{0169}' then "u"
    else if c == '\U{01A0}' then "O" else if c == '\U{01A1}' then "o"
    else if c == '\U{01AF}' then "U" else if c == '\U{01B0}' then "u"
    // Vietnamese letters with tone marks, U+1EA0..U+1EF9
    else if '\U{1EA0}' <= c <= '\U{1EB7}' then CaseLike(c, 'A', 'a')
    else if '\U{1EB8}' <= c <= '\U{1EC7}' then CaseLike(c, 'E', 'e')
    else if '\U{1EC8}' <= c <= '\U{1ECB}' then CaseLike(c, 'I', 'i')
    else if '\U{1ECC}' <= c <= '\U{1EE3}' then CaseLike(c, 'O', 'o')
    else if '\U{1EE4}' <= c <= '\U{1EF1}' then CaseLike(c, 'U', 'u')
    else if '\U{1EF2}' <= c <= '\U{1EF9}' then CaseLike(c, 'Y', 'y')
    else [c]
  }

  /** `s.normalize("NFD")` with the combining marks U+0300..U+036F removed. */
  function StripDiacritics(s: string): string {
    if |s| == 0 then "" else StripMarksChar(s[0]) + StripDiacritics(s[1..])
  }

  /** Removing combining marks leaves white space alone. */
  lemma {:induction false} StripKeepsWhitespace(s: string)
    requires forall i :: 0 <= i < |s| ==> IsWhitespace(s[i])
    ensures StripDiacritics(s) == s
  {
    if |s| > 0 {
      WhitespaceHasNoMarks(s[0]);
      assert forall i :: 0 <= i < |s[1..]| ==> s[1..][i] == s[i + 1];
      StripKeepsWhitespace(s[1..]);
      assert [s[0]] + s[1..] == s;
    }
  }

  lemma WhitespaceHasNoMarks(c: char)
    requires IsWhitespace(c)
    ensures StripMarksChar(c) == [c]
  {
  }

  /** Lower-casing works character by character. */
  lemma LowerAppend(a: string, b: string)
    ensures Lower(a + b) == Lower(a) + Lower(b)
  {
  }

  /** Stripping marks works character by character. */
  lemma {:induction false} StripDiacriticsAppend(a: string, b: string)
    ensures StripDiacritics(a + b) == StripDiacritics(a) + StripDiacritics(b)
  {
    if |a| > 0 {
      assert (a + b)[0] == a[0] && (a + b)[1..] == a[1..] + b;
      StripDiacriticsAppend(a[1..], b);
    } else {
      assert a + b == b;
    }
  }

  /** When every character strips to one letter, the stripped text is
      those letters in order. */
  lemma {:induction false} StripCharwise(s: string, t: string)
    requires |s| == |t|
    requires forall i :: 0 <= i < |s| ==> StripMarksChar(s[i]) == [t[i]]
    ensures StripDiacritics(s) == t
  {
    if |s| > 0 {
      StripCharwise(s[1..], t[1..]);
      assert t == [t[0]] + t[1..];
    }
  }

  /** Folding (lower-casing, then stripping marks) works piece by piece. */
  lemma FoldAppend3(p: string, m: string, q: string)
    ensures StripDiacritics(Lower(p + m + q))
         == StripDiacritics(Lower(p)) + StripDiacritics(Lower(m)) + StripDiacritics(Lower(q))
  {
    LowerAppend(p + m, q);
    LowerAppend(p, m);
    StripDiacriticsAppend(Lower(p) + Lower(m), Lower(q));
    StripDiacriticsAppend(Lower(p), Lower(m));
  }
}

=== FILE: vn_date.dfy ===
/** `parseVnDateTime` of the 11053 synchronisation: a Vietnamese
    `D/M/Y HH:MM` (or `Y-M-D HH:MM`) wall-clock reading, taken as UTC+7 and
    turned into a UTC instant through `Date.UTC`.

    Instants are integer minutes since 1970-01-01T00:00Z; every instant the
    parser produces is a whole number of minutes, and `toISOString`
    prints it with zero seconds and milliseconds. */
module VnDate {
  import opened Wrappers
  import opened Strings
  import opened JsValue

  // ---------------------------------------------------------------------
  // The proleptic Gregorian calendar

  predicate IsLeapYear(y: int) {
    y % 4 == 0 && (y % 100 != 0 || y % 400 == 0)
  }

  /** The reference calendar: the length of month `m` (1..12) of year `y`. */
  function DaysInMonth(y: int, m: int): (r: int)
    requires 1 <= m <= 12
    ensures 28 <= r <= 31
  {
    if m == 2 then (if IsLeapYear(y) then 29 else 28)
    else if m == 4 || m == 6 || m == 9 || m == 11 then 30
    else 31
  }

  /** Days from 1970-01-01 to day `d` of month `m` (1..12) of year `y`.
      The year is counted from March so that the leap day comes last;
      `d` may lie outside the month, which simply counts on from day 1. */
  function DaysFromCivil(y: int, m: int, d: int): int
    requires 1 <= m <= 12
  {
    var ym := if m <= 2 then y - 1 else y;
    var mp := if m <= 2 then m + 9 else m - 3;
    var doy := (153 * mp + 2) / 5 + d - 1;
    365 * ym + ym / 4 - ym / 100 + ym / 400 + doy - 719468
  }

  lemma EpochIsDayZero()
    ensures DaysFromCivil(1970, 1, 1) == 0
  {
  }

  /** The leap-year rule counted by the floor divisions of `DaysFromCivil`. */
  lemma LeapDaysStep(y: int)
    ensures (y / 4 - (y - 1) / 4) - (y / 100 - (y - 1) / 100) + (y / 400 - (y - 1) / 400)
         == if IsLeapYear(y) then 1 else 0
  {
    DivStepFour(y);
    DivStepHundred(y);
    DivStepFourHundred(y);
    DivisorsNest(y);
    LeapCount(y % 4 == 0, y % 100 == 0, y % 400 == 0,
              y / 4 - (y - 1) / 4, y / 100 - (y - 1) / 100, y / 400 - (y - 1) / 400);
  }

  /** Counting the multiples of 4, less those of 100, plus those of 400. */
  lemma LeapCount(p4: bool, p100: bool, p400: bool, a: int, b: int, c: int)
    requires (p400 ==> p100) && (p100 ==> p4)
    requires a == (if p4 then 1 else 0) && b == (if p100 then 1 else 0) && c == (if p400 then 1 else 0)
    ensures a - b + c == if p4 && (!p100 || p400) then 1 else 0
  {
  }

  /** Multiples of 400 are multiples of 100, which are multiples of 4. */
  lemma DivisorsNest(y: int)
    ensures y % 400 == 0 ==> y % 100 == 0
    ensures y % 100 == 0 ==> y % 4 == 0
  {
  }

  /** Counting multiples of 4 up to `y` and up to `y - 1` differ exactly at the multiples. */
  lemma DivStepFour(y: int)
    ensures y / 4 - (y - 1) / 4 == if y % 4 == 0 then 1 else 0
  {
  }

  lemma DivStepHundred(y: int)
    ensures y / 100 - (y - 1) / 100 == if y % 100 == 0 then 1 else 0
  {
  }

  lemma DivStepFourHundred(y: int)
    ensures y / 400 - (y - 1) / 400 == if y % 400 == 0 then 1 else 0
  {
  }

  /** The first of the next month comes exactly one month-length after the
      first of this month: the day count agrees with the reference calendar
      `DaysInMonth`, leap years included. */
  lemma NextMonth(y: int, m: int)
    requires 1 <= m <= 11
    ensures DaysFromCivil(y, m + 1, 1) == DaysFromCivil(y, m, 1) + DaysInMonth(y, m)
  {
    if m == 2 {
      LeapDaysStep(y);
    }
  }

  /** New Year's day follows the 31 days of December. */
  lemma NextYear(y: int)
    ensures DaysFromCivil(y + 1, 1, 1) == DaysFromCivil(y, 12, 1) + 31
  {
  }

  // ---------------------------------------------------------------------
  // Date.UTC

  /** `Date.UTC` reads the years 0..99 as 1900..1999. */
  function UtcYear(y: int): (r: int)
    ensures 0 <= y <= 99 ==> r == 1900 + y
    ensures !(0 <= y <= 99) ==> r == y
  {
    if 0 <= y <= 99 then 1900 + y else y
  }

  /** `MakeDay(year, month, date)` with a zero-based `month` of any size:
      whole years are carried out of the month first. */
  function MakeDay(year: int, month: int, date: int): int {
    DaysFromCivil(year + month / 12, month % 12 + 1, 1) + date - 1
  }

  /** `Date.UTC(y, month, d, h, mi)` in minutes. */
  function UtcMinutes(y: int, month: int, d: int, h: int, mi: int): int {
    MakeDay(UtcYear(y), month, d) * 1440 + h * 60 + mi
  }

  /** The largest instant a `Date` holds, 8.64e15 ms, in minutes. */
  const MaxInstantMinutes: int := 144_000_000_000

  /** A month inside 1..12 needs no carry: `MakeDay` is then the calendar. */
  lemma MakeDayOfCalendarMonth(y: int, m: int, d: int)
    requires 1 <= m <= 12
    ensures MakeDay(y, m - 1, d) == DaysFromCivil(y, m, d)
  {
  }

  /** Month 13 of a year is January of the next (`"31/13/2024"` is
      31 January 2025). */
  lemma MonthThirteenRollsOver(y: int, d: int)
    ensures MakeDay(y, 12, d) == DaysFromCivil(y + 1, 1, d)
  {
  }

  // ---------------------------------------------------------------------
  // The parser

  /** The numeric fields read from the text; day, month and year are non-zero. */
  datatype Fields = Fields(year: int, month: int, day: int, hour: int, minute: int)

  /** `Number(parts[k])`, or NaN (`None`) when the destructured element is missing. */
  function Component(parts: seq<string>, k: nat): Option<int> {
    if k < |parts| then StrToNum(parts[k]) else None
  }

  /** `Number(x) || 0`. */
  function NumberOrZero(x: Option<string>): int {
    match x
    case Some(t) => (match StrToNum(t) case Some(n) => n case None => 0)
    case None => 0
  }

  /** The `[d, m, y]` (or `[y, m, d]`) destructuring of the date part. */
  function DateComponents(datePart: string): (r: (Option<int>, Option<int>, Option<int>))
    ensures '/' in datePart ==> r == (Component(Split(datePart, '/'), 2), Component(Split(datePart, '/'), 1), Component(Split(datePart, '/'), 0))
    ensures '/' !in datePart && '-' in datePart ==> r == (Component(Split(datePart, '-'), 0), Component(Split(datePart, '-'), 1), Component(Split(datePart, '-'), 2))
    ensures '/' !in datePart && '-' !in datePart ==> r == (None, None, None)
  {
    if '/' in datePart then
      var ps := Split(datePart, '/');
      (Component(ps, 2), Component(ps, 1), Component(ps, 0))
    else if '-' in datePart then
      var ps := Split(datePart, '-');
      (Component(ps, 0), Component(ps, 1), Component(ps, 2))
    else (None, None, None)
  }

  /** `!x` for a `Number(...)` result. */
  predicate NonZero(x: Option<int>) {
    x.Some? && x.value != 0
  }

  /** `[hhStr, mmStr] = timePart.split(":")`, each read as `Number(x) || 0`;
      no time part is 00:00. */
  function TimeOf(timePart: string): (int, int) {
    if timePart == "" then (0, 0)
    else
      var hm := Split(timePart, ':');
      (NumberOrZero(Some(hm[0])), if |hm| < 2 then 0 else NumberOrZero(Some(hm[1])))
  }

  /** The fields of a date part and a time part, or null when day, month or
      year is zero or NaN. */
  function FieldsOf(datePart: string, timePart: string): (r: Option<Fields>)
    ensures r.Some? ==> r.value.year != 0 && r.value.month != 0 && r.value.day != 0
  {
    var (y, m, d) := DateComponents(datePart);
    if datePart == "" || !NonZero(d) || !NonZero(m) || !NonZero(y) then None
    else
      var (hh, mm) := TimeOf(timePart);
      Some(Fields(y.value, m.value, d.value, hh, mm))
  }

  /** The fields of the trimmed text `s`: `[datePart, timePart] = s.split(" ")`. */
  function ReadFields(s: string): (r: Option<Fields>)
    ensures s == "" ==> r.None?
    ensures r.Some? ==> r.value.year != 0 && r.value.month != 0 && r.value.day != 0
  {
    if s == "" then None
    else
      var pieces := Split(s, ' ');
      FieldsOf(pieces[0], if |pieces| > 1 then pieces[1] else "")
  }

  /** `new Date(Date.UTC(y, m - 1, d, hh - 7, mm)).toISOString()`, which
      throws a RangeError beyond the representable range. */
  function Instant(f: Fields): (r: Result<int>)
    ensures r.Ok? ==> -MaxInstantMinutes <= r.value <= MaxInstantMinutes
    ensures r.Ok? ==> r.value == UtcMinutes(f.year, f.month - 1, f.day, f.hour - 7, f.minute)
    ensures r.Err? <==> (UtcMinutes(f.year, f.month - 1, f.day, f.hour - 7, f.minute) < -MaxInstantMinutes
                      || UtcMinutes(f.year, f.month - 1, f.day, f.hour - 7, f.minute) > MaxInstantMinutes)
  {
    var t := UtcMinutes(f.year, f.month - 1, f.day, f.hour - 7, f.minute);
    if t < -MaxInstantMinutes || t > MaxInstantMinutes then Err("RangeError: Invalid time value")
    else Ok(t)
  }

  /** The parser on the trimmed text of a truthy input. */
  function ParseText(s: string): (r: Result<Option<int>>)
    ensures r.Err? ==> ReadFields(s).Some?
    ensures r == Ok(None) <==> ReadFields(s).None?
    ensures r.Ok? && r.value.Some? ==> -MaxInstantMinutes <= r.value.value <= MaxInstantMinutes
  {
    match ReadFields(s)
    case None => Ok(None)
    case Some(f) =>
      match Instant(f)
      case Ok(t) => Ok(Some(t))
      case Err(e) => Err(e)
  }

  /** Readable text parses to the `Date.UTC` instant of its fields taken in
      UTC+7, and fails exactly when that instant is out of range. */
  lemma ParseTextIsInstant(s: string)
    requires ReadFields(s).Some?
    ensures var f := ReadFields(s).value;
      var t := UtcMinutes(f.year, f.month - 1, f.day, f.hour - 7, f.minute);
      && (ParseText(s).Err? <==> t < -MaxInstantMinutes || t > MaxInstantMinutes)
      && (ParseText(s).Ok? ==> ParseText(s) == Ok(Some(t)))
  {
    var f := ReadFields(s).value;
    assert ParseText(s) == match Instant(f) case Ok(t) => Ok(Some(t)) case Err(e) => Err(e);
  }

  /** `parseVnDateTime(input)`: `Ok(None)` is the `null` it returns, `Err`
      the RangeError it lets escape. */
  function ParseVnDateTime(input: JVal): (r: Result<Option<int>>)
    ensures !Truthy(input) ==> r == Ok(None)
    ensures Truthy(input) ==> r == ParseText(Trim(ToStr(input)))
    ensures r.Err? ==> Truthy(input) && ReadFields(Trim(ToStr(input))).Some?
    ensures r.Ok? && r.value.Some? ==> -MaxInstantMinutes <= r.value.value <= MaxInstantMinutes
  {
    if !Truthy(input) then Ok(None) else ParseText(Trim(ToStr(input)))
  }

  /** Minute `mi` of hour `h` on day `d` of month `m` (1..12) of year `y`,
      read on a UTC+7 clock, in minutes since the epoch. */
  function LocalMinutes(y: int, m: int, d: int, h: int, mi: int): int
    requires 1 <= m <= 12
  {
    DaysFromCivil(y, m, d) * 1440 + (h - 7) * 60 + mi
  }

  /** For an ordinary date (month 1..12, year past 99) the instant is the
      calendar day at hh:mm in UTC+7. */
  lemma InstantOfOrdinaryDate(f: Fields)
    requires 1 <= f.month <= 12 && !(0 <= f.year <= 99)
    ensures UtcMinutes(f.year, f.month - 1, f.day, f.hour - 7, f.minute)
         == LocalMinutes(f.year, f.month, f.day, f.hour, f.minute)
  {
    MakeDayOfCalendarMonth(f.year, f.month, f.day);
  }

  /** An ordinary date is accepted exactly when its instant lies inside the
      representable range, and is then the calendar day at hh:mm in UTC+7. */
  lemma InstantOfOrdinaryDateOk(f: Fields)
    requires 1 <= f.month <= 12 && !(0 <= f.year <= 99)
    ensures var t := LocalMinutes(f.year, f.month, f.day, f.hour, f.minute);
      && (Instant(f).Ok? <==> -MaxInstantMinutes <= t <= MaxInstantMinutes)
      && (Instant(f).Ok? ==> Instant(f).value == t)
  {
    InstantOfOrdinaryDate(f);
  }

  /** A year of one or two digits is a year of the twentieth century: the
      instant of year `y` is the calendar instant of year 1900 + y. */
  lemma TwoDigitYearInstant(f: Fields)
    requires 1 <= f.month <= 12 && 0 <= f.year <= 99
    ensures UtcMinutes(f.year, f.month - 1, f.day, f.hour - 7, f.minute)
         == LocalMinutes(1900 + f.year, f.month, f.day, f.hour, f.minute)
  {
    MakeDayOfCalendarMonth(1900 + f.year, f.month, f.day);
  }

  // ---------------------------------------------------------------------
  // Reading the two date layouts

  /** A non-empty run of digits: one field of a date or a time. */
  predicate IsNumeral(t: string) {
    |t| > 0 && AllDigits(t)
  }

  lemma NumeralHasNoSeparator(t: string)
    requires IsNumeral(t)
    ensures '/' !in t && '-' !in t && ' ' !in t && ':' !in t
  {
  }

  /** The text of the D/M/Y layout. */
  function DmyText(d: string, m: string, y: string): string {
    d + "/" + m + "/" + y
  }

  /** The text of the Y-M-D layout. */
  function YmdText(y: string, m: string, d: string): string {
    y + "-" + m + "-" + d
  }

  /** The fields of a date-only text, or null when a field is zero. */
  function DateOnlyFields(d: string, m: string, y: string): Option<Fields>
    requires IsNumeral(d) && IsNumeral(m) && IsNumeral(y)
  {
    if DigitsValue(d) == 0 || DigitsValue(m) == 0 || DigitsValue(y) == 0 then None
    else Some(Fields(DigitsValue(y), DigitsValue(m), DigitsValue(d), 0, 0))
  }

  lemma DmyComponents(d: string, m: string, y: string)
    requires IsNumeral(d) && IsNumeral(m) && IsNumeral(y)
    ensures DateComponents(DmyText(d, m, y)) == (Some(DigitsValue(y)), Some(DigitsValue(m)), Some(DigitsValue(d)))
  {
    NumeralHasNoSeparator(d);
    NumeralHasNoSeparator(m);
    NumeralHasNoSeparator(y);
    var s := DmyText(d, m, y);
    assert s == d + ['/'] + m + ['/'] + y;
    assert s[|d|] == '/';
    SplitThree(d, m, y, '/');
    StrToNumOfDigits(d);
    StrToNumOfDigits(m);
    StrToNumOfDigits(y);
  }

  lemma YmdComponents(y: string, m: string, d: string)
    requires IsNumeral(d) && IsNumeral(m) && IsNumeral(y)
    ensures DateComponents(YmdText(y, m, d)) == (Some(DigitsValue(y)), Some(DigitsValue(m)), Some(DigitsValue(d)))
  {
    NumeralHasNoSeparator(d);
    NumeralHasNoSeparator(m);
    NumeralHasNoSeparator(y);
    var s := YmdText(y, m, d);
    assert s == y + ['-'] + m + ['-'] + d;
    assert s[|y|] == '-';
    assert '/' !in s;
    SplitThree(y, m, d, '-');
    StrToNumOfDigits(d);
    StrToNumOfDigits(m);
    StrToNumOfDigits(y);
  }

  /** A date without a time part is read field by field; a zero field gives null. */
  lemma DateOnlyText(date: string, fields: (Option<int>, Option<int>, Option<int>))
    requires |date| > 0 && ' ' !in date && DateComponents(date) == fields
    ensures ReadFields(date) == (if NonZero(fields.0) && NonZero(fields.1) && NonZero(fields.2)
                                 then Some(Fields(fields.0.value, fields.1.value, fields.2.value, 0, 0)) else None)
  {
    SplitNoSeparator(date, ' ');
    assert ReadFields(date) == FieldsOf(date, "");
  }

  lemma DmyFields(d: string, m: string, y: string)
    requires IsNumeral(d) && IsNumeral(m) && IsNumeral(y)
    ensures ReadFields(DmyText(d, m, y)) == DateOnlyFields(d, m, y)
  {
    DmyComponents(d, m, y);
    DmyTextHasNoSpace(d, m, y);
    DateOnlyText(DmyText(d, m, y), (Some(DigitsValue(y)), Some(DigitsValue(m)), Some(DigitsValue(d))));
  }

  lemma YmdFields(d: string, m: string, y: string)
    requires IsNumeral(d) && IsNumeral(m) && IsNumeral(y)
    ensures ReadFields(YmdText(y, m, d)) == DateOnlyFields(d, m, y)
  {
    YmdComponents(y, m, d);
    YmdTextHasNoSpace(d, m, y);
    DateOnlyText(YmdText(y, m, d), (Some(DigitsValue(y)), Some(DigitsValue(m)), Some(DigitsValue(d))));
  }

  /** The two layouts agree: `D/M/Y` and `Y-M-D` with the same numerals
      denote the same fields, and a zero field gives null in both. */
  lemma LayoutsAgree(d: string, m: string, y: string)
    requires IsNumeral(d) && IsNumeral(m) && IsNumeral(y)
    ensures ReadFields(DmyText(d, m, y)) == DateOnlyFields(d, m, y)
    ensures ReadFields(YmdText(y, m, d)) == DateOnlyFields(d, m, y)
  {
    DmyFields(d, m, y);
    YmdFields(d, m, y);
  }

  lemma TimeOfNumerals(h: string, mi: string)
    requires IsNumeral(h) && IsNumeral(mi)
    ensures TimeOf(h + ":" + mi) == (DigitsValue(h), DigitsValue(mi))
  {
    NumeralHasNoSeparator(h);
    NumeralHasNoSeparator(mi);
    assert h + ":" + mi == h + [':'] + mi;
    SplitTwo(h, mi, ':');
    StrToNumOfDigits(h);
    StrToNumOfDigits(mi);
  }

  lemma ReadFieldsOfDateAndTime(date: string, time: string)
    requires |date| > 0 && ' ' !in date && ' ' !in time
    ensures ReadFields(date + " " + time) == FieldsOf(date, time)
  {
    assert date + " " + time == date + [' '] + time;
    SplitTwo(date, time, ' ');
  }

  lemma DmyTextHasNoSpace(d: string, m: string, y: string)
    requires IsNumeral(d) && IsNumeral(m) && IsNumeral(y)
    ensures |DmyText(d, m, y)| > 0 && ' ' !in DmyText(d, m, y)
  {
    NumeralHasNoSeparator(d);
    NumeralHasNoSeparator(m);
    NumeralHasNoSeparator(y);
  }

  lemma YmdTextHasNoSpace(d: string, m: string, y: string)
    requires IsNumeral(d) && IsNumeral(m) && IsNumeral(y)
    ensures |YmdText(y, m, d)| > 0 && ' ' !in YmdText(y, m, d)
  {
    NumeralHasNoSeparator(d);
    NumeralHasNoSeparator(m);
    NumeralHasNoSeparator(y);
  }

  /** A date with an `HH:MM` time part: the hour and minute are read as numbers. */
  lemma DateTimeText(date: string, h: string, mi: string)
    requires |date| > 0 && ' ' !in date && IsNumeral(h) && IsNumeral(mi)
    requires ReadFields(date).Some?
    ensures ReadFields(date + " " + h + ":" + mi)
         == Some(ReadFields(date).value.(hour := DigitsValue(h), minute := DigitsValue(mi)))
  {
    DateAndTimeFields(date, h, mi);
    SplitNoSeparator(date, ' ');
    TimeOfNumerals(h, mi);
    FieldsWithTime(date, h + ":" + mi);
  }

  /** A numeric `hh:mm` after the space is read as the time part. */
  lemma DateAndTimeFields(date: string, h: string, mi: string)
    requires |date| > 0 && ' ' !in date && IsNumeral(h) && IsNumeral(mi)
    ensures ReadFields(date + " " + h + ":" + mi) == FieldsOf(date, h + ":" + mi)
  {
    NumeralHasNoSeparator(h);
    NumeralHasNoSeparator(mi);
    assert date + " " + h + ":" + mi == date + " " + (h + ":" + mi);
    ReadFieldsOfDateAndTime(date, h + ":" + mi);
  }

  /** The time part only sets the hour and the minute. */
  lemma FieldsWithTime(date: string, time: string)
    requires FieldsOf(date, "").Some?
    ensures FieldsOf(date, time) == Some(FieldsOf(date, "").value.(hour := TimeOf(time).0, minute := TimeOf(time).1))
  {
  }

  /** Once the fields are read, the parser yields their instant. */
  lemma ParseTextOfFields(s: string, f: Fields)
    requires ReadFields(s) == Some(f) && Instant(f).Ok?
    ensures ParseText(s) == Ok(Some(Instant(f).value))
  {
    assert ParseText(s) == match Instant(f) case Ok(t) => Ok(Some(t)) case Err(e) => Err(e);
  }

  /** A date without a time (read as 00:00, see `DateOnlyFields`) is
      taken at midnight in UTC+7, which is 17:00 UTC of the previous day. */
  lemma DateOnlyIsSeventeenUtc(f: Fields)
    requires f.hour == 0 && f.minute == 0
    requires 1 <= f.month <= 12 && !(0 <= f.year <= 99)
    requires -MaxInstantMinutes <= DaysFromCivil(f.year, f.month, f.day) * 1440 - 420 <= MaxInstantMinutes
    ensures Instant(f) == Ok((DaysFromCivil(f.year, f.month, f.day) - 1) * 1440 + 17 * 60)
  {
    InstantOfOrdinaryDateOk(f);
  }

  /** A text whose fields form an ordinary date parses to its instant, or
      fails when that instant is out of range. */
  lemma OrdinaryInstantParses(s: string, year: int, month: int, day: int, hour: int, minute: int)
    requires ReadFields(s) == Some(Fields(year, month, day, hour, minute))
    requires 1 <= month <= 12 && !(0 <= year <= 99)
    ensures var t := LocalMinutes(year, month, day, hour, minute);
      && (-MaxInstantMinutes <= t <= MaxInstantMinutes ==> ParseText(s) == Ok(Some(t)))
      && (t < -MaxInstantMinutes || t > MaxInstantMinutes ==> ParseText(s).Err?)
  {
    var f := Fields(year, month, day, hour, minute);
    InstantOfOrdinaryDateOk(f);
    if Instant(f).Ok? {
      ParseTextOfFields(s, f);
    }
  }

  /** The fields read from `Y-M-D HH:MM` are the numerals' values. */
  lemma YmdDateTimeFields(d: string, m: string, y: string, h: string, mi: string)
    requires IsNumeral(d) && IsNumeral(m) && IsNumeral(y) && IsNumeral(h) && IsNumeral(mi)
    requires DigitsValue(d) != 0 && DigitsValue(m) != 0 && DigitsValue(y) != 0
    ensures ReadFields(YmdText(y, m, d) + " " + h + ":" + mi)
         == Some(Fields(DigitsValue(y), DigitsValue(m), DigitsValue(d), DigitsValue(h), DigitsValue(mi)))
  {
    YmdFields(d, m, y);
    YmdTextHasNoSpace(d, m, y);
    DateTimeText(YmdText(y, m, d), h, mi);
  }

  /** A date whose fields are null stays null whatever time follows it. */
  lemma NullDateWithTime(date: string, h: string, mi: string)
    requires |date| > 0 && ' ' !in date && IsNumeral(h) && IsNumeral(mi)
    requires ReadFields(date).None?
    ensures ReadFields(date + " " + h + ":" + mi).None?
  {
    var time := h + ":" + mi;
    NumeralHasNoSeparator(h);
    NumeralHasNoSeparator(mi);
    assert date + " " + h + ":" + mi == date + " " + time;
    ReadFieldsOfDateAndTime(date, time);
    SplitNoSeparator(date, ' ');
    assert ReadFields(date) == FieldsOf(date, "");
  }

  /** Text with no white space at either end is parsed as it stands. */
  lemma ParseOfTrimmedText(s: string)
    requires s != "" && IsTrimmed(s)
    ensures ParseVnDateTime(JStr(s)) == ParseText(s)
  {
    assert Truthy(JStr(s)) && ToStr(JStr(s)) == s;
    TrimOfTrimmed(s);
  }

  /** A text that starts with a digit and ends with a numeral is its own trim,
      so `parseVnDateTime` of it is the parser on the text itself. */
  lemma ParseOfDigitText(date: string, h: string, mi: string)
    requires |date| > 0 && IsDigit(date[0]) && IsNumeral(mi)
    ensures ParseVnDateTime(JStr(date + " " + h + ":" + mi)) == ParseText(date + " " + h + ":" + mi)
  {
    var s := date + " " + h + ":" + mi;
    assert IsTrimmed(s) by {
      assert s[0] == date[0] && s[|s| - 1] == mi[|mi| - 1];
    }
    ParseOfTrimmedText(s);
  }

  /** `parseVnDateTime` of a `D/M/Y HH:MM` text with a month in 1..12 and a
      year past 99: null when the day is zero, otherwise the calendar day at
      hh:mm in UTC+7 when that instant is in range, and an error when not. */
  lemma VnDateTimeOfDmy(d: string, m: string, y: string, h: string, mi: string)
    requires IsNumeral(d) && IsNumeral(m) && IsNumeral(y) && IsNumeral(h) && IsNumeral(mi)
    requires 1 <= DigitsValue(m) <= 12 && DigitsValue(y) >= 100
    ensures var r := ParseVnDateTime(JStr(DmyText(d, m, y) + " " + h + ":" + mi));
      var t := LocalMinutes(DigitsValue(y), DigitsValue(m), DigitsValue(d), DigitsValue(h), DigitsValue(mi));
      && (DigitsValue(d) == 0 ==> r == Ok(None))
      && (DigitsValue(d) != 0 && -MaxInstantMinutes <= t <= MaxInstantMinutes ==> r == Ok(Some(t)))
      && (DigitsValue(d) != 0 && (t < -MaxInstantMinutes || t > MaxInstantMinutes) ==> r.Err?)
  {
    var date := DmyText(d, m, y);
    var s := date + " " + h + ":" + mi;
    assert date[0] == d[0];
    ParseOfDigitText(date, h, mi);
    DmyTextHasNoSpace(d, m, y);
    if DigitsValue(d) == 0 {
      DmyFields(d, m, y);
      NullDateWithTime(date, h, mi);
    } else {
      DmyDateTimeFields(d, m, y, h, mi);
      OrdinaryInstantParses(s, DigitsValue(y), DigitsValue(m), DigitsValue(d), DigitsValue(h), DigitsValue(mi));
    }
  }

  /** `parseVnDateTime` of a `Y-M-D HH:MM` text reads like its `D/M/Y` twin. */
  lemma VnDateTimeOfYmd(d: string, m: string, y: string, h: string, mi: string)
    requires IsNumeral(d) && IsNumeral(m) && IsNumeral(y) && IsNumeral(h) && IsNumeral(mi)
    requires 1 <= DigitsValue(m) <= 12 && DigitsValue(y) >= 100
    ensures var r := ParseVnDateTime(JStr(YmdText(y, m, d) + " " + h + ":" + mi));
      var t := LocalMinutes(DigitsValue(y), DigitsValue(m), DigitsValue(d), DigitsValue(h), DigitsValue(mi));
      && (DigitsValue(d) == 0 ==> r == Ok(None))
      && (DigitsValue(d) != 0 && -MaxInstantMinutes <= t <= MaxInstantMinutes ==> r == Ok(Some(t)))
      && (DigitsValue(d) != 0 && (t < -MaxInstantMinutes || t > MaxInstantMinutes) ==> r.Err?)
  {
    var date := YmdText(y, m, d);
    var s := date + " " + h + ":" + mi;
    assert date[0] == y[0];
    ParseOfDigitText(date, h, mi);
    YmdTextHasNoSpace(d, m, y);
    if DigitsValue(d) == 0 {
      YmdFields(d, m, y);
      NullDateWithTime(date, h, mi);
    } else {
      YmdDateTimeFields(d, m, y, h, mi);
      OrdinaryInstantParses(s, DigitsValue(y), DigitsValue(m), DigitsValue(d), DigitsValue(h), DigitsValue(mi));
    }
  }

  /** The fields read from `D/M/Y HH:MM` are the numerals' values. */
  lemma DmyDateTimeFields(d: string, m: string, y: string, h: string, mi: string)
    requires IsNumeral(d) && IsNumeral(m) && IsNumeral(y) && IsNumeral(h) && IsNumeral(mi)
    requires DigitsValue(d) != 0 && DigitsValue(m) != 0 && DigitsValue(y) != 0
    ensures ReadFields(DmyText(d, m, y) + " " + h + ":" + mi)
         == Some(Fields(DigitsValue(y), DigitsValue(m), DigitsValue(d), DigitsValue(h), DigitsValue(mi)))
  {
    DmyFields(d, m, y);
    DmyTextHasNoSpace(d, m, y);
    DateTimeText(DmyText(d, m, y), h, mi);
  }

  lemma ExampleText()
    ensures DmyText("27", "11", "2025") + " " + "09" + ":" + "39" == "27/11/2025 09:39"
  {
  }

  lemma ExampleDay()
    ensures DaysFromCivil(2025, 11, 27) == 20419
  {
  }

  lemma ExampleNumerals()
    ensures DigitsValue("27") == 27 && DigitsValue("11") == 11 && DigitsValue("2025") == 2025
    ensures DigitsValue("09") == 9 && DigitsValue("39") == 39
  {
    assert "27"[..1] == "2" && "11"[..1] == "1" && "09"[..1] == "0" && "39"[..1] == "3";
    assert "2025"[..3] == "202" && "202"[..2] == "20" && "20"[..1] == "2";
  }

  /** The reading `27/11/2025 09:39` in Vietnam is 2025-11-27T02:39:00.000Z,
      20419 days and 159 minutes after the epoch. */
  lemma ExampleDeathTime(input: JVal)
    requires input == JStr("27/11/2025 09:39")
    ensures ParseVnDateTime(input) == Ok(Some(20419 * 1440 + 2 * 60 + 39))
  {
    ExampleNumerals();
    ExampleDay();
    ExampleText();
    VnDateTimeOfDmy("27", "11", "2025", "09", "39");
  }
}

=== FILE: webhook11053.dfy ===
/** `webhook11053Atct` (src/modules/workflow/webhook11053Atct.ts): the
    same two-way intake as the 11055 webhook, feeding the ATCT table. */
module Webhook11053 {
  import opened Wrappers
  import opened JsValue
  import opened WebhookPayload
  import opened FullSync11053
  import opened AtctStore
  import opened Seqs

  const NoJobError := "No job or job_id in webhook payload"

  /** The fallback of `err?.message || "Unknown error"`. */
  const NoMessageText := "Unknown error"

  /** The `job_id` echoed for a full job: `job.id || job.job_id || null`. */
  function EchoedId(job: JVal): (r: JVal)
    ensures Truthy(Get(job, "id")) ==> r == Get(job, "id")
    ensures !Truthy(Get(job, "id")) && Truthy(Get(job, "job_id")) ==> r == Get(job, "job_id")
    ensures !Truthy(r) ==> r == JNull
  {
    Or(Or(Get(job, "id"), Get(job, "job_id")), JNull)
  }

  /** Processes one job and answers for it. The answer is 200 exactly when
      the job is present and either closed or mappable to a row; the job's
      row is then gone when it is completed or failed, holds its mapping
      when it is open, and no other row changes. A thrown error answers 500
      with its message and leaves the table as it was. */
  function ProcessAndReply(t: Table, job: JVal, now: int, success: ReplyBody): (r: (Table, Reply))
    ensures r.1.status in {200, 500}
    ensures r.1.status == 200 <==>
      !IsNullish(job) && (VerdictOf(job) != Open || MapJobToAtctRow(job, now).Ok?)
    ensures r.1.status == 200 ==>
      && r.1.body == success
      && SameExcept(t, r.0, JobKey(job))
      && (JobKey(job) in r.0 <==> VerdictOf(job) == Open)
      && (JobKey(job) in r.0 ==> r.0[JobKey(job)] == MapJobToAtctRow(job, now).value)
    ensures r.1.status != 200 ==>
      r == (t, Reply(500, Failure(ErrorText(ProcessJob(t, job, now).error, NoMessageText))))
  {
    match ProcessJob(t, job, now)
    case Err(e) => (t, Reply(500, Failure(ErrorText(e, NoMessageText))))
    case Ok(o) => (o.table, Reply(200, success))
  }

  /** `webhook11053Atct(req, res)` with `req.body == body`. */
  function Webhook(t: Table, body: JVal, fetch: string -> Result<JVal>, now: int): (r: (Table, Reply))
    ensures r.1.status in {200, 400, 500}
    ensures r.1.status == 400 <==>
      ExtractJobFromWebhook(BodyOf(body)) == JNull && ExtractJobIdFromWebhook(BodyOf(body)).None?
    ensures r.1.status != 200 ==> r.0 == t
    ensures r.1.status == 200 ==> r.1.body.Success?
    ensures var job := ExtractJobFromWebhook(BodyOf(body));
      job != JNull ==>
        && (r.1.status == 200 <==> ProcessJob(t, job, now).Ok?)
        && (r.1.status == 200 ==> r == (ProcessJob(t, job, now).value.table, Reply(200, Success(JobInPayload, Some(EchoedId(job))))))
        && (r.1.status != 200 ==> r == (t, Reply(500, Failure(ErrorText(ProcessJob(t, job, now).error, NoMessageText)))))
  {
    var payload := BodyOf(body);
    var job := ExtractJobFromWebhook(payload);
    if job != JNull then ProcessAndReply(t, job, now, Success(JobInPayload, Some(EchoedId(job))))
    else match ExtractJobIdFromWebhook(payload)
      case None => (t, Reply(400, Failure(NoJobError)))
      case Some(jobId) =>
        match fetch(jobId)
        case Err(e) => (t, Reply(500, Failure(ErrorText(e, NoMessageText))))
        case Ok(detail) => ProcessAndReply(t, detail, now, Success(FetchJob, Some(JStr(jobId))))
  }

  /** Without a full job, the handler fetches exactly the id it extracted:
      a failed fetch or a fetched job that cannot be processed answers 500
      with the table as it was; otherwise the fetched job's outcome is
      stored and the id echoed. */
  lemma FetchesExtractedId(t: Table, body: JVal, fetch: string -> Result<JVal>, now: int)
    requires ExtractJobFromWebhook(BodyOf(body)) == JNull
    requires ExtractJobIdFromWebhook(BodyOf(body)).Some?
    ensures var jobId := ExtractJobIdFromWebhook(BodyOf(body)).value;
      && (fetch(jobId).Err? ==> Webhook(t, body, fetch, now) == (t, Reply(500, Failure(ErrorText(fetch(jobId).error, NoMessageText)))))
      && (fetch(jobId).Ok? && ProcessJob(t, fetch(jobId).value, now).Ok? ==>
            Webhook(t, body, fetch, now) ==
              (ProcessJob(t, fetch(jobId).value, now).value.table, Reply(200, Success(FetchJob, Some(JStr(jobId))))))
      && (fetch(jobId).Ok? && ProcessJob(t, fetch(jobId).value, now).Err? ==>
            Webhook(t, body, fetch, now) ==
              (t, Reply(500, Failure(ErrorText(ProcessJob(t, fetch(jobId).value, now).error, NoMessageText)))))
  {
  }

  /** A full job in the body is processed directly and its id echoed. */
  lemma JobInPayloadReply(t: Table, body: JVal, fetch: string -> Result<JVal>, now: int)
    requires var job := ExtractJobFromWebhook(BodyOf(body));
      job != JNull && ProcessJob(t, job, now).Ok?
    ensures var job := ExtractJobFromWebhook(BodyOf(body));
      Webhook(t, body, fetch, now) ==
        (ProcessJob(t, job, now).value.table, Reply(200, Success(JobInPayload, Some(EchoedId(job)))))
  {
  }

  /** A completed job delivered in full deletes its row and answers 200. */
  lemma CompletedJobInPayload(t: Table, body: JVal, fetch: string -> Result<JVal>, now: int)
    requires var job := ExtractJobFromWebhook(BodyOf(body));
      job != JNull && IsCompletedStatus(JobStatusRaw(job))
    ensures var job := ExtractJobFromWebhook(BodyOf(body));
      && Webhook(t, body, fetch, now).1.status == 200
      && JobKey(job) !in Webhook(t, body, fetch, now).0
  {
  }
}

=== FILE: webhook11055.dfy ===
/** `webhook11055` (src/modules/workflow/webhook11055.ts): process the full
    job a webhook carries, or fetch it by id first. The Base fetch is a
    parameter: it returns the job detail or the error it throws. */
module Webhook11055 {
  import opened Wrappers
  import opened JsValue
  import opened WebhookPayload
  import opened HuyetMoStore

  const NoJobError := "No job or job_id in payload"

  /** `String(err)` of an error without a message, the fallback of `err?.message || String(err)`. */
  const NoMessageText := "Error"

  /** Processes one job and answers for it. */
  function ProcessAndReply(db: Db, job: JVal, defaultId: JVal, now: int, success: ReplyBody): (r: (Db, Reply))
    ensures r.0 == ProcessJob(db, job, defaultId, now).db
    ensures r.1.status == 200 <==> ProcessJob(db, job, defaultId, now).error.None?
    ensures r.1.status == 200 ==> r.1.body == success
    ensures r.1.status != 200 ==>
      r.1 == Reply(500, Failure(ErrorText(ProcessJob(db, job, defaultId, now).error.value, NoMessageText)))
  {
    var p := ProcessJob(db, job, defaultId, now);
    match p.error
    case Some(e) => (p.db, Reply(500, Failure(ErrorText(e, NoMessageText))))
    case None => (p.db, Reply(200, success))
  }

  /** `webhook11055(req, res)` with `req.body == body`. */
  function Webhook(db: Db, body: JVal, fetch: string -> Result<JVal>, defaultId: JVal, now: int): (r: (Db, Reply))
    ensures r.1.status in {200, 400, 500}
    ensures r.1.status == 400 <==>
      ExtractJobFromWebhook(BodyOf(body)) == JNull && ExtractJobIdFromWebhook(BodyOf(body)).None?
    ensures r.1.status == 400 ==> r.0 == db && r.1.body == Failure(NoJobError)
    ensures ExtractJobFromWebhook(BodyOf(body)) != JNull ==>
      var p := ProcessJob(db, ExtractJobFromWebhook(BodyOf(body)), defaultId, now);
      && r.0 == p.db
      && (r.1.status == 200 <==> p.error.None?)
      && (r.1.status == 200 ==> r.1.body == Success(JobInPayload, None))
    ensures r.1.status == 200 ==> r.1.body.Success?
  {
    var payload := BodyOf(body);
    var job := ExtractJobFromWebhook(payload);
    if job != JNull then ProcessAndReply(db, job, defaultId, now, Success(JobInPayload, None))
    else match ExtractJobIdFromWebhook(payload)
      case None => (db, Reply(400, Failure(NoJobError)))
      case Some(jobId) =>
        match fetch(jobId)
        case Err(e) => (db, Reply(500, Failure(ErrorText(e, NoMessageText))))
        case Ok(detail) => ProcessAndReply(db, detail, defaultId, now, Success(FetchJob, Some(JStr(jobId))))
  }

  /** Without a full job, the handler fetches exactly the id it extracted:
      a failed fetch answers 500 and writes nothing; a fetched job is
      processed, answered 200 with the id echoed exactly when processing
      throws nothing. */
  lemma FetchesExtractedId(db: Db, body: JVal, fetch: string -> Result<JVal>, defaultId: JVal, now: int)
    requires ExtractJobFromWebhook(BodyOf(body)) == JNull
    requires ExtractJobIdFromWebhook(BodyOf(body)).Some?
    ensures var jobId := ExtractJobIdFromWebhook(BodyOf(body)).value;
      && (fetch(jobId).Err? ==> Webhook(db, body, fetch, defaultId, now) == (db, Reply(500, Failure(ErrorText(fetch(jobId).error, NoMessageText)))))
      && (fetch(jobId).Ok? ==>
            && Webhook(db, body, fetch, defaultId, now).0 == ProcessJob(db, fetch(jobId).value, defaultId, now).db
            && (Webhook(db, body, fetch, defaultId, now).1.status == 200 <==>
                  ProcessJob(db, fetch(jobId).value, defaultId, now).error.None?)
            && (Webhook(db, body, fetch, defaultId, now).1.status == 200 ==>
                  Webhook(db, body, fetch, defaultId, now).1.body == Success(FetchJob, Some(JStr(jobId)))))
  {
  }

  /** A full job in the body wins over any id beside it: nothing is fetched. */
  lemma FullJobNeedsNoFetch(db: Db, body: JVal, f: string -> Result<JVal>, g: string -> Result<JVal>, defaultId: JVal, now: int)
    requires ExtractJobFromWebhook(BodyOf(body)) != JNull
    ensures Webhook(db, body, f, defaultId, now) == Webhook(db, body, g, defaultId, now)
  {
  }

  /** An open job with a null or undefined follower fails while its system
      fields are read, before the database is touched: the handler answers
      500 with that TypeError and nothing changes. */
  lemma SystemErrorWritesNothing(db: Db, body: JVal, fetch: string -> Result<JVal>, defaultId: JVal, now: int)
    requires var job := ExtractJobFromWebhook(BodyOf(body));
      job != JNull && VerdictOf(job) == Open && SystemError(job).Some?
    ensures var job := ExtractJobFromWebhook(BodyOf(body));
      Webhook(db, body, fetch, defaultId, now) == (db, Reply(500, Failure(SystemError(job).value)))
  {
  }

  /** A full job whose composite title is not text, and whose system fields
      read cleanly, is still upserted before the handler answers 500. */
  lemma PartialEffectOnError(db: Db, body: JVal, fetch: string -> Result<JVal>, defaultId: JVal, now: int)
    requires var job := ExtractJobFromWebhook(BodyOf(body));
      job != JNull && VerdictOf(job) == Open && SystemError(job).None? && !CompositeSource(job).JStr?
    ensures var job := ExtractJobFromWebhook(BodyOf(body));
      && Webhook(db, body, fetch, defaultId, now).1 == Reply(500, Failure(TrimError))
      && ToStr(Get(job, "id")) in Webhook(db, body, fetch, defaultId, now).0.jobs
  {
    var job := ExtractJobFromWebhook(BodyOf(body));
    var p := ProcessJob(db, job, defaultId, now);
    assert PlanOf(job).parsed == Err(TrimError);
    assert p.error == Some(TrimError);
    assert ProcessAndReply(db, job, defaultId, now, Success(JobInPayload, None)) == (p.db, Reply(500, Failure(TrimError)));
  }
}

=== FILE: webhook_payload.dfy ===
/** Reading a Base webhook body: the two helpers `extractJobFromWebhook`
    and `extractJobIdFromWebhook`, which src/modules/workflow/webhook11055.ts
    and src/modules/workflow/webhook11053Atct.ts define identically. */
module WebhookPayload {
  import opened Wrappers
  import opened Strings
  import opened JsValue

  /** The places a webhook may carry a full job, in the order they are tried. */
  function WebhookProbes(payload: JVal): seq<Probe> {
    var data := Get(payload, "data");
    [ Probe(IsObjectLike(Get(payload, "job")), Get(payload, "job")),
      Probe(IsObjectLike(Get(data, "job")), Get(data, "job")),
      Probe(IsObjectLike(Get(data, "item")), Get(data, "item")),
      Probe(IsObjectLike(Get(payload, "item")), Get(payload, "item")) ]
  }

  /** `extractJobFromWebhook(payload)`; `JNull` stands for the `null` it returns. */
  function ExtractJobFromWebhook(payload: JVal): (r: JVal)
    ensures !IsObjectLike(payload) ==> r == JNull
    ensures r == JNull || IsObjectLike(r)
    ensures r != JNull ==> exists k :: 0 <= k < 4 && WebhookProbes(payload)[k].hit && r == WebhookProbes(payload)[k].value
  {
    var ps := WebhookProbes(payload);
    if !IsObjectLike(payload) then JNull
    else
      var data := Get(payload, "data");
      if IsObjectLike(Get(payload, "job")) then assert ps[0].hit; Get(payload, "job")
      else if IsObjectLike(Get(data, "job")) then assert ps[1].hit; Get(data, "job")
      else if IsObjectLike(Get(data, "item")) then assert ps[2].hit; Get(data, "item")
      else if IsObjectLike(Get(payload, "item")) then assert ps[3].hit; Get(payload, "item")
      else JNull
  }

  /** The places are tried strictly in order: an object body yields the
      first full job found, and null when there is none. */
  lemma WebhookProbeOrder(payload: JVal)
    requires IsObjectLike(payload)
    ensures ExtractJobFromWebhook(payload) == FirstHit(WebhookProbes(payload)).GetOr(JNull)
  {
    var ps := WebhookProbes(payload);
    assert ps[1..][0] == ps[1] && ps[2..][0] == ps[2] && ps[3..][0] == ps[3];
    assert ps[1..][1..] == ps[2..] && ps[2..][1..] == ps[3..] && ps[3..][1..] == [];
    assert FirstHit(ps[3..]) == if ps[3].hit then Some(ps[3].value) else None;
    assert FirstHit(ps[2..]) == if ps[2].hit then Some(ps[2].value) else FirstHit(ps[3..]);
    assert FirstHit(ps[1..]) == if ps[1].hit then Some(ps[1].value) else FirstHit(ps[2..]);
  }

  /** `payload.job_id ?? payload.id ?? payload.data?.job_id ?? payload.data?.id ?? null`. */
  function JobIdCandidate(payload: JVal): JVal {
    var data := Get(payload, "data");
    Coalesce(Get(payload, "job_id"), Coalesce(Get(payload, "id"),
      Coalesce(Get(data, "job_id"), Coalesce(Get(data, "id"), JNull))))
  }

  /** `extractJobIdFromWebhook(payload)`: the candidate as trimmed text, or
      nothing when it is falsy or only white space. */
  function ExtractJobIdFromWebhook(payload: JVal): (r: Option<string>)
    ensures r.Some? ==> r.value != "" && IsTrimmed(r.value)
    ensures r.Some? ==> r.value == Trim(ToStr(JobIdCandidate(payload)))
    ensures r.None? <==> !Truthy(JobIdCandidate(payload)) || Trim(ToStr(JobIdCandidate(payload))) == ""
  {
    var cand := JobIdCandidate(payload);
    if !Truthy(cand) then None
    else
      var s := Trim(ToStr(cand));
      if s == "" then None else Some(s)
  }

  /** A job id sent as trimmed text comes back unchanged. */
  lemma JobIdOfText(payload: JVal, s: string)
    requires payload.JObj? && Get(payload, "job_id") == JStr(s)
    requires s != "" && IsTrimmed(s)
    ensures ExtractJobIdFromWebhook(payload) == Some(s)
  {
    TrimOfTrimmed(s);
  }

  /** A non-zero numeric id comes back as its decimal text, wherever the
      chain first finds it. */
  lemma JobIdOfNumber(payload: JVal, n: int)
    requires n != 0 && JobIdCandidate(payload) == JNum(n)
    ensures ExtractJobIdFromWebhook(payload) == Some(IntToStr(n))
  {
    IntToStrIsTrimmed(n);
  }

  /** `??` only skips null and undefined: a present but falsy `job_id`
      (empty text, 0, false) hides a usable `id` beside it. */
  lemma EmptyJobIdShadowsId(payload: JVal)
    requires !IsNullish(Get(payload, "job_id")) && !Truthy(Get(payload, "job_id"))
    ensures ExtractJobIdFromWebhook(payload) == None
  {
  }

  /** What a handler answers: an HTTP status with `{ ok: true, mode, job_id }`
      or `{ ok: false, error }`. */
  datatype ReplyBody = Success(mode: string, jobId: Option<JVal>) | Failure(error: string)

  datatype Reply = Reply(status: int, body: ReplyBody)

  /** The text a handler answers an error with: its message, or the
      handler's fallback text when the message is empty. */
  function ErrorText(message: string, fallback: string): (r: string)
    requires fallback != ""
    ensures r != ""
    ensures message != "" ==> r == message
    ensures message == "" ==> r == fallback
  {
    if message != "" then message else fallback
  }

  const JobInPayload := "job-in-payload"
  const FetchJob := "fetch-job"

  /** `req.body || {}`. */
  function BodyOf(body: JVal): (r: JVal)
    ensures Truthy(body) ==> r == body
    ensures !Truthy(body) ==> r == JObj(map[])
    ensures Truthy(r)
  {
    Or(body, JObj(map[]))
  }
}

=== FILE: wrappers.dfy ===
/** Failure-carrying values shared by every module of the model. */
module Wrappers {

  /** A JavaScript value that may be null/undefined, or an absent map entry. */
  datatype Option<+T> = None | Some(value: T) {
    function GetOr(default: T): T {
      match this
      case Some(v) => v
      case None => default
    }
  }

  /** The outcome of a step that may throw: `Err` carries the thrown message. */
  datatype Result<+T> = Ok(value: T) | Err(error: string)
}
